=== FILE: README.md ===
# Speed reader core, modelled in Dafny

This project models the core of a browser speed reader, which shows a text one word at a time. It covers three parts.

- **Text processor** (`TextProcessor`):
  - `cleanText` strips tags, decodes entities, removes escape codes and normalises white space;
  - the cleaned text is split into paragraphs, sentences and words;
  - the document is then flattened into one addressable word array, which the lookups by global word index also use.
- **Playback engine** (`ReaderEngine`) is a state machine with these parts:
  - the reading and paused flags;
  - the current word index into the flat array;
  - the speed;
  - one pending timer;
  - the one-shot "just jumped to a sentence" flag.

  Its navigation scans backwards and forwards over runs of equal `sentenceIndex`. The key dispatch of the control panel drives it.
- **Library** (`LibraryManager`): the list of saved documents. Its operations are add, update, delete, sort by recency, title generation, the storage-threshold check, and filing the unsaved bookmarklet text.

Everything is immutable data and pure functions, plus methods where the source loops. Each engine operation takes an `Engine` value and returns the next one, along with the display and save calls it makes, as a list of `Effect`s.

The modules follow the source files:

| Module | File | Covers |
|---|---|---|
| `Wrappers` | `wrappers.dfy` | `Option` and `Result` |
| `Strings` | `strings.dfy` | JavaScript white space, `trim` and literal replace-all |
| `Clean` | `clean.dfy` | `cleanText` and its passes |
| `Segmenter` | `segmenter.dfy` | `parseParagraphs`, `parseSentences`, `parseWords` and `processText` |
| `Flatten` | `flatten.dfy` | `getAllWordsFlat` and the two lookups |
| `Scans` | `scans.dfy` | the backward and forward sentence scans of `reader.js` |
| `Reader` | `reader.dfy` | the engine |
| `Controls` | `controls.dfy` | key dispatch and event runs |
| `Library` | `library.dfy` | `LibraryManager` |

The numeric and hexadecimal character references of `decodeHtmlEntities` are a parameter, `refs: string -> string`. Every property of `CleanText` holds whatever `refs` does.

### Behaviour worth knowing

- **Sentence indices restart in every paragraph.**
  - `sentenceIndex` restarts at 0 in every paragraph, and the flat array copies it unchanged.
  - The scans compare these local indices. So two adjacent sentences in different paragraphs that share an index form one run.
  - `Scans.RunCrossesParagraphs` shows this on the document that `One.`, a blank line and `Two.` parse to.
- **`loadText` leaves playback alone.** It does not pause, and it does not cancel a pending timer.
- **`cleanText` is not idempotent.** Tags are removed before entities are decoded, so `&lt;b&gt;` survives one pass as `<b>`.
- **`normalizeWhitespace` can leave several spaces.** It collapses runs of spaces before it turns tabs into spaces, so a tab next to a space gives two spaces.
- **There is no paragraph-level navigation.**
- **A script or style block ends at its first close tag.**
  - The block expressions (`textProcessor.js:35-36`) are modelled exactly by `StripBlocks`.
  - A block runs from `<script` or `<style` through the first `</script>` or `</style>` after it.
  - The name must be followed by a non-word character, which is the `\b` check.
  - ASCII letters match without regard to case, as the `i` flag folds them. The negative lookahead is tested under the same flag.
  - The lookahead forbids the body to pass a close tag, so no backtracking can end a match anywhere but at the first close tag.
  - A block with no close tag after it is not removed, and its `<` is left to the tag pass.

## Model

| member | source | states |
|---|---|---|
| Strings.Trim | textProcessor.js:29 | `trim` leaves an empty string or one that starts and ends with a non-white-space character; the result is empty exactly when the input is all white space |
| Strings.TrimParts | textProcessor.js:29 | what `trim` drops is white space at the two ends, and the input is that prefix, the result and that suffix, in order |
| Strings.RemoveWsTrim | textProcessor.js:29 | trimming never loses a non-white-space character |
| Strings.ReplaceAll | textProcessor.js:65 | `split(p).join(q)` introduces no character that is not in the input or in `q`; for a one-character pattern, that character survives only where the replacement brings it; a text in which the pattern's first character does not occur comes back unchanged |
| Strings.ReplaceAllAt | textProcessor.js:65 | the text before the first occurrence of the pattern is kept, that occurrence becomes the replacement, and replacement carries on after it |
| Strings.ReplaceAllPrefix | textProcessor.js:65 | a prefix without the pattern's first character is kept, and replacement carries on after it |
| Strings.ReplaceAllKeepsLetters | textProcessor.js:95 | replacing white space by white space keeps every other character, in order |
| Strings.TrimUnique | textProcessor.js:29 | white space, then a non-empty text that starts and ends with non-white-space characters, then white space: `trim` returns exactly that text |
| Clean.RemoveHtmlTags | textProcessor.js:33-42 | after the script, style and tag passes, no `<` is followed by a `>` with other characters in between, and every character comes from the input or is the space a tag became |
| Clean.StripBlocksAt | textProcessor.js:35-36 | text without `<` before a block is kept, and the block, from its opening name through the first close tag after it, is deleted |
| Clean.ReplaceTagsAt | textProcessor.js:39 | text without `<` before a tag is kept, the tag becomes exactly one space, and replacement carries on after it |
| Clean.RemoveHtmlTagsTag | textProcessor.js:33-42 | an ordinary tag after text without `<` becomes one space in the whole markup pass, and the text before it is kept |
| Clean.RemoveHtmlTagsScript | textProcessor.js:35 | a script block after text without `<` is deleted whole by the markup pass, and the text before it is kept |
| Clean.BoldTagsBecomeSpaces | textProcessor.js:33-42 | `Hello <b>x</b>` becomes `Hello  x `, with both words kept |
| Clean.RemoveHtmlTagsPlain | textProcessor.js:33-42 | text without `<` holds no block and no tag, so it passes markup removal unchanged |
| Clean.DecodeHtmlEntities | textProcessor.js:45-73 | text without `&` passes decoding unchanged, when the character references leave such text alone |
| Clean.NamedEntitiesPlain | textProcessor.js:46-66 | every entity name starts with `&`, so text without `&` passes the whole named table unchanged |
| Clean.DoubleEscapedEntityDecodesTwice | textProcessor.js:46-66 | the entity table is applied in order, each entry to the previous entry's output, so `&amp;lt;` decodes to `<` |
| Clean.ReplaceInOrderUnchanged | textProcessor.js:64-66 | a text shorter than every entity name passes the sequential table unchanged |
| Clean.RemoveEscapeCodes | textProcessor.js:76-87 | no backslash and none of the stripped control characters remain; every character is from the input or is the newline or space an escape became |
| Clean.RemoveEscapeCodesPlain | textProcessor.js:76-87 | text without a backslash and without a stripped control character passes unchanged |
| Clean.RemoveEscapeCodesPrefix | textProcessor.js:76-87 | a prefix without a backslash or a stripped control character is kept, and removal carries on after it |
| Clean.RemoveEscapeCodesNewline | textProcessor.js:78 | after such a prefix, the two characters backslash and `n` become one line feed |
| Clean.RemoveEscapeCodesTab | textProcessor.js:79 | after such a prefix, backslash and `t` become one space |
| Clean.RemoveEscapeCodesReturn | textProcessor.js:80 | after such a prefix, backslash and `r` are deleted |
| Clean.RemoveEscapeCodesLone | textProcessor.js:81 | after such a prefix, any other backslash is deleted and the character after it kept |
| Clean.EscapedNewlineAndTab | textProcessor.js:76-87 | the text `a`, backslash, `n`, `b`, backslash, `t`, `c` becomes `a`, a line feed, `b`, a space, `c` |
| Clean.NormalizeWhitespace | textProcessor.js:90-101 | no tab remains, no space stands directly before or after a newline, and the only new character is the space |
| Clean.CollapseKeepsLetters | textProcessor.js:92 | collapsing runs of a white-space character keeps every other character, in order |
| Clean.TrimAroundNewlinesKeepsLetters | textProcessor.js:98 | deleting the spaces around line feeds keeps every non-white-space character, in order |
| Clean.NormalizeWhitespaceKeepsLetters | textProcessor.js:90-101 | normalisation changes only white space: the non-white-space characters are those of the input, in order |
| Clean.NewlineLimit | textProcessor.js:27 | replacing runs of three or more newlines by two leaves no three consecutive newlines and keeps "no space next to a newline" |
| Clean.LimitAndTrim | textProcessor.js:27-29 | the last two steps give a trimmed text without three consecutive newlines, made only of input characters |
| Clean.LimitAndTrimKeepsLetters | textProcessor.js:27-29 | the blank-line limit and the trim change only white space |
| Clean.CleanText | textProcessor.js:7-30 | an empty input gives `""`; otherwise the result is trimmed, has no three consecutive newlines, no backslash, no tab and no space next to a newline, and its only ASCII control characters are LF and CR |
| Clean.CleanTextKeepsLetters | textProcessor.js:7-30 | text with no markup, no entity, no backslash and no stripped control character keeps all its non-white-space characters, in order |
| Segmenter.HasPausingPunctuation | textProcessor.js:198-201 | true exactly when the word contains one of `. , ; : ? ! —` |
| Segmenter.Tokens | textProcessor.js:184-187 | splitting at white space and dropping empty tokens gives non-empty tokens without white space that spell out the input's non-white-space characters in order |
| Segmenter.TokensOfJoined | textProcessor.js:184-187 | tokenising undoes joining with spaces, for non-empty tokens without white space |
| Segmenter.ParseWords | textProcessor.js:178-195 | words are non-empty and free of white space, numbered 0..n-1, flagged exactly when they contain pausing punctuation, and spell out the text's non-white-space characters |
| Segmenter.SentenceMatchesSound | textProcessor.js:132-133 | every match of `/[.!?]+(?:\s+\|$)/g` is a maximal run of terminators followed by white space or the end of the text, and takes all of that white space |
| Segmenter.SentenceMatchesComplete | textProcessor.js:132-133 | every maximal run of terminators followed by white space or the end of the text starts a match |
| Segmenter.ParseSentences | textProcessor.js:125-175 | sentence indices run 0..n-1; text that is not all white space gives at least one sentence, each with non-empty trimmed text whose words are its parsed words; trimmed text without `.!?` gives exactly one sentence, equal to the text |
| Segmenter.ParseSentencesLetters | textProcessor.js:125-175 | the sentences' words together spell out exactly the non-white-space characters of the text, so splitting loses and duplicates nothing |
| Segmenter.ParseSentencesSplit | textProcessor.js:125-175 | the text is the sentences' texts in order, separated by non-empty white space; every sentence but the last ends in `.`, `!` or `?`; no sentence has one of those directly before white space |
| Segmenter.OneWordSentence | textProcessor.js:125-195 | a non-empty text without white space is one sentence of one word, the text itself |
| Segmenter.SplitBlankLines | textProcessor.js:110 | splitting at runs of two or more newlines gives pieces without a blank line, whose concatenation is the text with those runs deleted |
| Segmenter.SplitBlankLinesSingle | textProcessor.js:110 | a text without two consecutive newlines is one piece, unchanged |
| Segmenter.SplitBlankLinesAt | textProcessor.js:110 | two or more newlines between texts that do not touch them with newlines of their own separate the pieces of the two texts |
| Segmenter.ParseParagraphs | textProcessor.js:104-122 | paragraphs are numbered 0..n-1 and have non-empty trimmed text without a blank line; each has at least one sentence, its sentences are numbered 0..m-1, and each sentence has non-empty trimmed text and its parsed words |
| Segmenter.ParseParagraphsSingle | textProcessor.js:104-122 | a text that is not all white space and has no blank line is exactly one paragraph, whose text is the trimmed text |
| Segmenter.ParseParagraphsLetters | textProcessor.js:104-122 | the paragraphs' words together spell out exactly the text's non-white-space characters |
| Segmenter.CountTotals | textProcessor.js:221-229 | the loop's totals are the number of sentences and the number of words over all paragraphs |
| Segmenter.ProcessText | textProcessor.js:204-239 | the document keeps the raw text, cleans it and parses it; the three totals are the paragraph, sentence and word counts; it has no words exactly when the cleaned text is empty |
| Segmenter.CleanedWords | textProcessor.js:207-218 | a trimmed text yields no words exactly when it is empty |
| Flatten.GetAllWordsFlat | textProcessor.js:242-263 | the nested loops build the reference flat array, its length is the document's word count, and entry t has global index t |
| Flatten.FlatParagraphsAt | textProcessor.js:246-257 | word k of sentence j of paragraph i sits at the offset given by the words before it, stamped with its sentence's and paragraph's index and text |
| Flatten.FlatParagraphRange | textProcessor.js:246-257 | every entry in paragraph i's range of the flat array carries paragraph i's index and text |
| Flatten.DocumentParagraphIndexMonotone | textProcessor.js:246-253 | for parsed paragraphs, `paragraphIndex` never decreases along the flat array |
| Flatten.FindParagraphByWordIndex | textProcessor.js:266-283 | no paragraphs gives null; an index past the end gives the last paragraph; otherwise the paragraph whose cumulative word range holds the index, which is the paragraph the flat array records at that index |
| Flatten.FindSentenceIn | textProcessor.js:289-298 | the first sentence whose cumulative word range holds the index, and null exactly when the index is past the words |
| Flatten.FindSentenceByWordIndex | textProcessor.js:286-299 | null exactly when the index is past the document's words; otherwise the sentence, in reading order, whose cumulative range holds it |
| Scans.RunStart | reader.js:242-248 | the first index of the maximal run of equal `sentenceIndex` that ends at the current word |
| Scans.ScanRunStart | reader.js:240-248 | the backward loop with its early `break` computes that run start |
| Scans.PreviousRunTarget | reader.js:289-309 | never after the current word; unchanged when the run starts at 0; otherwise the start of the immediately preceding run, strictly before the current run |
| Scans.ScanPreviousRun | reader.js:289-309 | the two backward loops move exactly when the current run does not start at 0, and land on that target |
| Scans.NextSentenceTarget | reader.js:340-349 | the first later word with a different `sentenceIndex`; when there is none, `min(i+1, len-1)`; always in `[i, len-1]` |
| Scans.ScanNextSentence | reader.js:340-349 | the forward loop with its `break`, then the clamp, computes that target |
| Scans.TwoParagraphsParsed | textProcessor.js:104-122 | the two-paragraph document used below is what `One.`, a blank line and `Two.` parse to |
| Scans.BlankLineBetweenWords | textProcessor.js:104-122 | two words with a blank line between them parse to two paragraphs, numbered 0 and 1, each of one sentence with local index 0 and one word |
| Scans.RunCrossesParagraphs | textProcessor.js:252 | in a two-paragraph document whose sentences both have local index 0, the run from the second word reaches back into the first paragraph, and skipping from word 0 moves only one word |
| Reader.DelayPerMinute | reader.js:143-146 | the timer delay times the speed is one minute, or two minutes for a doubled delay |
| Reader.Initialize | reader.js:32-34 | speeds come from the settings, a 0 falling back to 200 and 5; the engine starts paused with nothing loaded and is valid for any validated settings |
| Reader.DisplayParagraph | reader.js:190-220 | showing the paragraph emits the current word's paragraph, with the current word's sentence highlighted |
| Reader.LoadText | reader.js:51-70 | the processed text is always replaced; with no words, it returns false and nothing else changes; otherwise the flat array is installed, the index is `min(start, len-1)`, the word is shown, and the reading flags and timer are untouched; validity is kept |
| Reader.InstallWords | reader.js:61-64 | installing the flat array clamps the start position into range and changes nothing else |
| Reader.ScheduleNextWord | reader.js:135-156 | nothing happens unless reading; otherwise one timer is armed at the current speed, doubled exactly when the word pauses or a jump just happened, and the jump flag is cleared |
| Reader.Start | reader.js:73-96 | no words means no change; otherwise the engine becomes reading and unpaused and arms exactly the timer `scheduleNextWord` arms (the current speed, doubled for punctuation), nothing else changes, and starting while already reading leaves the old timer live |
| Reader.Pause | reader.js:99-123 | the engine is paused with no pending timer, shows the paragraph and saves the position |
| Reader.Toggle | reader.js:126-132 | reading becomes exactly the paused engine with no timer, the paragraph shown and the position saved; paused becomes reading (given words) with the `scheduleNextWord` timer and no effect; nothing else changes |
| Reader.AdvanceToNextWord | reader.js:159-173 | below the last word, the index goes up by exactly 1, the word is shown, the next timer is armed and the position is saved on every tenth word; at the last word it pauses with the index unchanged |
| Reader.TimerFires | reader.js:153-173 | the pending timer is consumed; before the last word the engine is exactly the next word with `scheduleNextWord`'s timer, and the effects are that word shown plus a save on every tenth index; on the last word it is exactly the paused engine with the paragraph shown and the position saved; validity is kept |
| Reader.Rearm | reader.js:264-275 | while reading, the old timer is cleared and a doubled-delay timer armed, with the jump flag consumed; paused, nothing changes |
| Reader.LandOn | reader.js:260-281 | a jump shows the new word, re-arms while reading, shows the paragraph while paused, and saves the position |
| Reader.JumpToPreviousSentence | reader.js:285-333 | if the run starts at 0, nothing happens, with no save and no timer change; otherwise the engine lands on the start of the preceding run, strictly earlier |
| Reader.JumpToSentenceStart | reader.js:236-282 | never moves forward; while reading within one word of the run start, it delegates to the previous-sentence jump; otherwise it lands on the run start |
| Reader.SkipToNextSentence | reader.js:336-371 | lands on the next-sentence target, in `[i, len-1]`, re-arming while reading and saving the position |
| Reader.NavigateToPreviousSentence | reader.js:374-408 | a no-op unless paused; when paused, it moves to the previous-run target, which is unchanged when the run starts at 0, then shows the word and paragraph and saves |
| Reader.NavigateToNextSentence | reader.js:411-417 | a no-op unless paused; otherwise it does what skipping to the next sentence does |
| Reader.IncreaseSpeed | reader.js:420-424 | the speed grows by exactly the increment, with no cap, and nothing else changes |
| Reader.DecreaseSpeed | reader.js:427-431 | the speed becomes `max(50, wpm - increment)`, and nothing else changes |
| Reader.DecreaseUndoesIncrease | reader.js:420-431 | from a speed of at least 50, slowing down undoes speeding up |
| Reader.IncreaseAfterDecrease | reader.js:420-431 | speeding up after slowing down never ends below the start, and restores it when the floor was not hit |
| Controls.HandleKey | controls.js:164-210 | the centre key toggles; up and down change speed only while reading; left, while reading, lands on the start of the current run, or on the previous run's start when at most one word into it (changing nothing when that run starts at word 0), and while paused on the previous sentence with only the index changed; every move re-arms exactly as the jump does and ends its effects with the position save; the centre key keeps the position; right goes to the next-sentence target; the engine invariant is kept |
| Controls.Step | controls.js:164-210 | a key, a timer firing, a load, the page being hidden or validated settings being applied keeps the engine invariant; a firing with no pending timer changes nothing, and a pending one gives exactly the timer callback's engine and effects; hiding pauses a reading engine and changes nothing otherwise (`main.js:303-305`, and the same pause on reset at `main.js:267-268`); applying settings sets the speed and the increment and nothing else (`settings.js:103-107`) |
| Controls.Run | controls.js:164-210 | any sequence of allowed events keeps the invariant: reading exactly when one timer is pending, no leaked timer, and a current word whenever there are words |
| Controls.StartUpValid | reader.js:32-34 | an engine initialised with validated settings satisfies the invariant |
| Library.GenerateTitle | library.js:151-155 | blank text gives `Untitled Document`; otherwise the trimmed text, cut to 50 characters with `...` appended exactly when it was longer |
| Library.TitleShape | library.js:151-155 | a generated title is never empty, has no surrounding white space, and has at most 53 characters |
| Library.TitleIdempotent | library.js:151-155 | generating a title from a generated title returns it unchanged |
| Library.DocId | library.js:161 | the id is `doc_` followed by the decimal digits of the clock value, which read back as that value |
| Library.DocIdInjective | library.js:161 | documents created at different clock values get different ids |
| Library.CreateDocument | library.js:158-170 | a zero position, `lastRead == dateAdded == now`, autoSave on, the given text and source, and the given title, or a generated one when that is absent or empty |
| Library.HasStorageSpace | library.js:306-321 | true when usage is unavailable; otherwise true exactly when `(used + new) / (5·1024·1024) · 100 < 95`, computed in exact arithmetic |
| Library.StorageThreshold | library.js:306-321 | the threshold is 4980736 characters, and a shorter text fits wherever a longer one does |
| Library.AddDocument | library.js:173-187 | the record is appended at the end exactly when there is storage space, and the result is its id; otherwise the library is unchanged and the result is `storage_full` |
| Library.FindIndex | library.js:218 | the first position holding the id, or none exactly when no record has it |
| Library.GetDocument | library.js:211-213 | the first record with the id, or none exactly when there is none |
| Library.AddThenGet | library.js:173-213 | a record added under a fresh id is found again under that id |
| Library.UpdateDocument | library.js:216-236 | an unknown id returns false and changes nothing; otherwise only the first matching record is replaced by its merge with the updates and `lastRead = now`, and the length and all other records are unchanged |
| Library.UpdateThenGet | library.js:216-236 | after an update that keeps the id, looking the id up gives the merged record |
| Library.UpdateDocumentPosition | library.js:239-241 | an unknown id reports false and changes nothing; otherwise only the first record with the id gets the new position and `lastRead = now`, every other record, the length and the rest of the library are unchanged, and the id then finds the updated record |
| Library.UpdateDocumentTitle | library.js:244-246 | an unknown id reports false and changes nothing; otherwise only the first record with the id gets the new title and `lastRead = now`, every other record, the length and the rest of the library are unchanged, and the id then finds the updated record |
| Library.RemoveIdShrinks | library.js:251-254 | the filter shrinks the list exactly when the id is present |
| Library.RemoveIdAppend | library.js:252 | the filter distributes over concatenation, so the kept records stay in their original order |
| Library.RemoveIdSingle | library.js:252 | one record is kept exactly when its id differs; with the distribution over concatenation this determines the filter |
| Library.DeleteDocument | library.js:249-270 | it returns true exactly when the id was present; the records kept are exactly those with another id, in their original order (the filter `RemoveId`); the active id is cleared exactly when something was removed and it was that id; a false result changes nothing |
| Library.AddThenDelete | library.js:173-270 | adding a record under a fresh id and then deleting that id restores the list |
| Library.Insert | library.js:274 | inserting into a most-recent-first list keeps it sorted and adds exactly that one record |
| Library.SortByRecent | library.js:273-275 | the result is sorted by `lastRead`, most recent first, and is a permutation of the list, which is left as it was |
| Library.SortStable | library.js:273-275 | records with the same `lastRead` keep their relative order, as the stable `Array.prototype.sort` keeps them |
| Library.SaveCurrentTempTextToLibrary | library.js:190-208 | no temporary text gives `no_temp_text` with nothing changed; no space gives `storage_full` with nothing changed; otherwise a bookmarklet document at the temporary position is appended, the temporary text and position are cleared, and its id becomes active |
| Library.SaveTempTextOnce | library.js:190-208 | after a successful save, a second save finds no temporary text and changes nothing |
| Library.SavedTextIsActive | library.js:190-213 | after a save under an unused clock value, the active id finds the new document |

## Left out

- **DOM rendering.** Word display, the paragraph's HTML, scrolling and icons (`reader.js:176-233`) appear only as `ShowWord`, `ShowParagraph` and `SavePosition` effects.
- **Progress statistics** (`reader.js:480-562`): these are float formatting for display only.
- **Numeric and hexadecimal character references** (`textProcessor.js:69-70`) are the abstract `refs` parameter. `String.fromCharCode`'s UTF-16 truncation is not modelled.
- **Strings are sequences of Unicode scalar values, not UTF-16 code units.** Lengths, `substring(0, 50)` and the storage size therefore count characters outside the Basic Multilingual Plane once rather than twice.
- **Real timing.** `setTimeout` and `clearTimeout` become a pending `Delay` value and a count of orphaned timers. A timer's firing is the `TimerFired` event.
  - A firing with no pending timer is ignored.
  - Orphaned timers cannot fire in the model. They arise only from `startReading` while already reading, which no key reaches.
- **Reader.Start**: starting an engine that is already reading is allowed and records the leaked timer. The validity guarantee is stated only for an engine that is not reading.
- **Crashes on an engine with no words.** The source throws in `allWords[currentWordIndex]` when the left or right key is used before any text is loaded.
  - The navigation methods require a loaded engine.
  - `Controls.Run` skips such presses, because the exception leaves no later-observable state changed.
  - `skipToNextSentence` sets the index to -1 before it throws, but only `loadText` reads the index afterwards, and it overwrites it.
- **Settings.** `settings.js` parses and range-checks the speed (50 to 1000) and the increment (1 to 100) before it saves and applies them. The model takes those ranges as the precondition of `Controls.StartUpValid` and of the `ApplySettings` event, and does not model the form. Settings read back from storage at start-up are not range-checked again in the source. The model admits only validated values.
- **Controls.** Event listeners, touch handling, panel toggling and paragraph scrolling with the up and down keys while paused are DOM-only. The up and down keys therefore do nothing while paused.
- **Start-up and storage plumbing.** Apart from the pause on hiding the page and on reset, which is the `Hide` event, `main.js`, `storage.js`, `saveSettings` and `saveCurrentPosition`'s write are left out. The two writes become the `SaveSettings` and `SavePosition` effects.
- **Library persistence.**
  - JSON serialisation, `loadLibrary`, `saveLibrary`, `migrateOldStorage` and `initialize` are not modelled.
  - The store is the `Library` value.
  - The storage usage that `getStorageUsage` reads is an input to `HasStorageSpace`. It is `None` when the read fails.
  - A `try`/`catch` around an in-memory push cannot fail, so `addDocument`'s generic error path does not arise.
- **Library.HasStorageSpace** is stated in exact arithmetic. The source compares a floating-point percentage, which could round differently within one part in 2^52 of the threshold.
- **Library.UpdateDocument**: the updates object is a record of optional fields. A key present with the value `undefined` is not modelled.
- **Clean.CleanTextKeepsLetters** is stated only for text without markup, entities, backslashes or stripped control characters. Each of those passes deliberately deletes or replaces non-white-space characters.
- **Flatten.FindSentenceByWordIndex** names the sentence by its place in the document's sentence list. It does not connect it to the `sentenceText` of the flat array's entry.

=== FILE: clean.dfy ===
/** The text-cleaning pipeline of the segmenter (`cleanText` and its passes):
    markup removal, named-entity decoding, escape-code removal, white-space
    normalisation, blank-line limiting and a final trim. Every pass is a
    left-to-right rewrite, written here as a function over `string`. */
module Clean {
  import opened Wrappers
  import opened Strings

  // ---------------------------------------------------------------------------
  // Markup removal
  // ---------------------------------------------------------------------------

  /** The characters `\b` treats as word characters. */
  predicate IsWordChar(c: char) {
    ('a' <= c <= 'z') || ('A' <= c <= 'Z') || ('0' <= c <= '9') || c == '_'
  }

  function LowerAscii(c: char): char {
    if 'A' <= c <= 'Z' then (c as int + 32) as char else c
  }

  /** The lower-case pattern `pat` occurs at `i`, ASCII letters compared
      without regard to case (the regular-expression `i` flag). */
  predicate MatchesAt(s: string, i: nat, pat: string) {
    i + |pat| <= |s| && forall k :: 0 <= k < |pat| ==> LowerAscii(s[i + k]) == pat[k]
  }

  /** The first occurrence of `pat` at or after `from`. */
  function FindFrom(s: string, pat: string, from: nat): (r: Option<nat>)
    requires from <= |s|
    ensures r.Some? ==> from <= r.value && MatchesAt(s, r.value, pat)
    ensures r.Some? ==> forall j :: from <= j < r.value ==> !MatchesAt(s, j, pat)
    ensures r.None? ==> forall j :: from <= j <= |s| ==> !MatchesAt(s, j, pat)
    decreases |s| - from
  {
    if MatchesAt(s, from, pat) then Some(from)
    else if from == |s| then None
    else FindFrom(s, pat, from + 1)
  }

  /** `s` begins with a block such as `<script …>…</script>`: the opening name
      (followed by a non-word character) and some later closing tag. */
  predicate BlockStartsHere(s: string, open: string, close: string) {
    && MatchesAt(s, 0, open)
    && |open| < |s|
    && !IsWordChar(s[|open|])
    && FindFrom(s, close, |open|).Some?
  }

  /** Deletes every block from an opening name through the first closing tag
      after it, scanning left to right. */
  function StripBlocks(s: string, open: string, close: string): (r: string)
    requires open != []
    ensures forall x :: x in r ==> x in s
    decreases |s|
  {
    if s == [] then []
    else if BlockStartsHere(s, open, close) then
      var rest := s[FindFrom(s, close, |open|).value + |close|..];
      StripBlocks(rest, open, close)
    else [s[0]] + StripBlocks(s[1..], open, close)
  }

  /** The first `c` at or after `from`. */
  function FindChar(s: string, c: char, from: nat): (r: Option<nat>)
    requires from <= |s|
    ensures r.Some? ==> from <= r.value < |s| && s[r.value] == c
    ensures r.None? ==> forall j :: from <= j < |s| ==> s[j] != c
    decreases |s| - from
  {
    if from == |s| then None
    else if s[from] == c then Some(from)
    else FindChar(s, c, from + 1)
  }

  /** `s` begins with a tag: `<`, at least one character other than `>`, then `>`. */
  predicate TagStartsHere(s: string) {
    |s| > 1 && s[0] == '<' && s[1] != '>' && FindChar(s, '>', 1).Some?
  }

  /** No tag is left: every `<` is directly followed by `>` or has no `>` after it. */
  predicate NoTagLeft(s: string) {
    forall i :: 0 <= i < |s| && s[i] == '<' ==> (i + 1 < |s| && s[i + 1] == '>') || '>' !in s[i + 1..]
  }

  /** Replaces every tag by one space. */
  function ReplaceTags(s: string): (r: string)
    ensures forall x :: x in r ==> x in s || x == ' '
    ensures s != [] && !TagStartsHere(s) ==> r != [] && r[0] == s[0]
    ensures NoTagLeft(r)
    decreases |s|
  {
    if s == [] then []
    else if TagStartsHere(s) then
      var rest := ReplaceTags(s[FindChar(s, '>', 1).value + 1..]);
      ShiftNoTag(' ', rest);
      " " + rest
    else
      var rest := ReplaceTags(s[1..]);
      assert s[0] == '<' && |s| > 1 && s[1] != '>' ==> forall j :: 1 <= j < |s| ==> s[j] != '>';
      assert s[0] == '<' && |s| > 1 && s[1] != '>' ==> '>' !in s[1..];
      ShiftNoTag(s[0], rest);
      [s[0]] + rest
  }

  lemma ShiftNoTag(c: char, rest: string)
    requires NoTagLeft(rest)
    requires c == '<' ==> (rest != [] && rest[0] == '>') || '>' !in rest
    ensures NoTagLeft([c] + rest)
  {
    var s := [c] + rest;
    forall i | 0 <= i < |s| && s[i] == '<'
      ensures (i + 1 < |s| && s[i + 1] == '>') || '>' !in s[i + 1..]
    {
      if i > 0 {
        assert s[i] == rest[i - 1];
        assert s[i + 1..] == rest[i..];
      } else {
        assert s[1..] == rest;
      }
    }
  }

  /** `removeHtmlTags`: script blocks, then style blocks, then every remaining
      tag (replaced by a space). */
  function RemoveHtmlTags(s: string): (r: string)
    ensures NoTagLeft(r)
    ensures forall x :: x in r ==> x in s || x == ' '
  {
    ReplaceTags(StripBlocks(StripBlocks(s, "<script", "</script>"), "<style", "</style>"))
  }

  lemma {:induction false} FindCharAt(s: string, c: char, from: nat, j: nat)
    requires from <= j < |s| && s[j] == c
    requires forall k :: from <= k < j ==> s[k] != c
    ensures FindChar(s, c, from) == Some(j)
    decreases j - from
  {
    if from < j {
      FindCharAt(s, c, from + 1, j);
    }
  }

  /** A prefix without `<` passes tag replacement unchanged. */
  lemma {:induction false} ReplaceTagsPrefix(p: string, x: string)
    requires '<' !in p
    ensures ReplaceTags(p + x) == p + ReplaceTags(x)
    decreases |p|
  {
    if p == [] {
      assert p + x == x;
    } else {
      HeadOfAppend(p, x);
      assert p[0] in p;
      ReplaceTagsPrefix(p[1..], x);
      HeadOfAppend(p, ReplaceTags(x));
    }
  }

  /** A tag at the front becomes one space. */
  lemma ReplaceTagsHead(t: string, b: string)
    requires t != [] && '>' !in t
    ensures ReplaceTags("<" + t + ">" + b) == " " + ReplaceTags(b)
  {
    var s := "<" + t + ">" + b;
    assert s[0] == '<' && s[1] == t[0] && t[0] != '>';
    assert s[|t| + 1] == '>';
    assert forall k :: 1 <= k < |t| + 1 ==> s[k] == t[k - 1];
    FindCharAt(s, '>', 1, |t| + 1);
    assert s[|t| + 2..] == b;
  }

  /** Text before the first `<` is kept, a tag there becomes one space, and
      replacement carries on after it. */
  lemma ReplaceTagsAt(a: string, t: string, b: string)
    requires '<' !in a && t != [] && '>' !in t
    ensures ReplaceTags(a + "<" + t + ">" + b) == a + " " + ReplaceTags(b)
  {
    assert a + "<" + t + ">" + b == a + ("<" + t + ">" + b);
    ReplaceTagsPrefix(a, "<" + t + ">" + b);
    ReplaceTagsHead(t, b);
    AppendAssoc(a, " ", ReplaceTags(b));
  }

  /** No block with an opening name `<` followed by `c` can start in `p`:
      every `<` in it is followed by a character other than `c`. */
  predicate NoBlockOpen(p: string, c: char) {
    forall i :: 0 <= i < |p| && p[i] == '<' ==> i + 1 < |p| && LowerAscii(p[i + 1]) != c
  }

  /** A prefix in which no block can start passes block removal unchanged. */
  lemma {:induction false} StripBlocksPrefix(p: string, x: string, open: string, close: string)
    requires |open| >= 2 && open[0] == '<'
    requires NoBlockOpen(p, open[1])
    ensures StripBlocks(p + x, open, close) == p + StripBlocks(x, open, close)
    decreases |p|
  {
    if p == [] {
      assert p + x == x;
    } else {
      var s := p + x;
      HeadOfAppend(p, x);
      if p[0] == '<' {
        assert 1 < |p| && s[1] == p[1];
        assert !MatchesAt(s, 0, open) by {
          assert LowerAscii(s[1]) != open[1];
        }
      } else {
        assert LowerAscii(s[0]) != '<';
      }
      assert !BlockStartsHere(s, open, close);
      assert NoBlockOpen(p[1..], open[1]) by {
        forall i | 0 <= i < |p[1..]| && p[1..][i] == '<'
          ensures i + 1 < |p[1..]| && LowerAscii(p[1..][i + 1]) != open[1]
        {
          assert p[i + 1] == '<';
        }
      }
      StripBlocksPrefix(p[1..], x, open, close);
      HeadOfAppend(p, StripBlocks(x, open, close));
    }
  }

  /** Text without `<` before a block is kept, and the block, from its
      opening name through the first closing tag after it, is deleted. */
  lemma StripBlocksAt(a: string, x: string, open: string, close: string)
    requires |open| >= 2 && open[0] == '<'
    requires '<' !in a && BlockStartsHere(x, open, close)
    ensures StripBlocks(a + x, open, close) ==
      a + StripBlocks(x[FindFrom(x, close, |open|).value + |close|..], open, close)
  {
    StripBlocksPrefix(a, x, open, close);
  }

  lemma TagNoBlockOpen(a: string, t: string, c: char)
    requires '<' !in a && t != [] && '<' !in t && LowerAscii(t[0]) != c
    ensures NoBlockOpen(a + "<" + t + ">", c)
  {
    var p := a + "<" + t + ">";
    forall k | 0 <= k < |a|
      ensures p[k] != '<'
    {
      assert p[k] == a[k] && a[k] in a;
    }
    forall k | |a| < k < |a| + 1 + |t|
      ensures p[k] != '<'
    {
      assert p[k] == t[k - |a| - 1] && t[k - |a| - 1] in t;
    }
    assert p[|a| + 1 + |t|] == '>';
    assert p[|a| + 1] == t[0];
  }

  /** An ordinary tag (not opening a script or style block) after text
      without `<` becomes one space, and the text before it is kept. */
  lemma RemoveHtmlTagsTag(a: string, t: string, b: string)
    requires '<' !in a && t != [] && '<' !in t && '>' !in t && LowerAscii(t[0]) != 's'
    ensures RemoveHtmlTags(a + "<" + t + ">" + b) == a + " " + RemoveHtmlTags(b)
  {
    var p := a + "<" + t + ">";
    TagNoBlockOpen(a, t, 's');
    var s1 := StripBlocks(b, "<script", "</script>");
    var s2 := StripBlocks(s1, "<style", "</style>");
    StripBlocksPrefix(p, b, "<script", "</script>");
    StripBlocksPrefix(p, s1, "<style", "</style>");
    assert p + s2 == a + "<" + t + ">" + s2;
    ReplaceTagsAt(a, t, s2);
  }

  /** The style pass and tag replacement keep a prefix without `<`. */
  lemma StyleAndTagsPrefix(a: string, y: string)
    requires '<' !in a
    ensures ReplaceTags(StripBlocks(a + y, "<style", "</style>")) ==
      a + ReplaceTags(StripBlocks(y, "<style", "</style>"))
  {
    assert NoBlockOpen(a, 's');
    StripBlocksPrefix(a, y, "<style", "</style>");
    ReplaceTagsPrefix(a, StripBlocks(y, "<style", "</style>"));
  }

  /** A script block after text without `<` is deleted whole, and the text
      before it is kept. */
  lemma RemoveHtmlTagsScript(a: string, x: string)
    requires '<' !in a && BlockStartsHere(x, "<script", "</script>")
    ensures RemoveHtmlTags(a + x) ==
      a + RemoveHtmlTags(x[FindFrom(x, "</script>", 7).value + 9..])
  {
    var rest := x[FindFrom(x, "</script>", 7).value + 9..];
    StripBlocksAt(a, x, "<script", "</script>");
    StyleAndTagsPrefix(a, StripBlocks(rest, "<script", "</script>"));
  }

  /** Text, a tag, text, a tag: each tag becomes one space. */
  lemma TwoTags(a: string, t: string, c: string, u: string)
    requires '<' !in a && t != [] && '<' !in t && '>' !in t && LowerAscii(t[0]) != 's'
    requires '<' !in c && u != [] && '<' !in u && '>' !in u && LowerAscii(u[0]) != 's'
    ensures RemoveHtmlTags(a + "<" + t + ">" + (c + "<" + u + ">")) == a + " " + (c + " ")
  {
    RemoveHtmlTagsTag(a, t, c + "<" + u + ">");
    assert c + "<" + u + ">" + [] == c + "<" + u + ">";
    RemoveHtmlTagsTag(c, u, []);
    assert RemoveHtmlTags([]) == [];
  }

  /** Each tag of `Hello <b>x</b>` becomes one space and the words stay. */
  lemma BoldTagsBecomeSpaces()
    ensures RemoveHtmlTags("Hello <b>x</b>") == "Hello  x "
  {
    BoldFacts();
    TwoTags("Hello ", "b", "x", "/b");
  }

  lemma BoldFacts()
    ensures "Hello " + "<" + "b" + ">" + ("x" + "<" + "/b" + ">") == "Hello <b>x</b>"
    ensures "Hello " + " " + ("x" + " ") == "Hello  x "
    ensures '<' !in "Hello " && '<' !in "x" && '<' !in "b" && '>' !in "b" && '<' !in "/b" && '>' !in "/b"
  {
  }

  /** Text, `\n`, text, `\t`, text: a line feed and a space. */
  lemma NewlineThenTab(a: string, b: string, c: string)
    requires EscapeFree(a) && EscapeFree(b) && EscapeFree(c)
    ensures RemoveEscapeCodes(a + "\\n" + (b + "\\t" + c)) == a + "\n" + (b + " " + c)
  {
    RemoveEscapeCodesNewline(a, b + "\\t" + c);
    RemoveEscapeCodesTab(b, c);
    RemoveEscapeCodesPlain(c);
  }

  /** An escaped line feed and tab in `a\nb\tc` become a line feed and a space. */
  lemma EscapedNewlineAndTab()
    ensures RemoveEscapeCodes("a\\nb\\tc") == "a\nb c"
  {
    EscapeFacts();
    NewlineThenTab("a", "b", "c");
  }

  lemma EscapeFacts()
    ensures "a" + "\\n" + ("b" + "\\t" + "c") == "a\\nb\\tc"
    ensures "a" + "\n" + ("b" + " " + "c") == "a\nb c"
    ensures EscapeFree("a") && EscapeFree("b") && EscapeFree("c")
  {
  }

  /** Text without `<` holds no block and no tag, so markup removal keeps it. */
  lemma RemoveHtmlTagsPlain(s: string)
    requires '<' !in s
    ensures RemoveHtmlTags(s) == s
  {
    StripBlocksPlain(s, "<script", "</script>");
    StripBlocksPlain(s, "<style", "</style>");
    ReplaceTagsPlain(s);
  }

  lemma {:induction false} StripBlocksPlain(s: string, open: string, close: string)
    requires open != [] && open[0] == '<' && '<' !in s
    ensures StripBlocks(s, open, close) == s
    decreases |s|
  {
    if s != [] {
      assert s[0] in s && LowerAscii(s[0]) != '<';
      assert !MatchesAt(s, 0, open);
      StripBlocksPlain(s[1..], open, close);
      assert [s[0]] + s[1..] == s;
    }
  }

  lemma {:induction false} ReplaceTagsPlain(s: string)
    requires '<' !in s
    ensures ReplaceTags(s) == s
    decreases |s|
  {
    if s != [] {
      assert s[0] in s;
      ReplaceTagsPlain(s[1..]);
      assert [s[0]] + s[1..] == s;
    }
  }

  // ---------------------------------------------------------------------------
  // Entity decoding
  // ---------------------------------------------------------------------------

  /** The named-entity table, in the order its replacements are applied. */
  const NamedEntities: seq<(string, string)> := [
    ("&nbsp;", " "), ("&amp;", "&"), ("&lt;", "<"), ("&gt;", ">"), ("&quot;", "\""),
    ("&#39;", "'"), ("&apos;", "'"), ("&mdash;", "\U{2014}"), ("&ndash;", "\U{2013}"),
    ("&hellip;", "..."), ("&ldquo;", "\""), ("&rdquo;", "\""), ("&lsquo;", "'"), ("&rsquo;", "'")
  ]

  /** Applies each replace-all of `table` in turn, each one to the previous one's output. */
  function ReplaceInOrder(s: string, table: seq<(string, string)>): string
    requires forall k :: 0 <= k < |table| ==> table[k].0 != []
    // naming `s` here keeps the verifier from unfolding the whole literal table at once
    decreases |table|, |s|
  {
    if table == [] then s
    else ReplaceInOrder(ReplaceAll(s, table[0].0, table[0].1), table[1..])
  }

  /** `decodeHtmlEntities`: the named table, then the numeric and hexadecimal
      character references, which are left abstract as `refs`. */
  function DecodeHtmlEntities(s: string, refs: string -> string): (r: string)
    ensures '&' !in s && (forall t :: '&' !in t ==> refs(t) == t) ==> r == s
  {
    assert '&' !in s ==> ReplaceInOrder(s, NamedEntities) == s by {
      if '&' !in s {
        NamedEntitiesPlain(s);
      }
    }
    refs(ReplaceInOrder(s, NamedEntities))
  }

  /** Every entity name starts with `&`, so text without `&` passes the named
      table unchanged. */
  lemma NamedEntitiesPlain(s: string)
    requires '&' !in s
    ensures ReplaceInOrder(s, NamedEntities) == s
  {
    var t := NamedEntities;
    assert t[0].0[0] == '&' && t[1].0[0] == '&' && t[2].0[0] == '&' && t[3].0[0] == '&' && t[4].0[0] == '&';
    assert t[5].0[0] == '&' && t[6].0[0] == '&' && t[7].0[0] == '&' && t[8].0[0] == '&' && t[9].0[0] == '&';
    assert t[10].0[0] == '&' && t[11].0[0] == '&' && t[12].0[0] == '&' && t[13].0[0] == '&';
    ReplaceInOrderPlain(s, t);
  }

  lemma {:induction false} ReplaceInOrderPlain(s: string, table: seq<(string, string)>)
    requires forall k :: 0 <= k < |table| ==> table[k].0 != [] && table[k].0[0] == '&'
    requires '&' !in s
    ensures ReplaceInOrder(s, table) == s
    decreases |table|
  {
    if table != [] {
      assert ReplaceAll(s, table[0].0, table[0].1) == s;
      ReplaceInOrderPlain(s, table[1..]);
    }
  }

  /** The sequential table order is observable: `&amp;lt;` first becomes `&lt;`
      and then `<`. */
  lemma DoubleEscapedEntityDecodesTwice()
    ensures ReplaceInOrder("&amp;lt;", NamedEntities) == "<"
  {
    var t := NamedEntities;
    calc {
      ReplaceInOrder("&amp;lt;", t);
      { AmpStep(); }
      ReplaceInOrder("&lt;", t[2..]);
      { LtStep(); }
      ReplaceInOrder("<", t[3..]);
      { LtIsFinal(); }
      "<";
    }
  }

  lemma AmpStep()
    ensures ReplaceInOrder("&amp;lt;", NamedEntities) == ReplaceInOrder("&lt;", NamedEntities[2..])
  {
    var t := NamedEntities;
    NbspAbsent();
    AmpDecodes();
    assert t[0] == ("&nbsp;", " ") && t[1] == ("&amp;", "&");
    assert t[1..][0] == t[1] && t[1..][1..] == t[2..];
  }

  lemma NbspAbsent()
    ensures ReplaceAll("&amp;lt;", "&nbsp;", " ") == "&amp;lt;"
  {
    var s0: string := "&amp;lt;";
    assert s0[..6] != "&nbsp;" by { assert s0[1] == 'a'; }
    assert '&' !in s0[1..];
    assert ReplaceAll(s0[1..], "&nbsp;", " ") == s0[1..];
    assert [s0[0]] + s0[1..] == s0;
  }

  lemma AmpDecodes()
    ensures ReplaceAll("&amp;lt;", "&amp;", "&") == "&lt;"
  {
    var s0: string := "&amp;lt;";
    assert s0[..5] == "&amp;";
    assert '&' !in s0[5..];
    assert ReplaceAll(s0[5..], "&amp;", "&") == s0[5..];
    assert "&" + s0[5..] == "&lt;";
  }

  lemma LtStep()
    ensures ReplaceInOrder("&lt;", NamedEntities[2..]) == ReplaceInOrder("<", NamedEntities[3..])
  {
    var t := NamedEntities;
    var s1: string := "&lt;";
    assert s1[..4] == t[2].0;
    assert ReplaceAll(s1, t[2].0, t[2].1) == "<";
    assert t[2..][0] == t[2] && t[2..][1..] == t[3..];
  }

  lemma LtIsFinal()
    ensures ReplaceInOrder("<", NamedEntities[3..]) == "<"
  {
    var t := NamedEntities[3..];
    EntityNamesAreLong();
    assert forall k :: 0 <= k < |t| ==> t[k] == NamedEntities[k + 3];
    ReplaceInOrderUnchanged("<", t);
  }

  lemma EntityNamesAreLong()
    ensures forall k :: 0 <= k < |NamedEntities| ==> |NamedEntities[k].0| >= 4
  {
    var t := NamedEntities;
    assert |t[0].0| == 6 && |t[1].0| == 5 && |t[2].0| == 4 && |t[3].0| == 4 && |t[4].0| == 6;
    assert |t[5].0| == 5 && |t[6].0| == 6 && |t[7].0| == 7 && |t[8].0| == 7 && |t[9].0| == 8;
    assert |t[10].0| == 7 && |t[11].0| == 7 && |t[12].0| == 7 && |t[13].0| == 7;
  }

  lemma {:induction false} ReplaceInOrderUnchanged(s: string, table: seq<(string, string)>)
    requires forall k :: 0 <= k < |table| ==> table[k].0 != [] && |s| < |table[k].0|
    ensures ReplaceInOrder(s, table) == s
    decreases |table|
  {
    if table != [] {
      ReplaceInOrderUnchanged(s, table[1..]);
    }
  }

  // ---------------------------------------------------------------------------
  // Escape codes and control characters
  // ---------------------------------------------------------------------------

  /** The control characters `removeEscapeCodes` deletes: all of C0 and DEL
      except tab, line feed and carriage return. */
  predicate IsStrippedControl(c: char) {
    var n := c as int;
    n <= 8 || n == 11 || n == 12 || (14 <= n <= 31) || n == 127
  }

  predicate IsAsciiControl(c: char) {
    c as int < 32 || c as int == 127
  }

  function RemoveControls(s: string): (r: string)
    ensures forall x :: x in r ==> x in s && !IsStrippedControl(x)
  {
    if s == [] then []
    else if IsStrippedControl(s[0]) then RemoveControls(s[1..])
    else [s[0]] + RemoveControls(s[1..])
  }

  /** The four literal rewrites of `removeEscapeCodes`, in order: `\n` to a
      line feed, `\t` to a space, `\r` to nothing, and any remaining
      backslash to nothing. */
  function EscapePasses(s: string): string {
    var a := ReplaceAll(s, "\\n", "\n");
    var b := ReplaceAll(a, "\\t", " ");
    var c := ReplaceAll(b, "\\r", "");
    ReplaceAll(c, "\\", "")
  }

  /** `removeEscapeCodes`: the two-character escapes `\n`, `\t`, `\r` become a
      line feed, a space and nothing, every other backslash is dropped, then
      the stripped control characters are deleted. */
  function RemoveEscapeCodes(s: string): (r: string)
    ensures '\\' !in r
    ensures forall x :: x in r ==> !IsStrippedControl(x)
    ensures forall x :: x in r ==> x in s || x == '\n' || x == ' '
  {
    RemoveControls(EscapePasses(s))
  }

  /** Text without a backslash or a stripped control character passes
      escape-code removal unchanged. */
  lemma RemoveEscapeCodesPlain(s: string)
    requires '\\' !in s
    requires forall x :: x in s ==> !IsStrippedControl(x)
    ensures RemoveEscapeCodes(s) == s
  {
    assert "\\n"[0] == '\\' && "\\t"[0] == '\\' && "\\r"[0] == '\\' && "\\"[0] == '\\';
    RemoveControlsPlain(s);
  }

  lemma {:induction false} RemoveControlsPlain(s: string)
    requires forall x :: x in s ==> !IsStrippedControl(x)
    ensures RemoveControls(s) == s
    decreases |s|
  {
    if s != [] {
      assert s[0] in s;
      RemoveControlsPlain(s[1..]);
      assert [s[0]] + s[1..] == s;
    }
  }

  /** A prefix free of stripped control characters is kept. */
  lemma {:induction false} RemoveControlsPrefix(p: string, x: string)
    requires forall c :: c in p ==> !IsStrippedControl(c)
    ensures RemoveControls(p + x) == p + RemoveControls(x)
    decreases |p|
  {
    if p == [] {
      assert p + x == x;
    } else {
      HeadOfAppend(p, x);
      assert p[0] in p;
      RemoveControlsPrefix(p[1..], x);
      HeadOfAppend(p, RemoveControls(x));
    }
  }

  /** Text free of backslashes and stripped control characters. */
  predicate EscapeFree(a: string) {
    '\\' !in a && forall c :: c in a ==> !IsStrippedControl(c)
  }

  lemma EscapePassesPrefix(p: string, x: string)
    requires '\\' !in p
    ensures EscapePasses(p + x) == p + EscapePasses(x)
  {
    var a := ReplaceAll(x, "\\n", "\n");
    var b := ReplaceAll(a, "\\t", " ");
    var c := ReplaceAll(b, "\\r", "");
    ReplaceAllPrefix(p, x, "\\n", "\n");
    ReplaceAllPrefix(p, a, "\\t", " ");
    ReplaceAllPrefix(p, b, "\\r", "");
    ReplaceAllPrefix(p, c, "\\", "");
  }

  /** Escape-code removal keeps a prefix free of backslashes and stripped
      control characters, and carries on after it. */
  lemma RemoveEscapeCodesPrefix(p: string, x: string)
    requires EscapeFree(p)
    ensures RemoveEscapeCodes(p + x) == p + RemoveEscapeCodes(x)
  {
    EscapePassesPrefix(p, x);
    RemoveControlsPrefix(p, EscapePasses(x));
  }

  /** The escape `e` first, then `b`: the prefix lemma puts `a` in front. */
  lemma RemoveEscapeCodesSplit(a: string, e: string, b: string)
    requires EscapeFree(a)
    ensures RemoveEscapeCodes(a + e + b) == a + RemoveEscapeCodes(e + b)
  {
    AppendAssoc(a, e, b);
    RemoveEscapeCodesPrefix(a, e + b);
  }

  lemma EscapePassesNewline(b: string)
    ensures EscapePasses("\\n" + b) == "\n" + EscapePasses(b)
  {
    var a1 := ReplaceAll(b, "\\n", "\n");
    assert ReplaceAll("\\n" + b, "\\n", "\n") == "\n" + a1 by {
      ReplaceAllAt([], "\\n", "\n", b);
      assert [] + "\\n" + b == "\\n" + b;
    }
    EscapePassesPrefix("\n", b);
  }

  lemma EscapePassesTab(b: string)
    ensures EscapePasses("\\t" + b) == " " + EscapePasses(b)
  {
    var a1 := ReplaceAll(b, "\\n", "\n");
    assert ReplaceAll("\\t" + b, "\\n", "\n") == "\\t" + a1 by {
      ReplaceAllMiss2('\\', 't', b, "\\n", "\n");
    }
    var b1 := ReplaceAll(a1, "\\t", " ");
    assert ReplaceAll("\\t" + a1, "\\t", " ") == " " + b1 by {
      ReplaceAllAt([], "\\t", " ", a1);
      assert [] + "\\t" + a1 == "\\t" + a1;
    }
    var c1 := ReplaceAll(b1, "\\r", "");
    ReplaceAllPrefix(" ", b1, "\\r", "");
    ReplaceAllPrefix(" ", c1, "\\", "");
  }

  lemma EscapePassesReturn(b: string)
    ensures EscapePasses("\\r" + b) == EscapePasses(b)
  {
    var a1 := ReplaceAll(b, "\\n", "\n");
    assert ReplaceAll("\\r" + b, "\\n", "\n") == "\\r" + a1 by {
      ReplaceAllMiss2('\\', 'r', b, "\\n", "\n");
    }
    var b1 := ReplaceAll(a1, "\\t", " ");
    assert ReplaceAll("\\r" + a1, "\\t", " ") == "\\r" + b1 by {
      ReplaceAllMiss2('\\', 'r', a1, "\\t", " ");
    }
    assert ReplaceAll("\\r" + b1, "\\r", "") == ReplaceAll(b1, "\\r", "") by {
      ReplaceAllAt([], "\\r", "", b1);
      assert [] + "\\r" + b1 == "\\r" + b1;
    }
  }

  lemma EscapePassesLone(c: char, b: string)
    requires c != 'n' && c != 't' && c != 'r' && c != '\\'
    ensures EscapePasses(['\\', c] + b) == EscapePasses([c] + b)
  {
    var a1 := ReplaceAll(b, "\\n", "\n");
    var b1 := ReplaceAll(a1, "\\t", " ");
    var c1 := ReplaceAll(b1, "\\r", "");
    assert ReplaceAll(['\\', c] + b, "\\n", "\n") == ['\\', c] + a1 by {
      ReplaceAllMiss2('\\', c, b, "\\n", "\n");
    }
    assert ReplaceAll(['\\', c] + a1, "\\t", " ") == ['\\', c] + b1 by {
      ReplaceAllMiss2('\\', c, a1, "\\t", " ");
    }
    assert ReplaceAll(['\\', c] + b1, "\\r", "") == ['\\', c] + c1 by {
      ReplaceAllMiss2('\\', c, b1, "\\r", "");
    }
    assert ReplaceAll(['\\', c] + c1, "\\", "") == ReplaceAll([c] + c1, "\\", "") by {
      ReplaceAllAt([], "\\", "", [c] + c1);
      assert [] + "\\" + ([c] + c1) == ['\\', c] + c1;
    }
    // the same three passes on the kept character and the rest
    assert ReplaceAll([c] + b, "\\n", "\n") == [c] + a1 by {
      ReplaceAllSkip([c] + b, "\\n", "\n");
      assert ([c] + b)[1..] == b;
    }
    assert ReplaceAll([c] + a1, "\\t", " ") == [c] + b1 by {
      ReplaceAllSkip([c] + a1, "\\t", " ");
      assert ([c] + a1)[1..] == a1;
    }
    assert ReplaceAll([c] + b1, "\\r", "") == [c] + c1 by {
      ReplaceAllSkip([c] + b1, "\\r", "");
      assert ([c] + b1)[1..] == b1;
    }
  }

  /** The two characters `\` `n` become one line feed. */
  lemma RemoveEscapeCodesNewline(a: string, b: string)
    requires EscapeFree(a)
    ensures RemoveEscapeCodes(a + "\\n" + b) == a + "\n" + RemoveEscapeCodes(b)
  {
    RemoveEscapeCodesSplit(a, "\\n", b);
    EscapePassesNewline(b);
    RemoveControlsPrefix("\n", EscapePasses(b));
    AppendAssoc(a, "\n", RemoveEscapeCodes(b));
  }

  /** The two characters `\` `t` become one space. */
  lemma RemoveEscapeCodesTab(a: string, b: string)
    requires EscapeFree(a)
    ensures RemoveEscapeCodes(a + "\\t" + b) == a + " " + RemoveEscapeCodes(b)
  {
    RemoveEscapeCodesSplit(a, "\\t", b);
    EscapePassesTab(b);
    RemoveControlsPrefix(" ", EscapePasses(b));
    AppendAssoc(a, " ", RemoveEscapeCodes(b));
  }

  /** The two characters `\` `r` are deleted. */
  lemma RemoveEscapeCodesReturn(a: string, b: string)
    requires EscapeFree(a)
    ensures RemoveEscapeCodes(a + "\\r" + b) == a + RemoveEscapeCodes(b)
  {
    RemoveEscapeCodesSplit(a, "\\r", b);
    EscapePassesReturn(b);
  }

  /** Any other backslash is deleted and the character after it kept. */
  lemma RemoveEscapeCodesLone(a: string, c: char, b: string)
    requires EscapeFree(a)
    requires c != 'n' && c != 't' && c != 'r' && c != '\\'
    ensures RemoveEscapeCodes(a + ['\\', c] + b) == a + RemoveEscapeCodes([c] + b)
  {
    RemoveEscapeCodesSplit(a, ['\\', c], b);
    EscapePassesLone(c, b);
  }

  // ---------------------------------------------------------------------------
  // White space
  // ---------------------------------------------------------------------------

  /** End of the run of `c` starting at `i`. */
  function RunEnd(s: string, i: nat, c: char): (j: nat)
    requires i <= |s|
    ensures i <= j <= |s|
    ensures forall k :: i <= k < j ==> s[k] == c
    ensures j < |s| ==> s[j] != c
    decreases |s| - i
  {
    if i == |s| || s[i] != c then i else RunEnd(s, i + 1, c)
  }

  lemma {:induction false} RunEndAt(s: string, i: nat, j: nat, c: char)
    requires i <= j <= |s|
    requires forall k :: i <= k < j ==> s[k] == c
    requires j < |s| ==> s[j] != c
    ensures RunEnd(s, i, c) == j
    decreases j - i
  {
    if i < j {
      RunEndAt(s, i + 1, j, c);
    }
  }

  function Repeat(c: char, n: nat): (r: string)
    ensures |r| == n
    ensures forall i :: 0 <= i < n ==> r[i] == c
  {
    if n == 0 then [] else [c] + Repeat(c, n - 1)
  }

  /** Replaces every maximal run of at least `atLeast` copies of `c` by `keep`
      copies (the global regular expressions `/ +/` and `/\n{3,}/`). */
  function CollapseRuns(s: string, c: char, atLeast: nat, keep: nat): (r: string)
    ensures forall x :: x in r ==> x in s
    ensures s != [] && keep > 0 ==> r != [] && r[0] == s[0]
    decreases |s|
  {
    if s == [] then []
    else if s[0] == c then
      var n := RunEnd(s, 0, c);
      (if n >= atLeast then Repeat(c, keep) else s[..n]) + CollapseRuns(s[n..], c, atLeast, keep)
    else [s[0]] + CollapseRuns(s[1..], c, atLeast, keep)
  }

  /** Collapsing runs of a white-space character keeps every other character. */
  lemma {:induction false} CollapseKeepsLetters(s: string, c: char, atLeast: nat, keep: nat)
    requires IsWs(c)
    ensures RemoveWs(CollapseRuns(s, c, atLeast, keep)) == RemoveWs(s)
    decreases |s|
  {
    if s != [] {
      var n := if s[0] == c then RunEnd(s, 0, c) else 1;
      var head := if s[0] == c && n >= atLeast then Repeat(c, keep) else s[..n];
      assert CollapseRuns(s, c, atLeast, keep) == head + CollapseRuns(s[n..], c, atLeast, keep);
      assert s == s[..n] + s[n..];
      RemoveWsConcat(head, CollapseRuns(s[n..], c, atLeast, keep));
      RemoveWsConcat(s[..n], s[n..]);
      if s[0] == c {
        RemoveWsEmpty(head);
        RemoveWsEmpty(s[..n]);
      }
      CollapseKeepsLetters(s[n..], c, atLeast, keep);
    }
  }

  predicate NoSpaceByNewline(s: string) {
    PairFree(s, ' ', '\n') && PairFree(s, '\n', ' ')
  }

  predicate NoTripleNewline(s: string) {
    forall i :: 0 <= i < |s| - 2 ==> !(s[i] == '\n' && s[i + 1] == '\n' && s[i + 2] == '\n')
  }

  /** Deletes every run of spaces that touches a line feed (the global expression: spaces, a line feed, spaces). */
  function TrimAroundNewlines(s: string): (r: string)
    ensures forall x :: x in r ==> x in s
    ensures s != [] && s[0] != ' ' ==> r != [] && r[0] == s[0]
    ensures NoSpaceByNewline(r)
    decreases |s|
  {
    if s == [] then []
    else if s[0] == '\n' then
      var rest := TrimAroundNewlines(s[RunEnd(s, 1, ' ')..]);
      NewlineThen(rest);
      "\n" + rest
    else if s[0] == ' ' then
      var n := RunEnd(s, 0, ' ');
      if n < |s| && s[n] == '\n' then
        var rest := TrimAroundNewlines(s[RunEnd(s, n + 1, ' ')..]);
        NewlineThen(rest);
        "\n" + rest
      else
        var rest := TrimAroundNewlines(s[n..]);
        var spaces := s[..n];
        assert forall i :: 0 <= i < |spaces| ==> spaces[i] == ' ';
        PairFreeConcat(spaces, rest, ' ', '\n');
        PairFreeConcat(spaces, rest, '\n', ' ');
        spaces + rest
    else
      var rest := TrimAroundNewlines(s[1..]);
      PairFreeConcat([s[0]], rest, ' ', '\n');
      PairFreeConcat([s[0]], rest, '\n', ' ');
      [s[0]] + rest
  }

  lemma NewlineThen(rest: string)
    requires NoSpaceByNewline(rest)
    requires rest != [] ==> rest[0] != ' '
    ensures NoSpaceByNewline("\n" + rest)
  {
    PairFreeConcat("\n", rest, ' ', '\n');
    PairFreeConcat("\n", rest, '\n', ' ');
  }

  /** `normalizeWhitespace`: collapse runs of spaces, turn each tab into a
      space, then delete spaces around line feeds. A tab next to a space leaves
      two spaces behind, because the tab pass runs after the collapse. */
  function NormalizeWhitespace(s: string): (r: string)
    ensures '\t' !in r
    ensures NoSpaceByNewline(r)
    ensures forall x :: x in r ==> x in s || x == ' '
  {
    TrimAroundNewlines(ReplaceAll(CollapseRuns(s, ' ', 1, 1), "\t", " "))
  }

  /** White-space normalisation changes only white space. */
  lemma NormalizeWhitespaceKeepsLetters(s: string)
    ensures RemoveWs(NormalizeWhitespace(s)) == RemoveWs(s)
  {
    var collapsed := CollapseRuns(s, ' ', 1, 1);
    CollapseKeepsLetters(s, ' ', 1, 1);
    ReplaceAllKeepsLetters(collapsed, "\t", " ");
    TrimAroundNewlinesKeepsLetters(ReplaceAll(collapsed, "\t", " "));
  }

  /** Replacing a white-space prefix of `s` by other white space keeps the
      letters, given the rest keeps them. */
  lemma WsPrefixLetters(s: string, e: nat, w: string, rest: string)
    requires e <= |s| && AllWs(s[..e]) && AllWs(w)
    requires RemoveWs(rest) == RemoveWs(s[e..])
    ensures RemoveWs(w + rest) == RemoveWs(s)
  {
    RemoveWsConcat(w, rest);
    RemoveWsEmpty(w);
    RemoveWsTakeDrop(s, e);
    RemoveWsEmpty(s[..e]);
  }

  lemma {:induction false} TrimAroundNewlinesKeepsLetters(s: string)
    ensures RemoveWs(TrimAroundNewlines(s)) == RemoveWs(s)
    decreases |s|
  {
    if s == [] {
    } else if s[0] == '\n' {
      var e := RunEnd(s, 1, ' ');
      TrimAroundNewlinesKeepsLetters(s[e..]);
      SpacesAroundNewline(s, 0, e);
      WsPrefixLetters(s, e, "\n", TrimAroundNewlines(s[e..]));
    } else if s[0] == ' ' {
      var n := RunEnd(s, 0, ' ');
      if n < |s| && s[n] == '\n' {
        var e := RunEnd(s, n + 1, ' ');
        TrimAroundNewlinesKeepsLetters(s[e..]);
        SpacesAroundNewline(s, n, e);
        WsPrefixLetters(s, e, "\n", TrimAroundNewlines(s[e..]));
      } else {
        TrimAroundNewlinesKeepsLetters(s[n..]);
        assert AllWs(s[..n]) by {
          forall k | 0 <= k < n
            ensures IsWs(s[..n][k])
          {
            assert s[..n][k] == s[k] == ' ';
          }
        }
        WsPrefixLetters(s, n, s[..n], TrimAroundNewlines(s[n..]));
      }
    } else {
      var rest := TrimAroundNewlines(s[1..]);
      TrimAroundNewlinesKeepsLetters(s[1..]);
      RemoveWsCons(s[0], rest);
      RemoveWsCons(s[0], s[1..]);
      assert [s[0]] + s[1..] == s;
    }
  }

  /** Spaces, a line feed at `n`, then spaces up to `e`: all white space. */
  lemma SpacesAroundNewline(s: string, n: nat, e: nat)
    requires n < e <= |s| && s[n] == '\n'
    requires forall k :: 0 <= k < n ==> s[k] == ' '
    requires forall k :: n < k < e ==> s[k] == ' '
    ensures AllWs(s[..e])
  {
    forall k | 0 <= k < e
      ensures IsWs(s[..e][k])
    {
      assert s[..e][k] == s[k];
    }
  }

  lemma TripleFreeConcat(a: string, b: string)
    requires NoTripleNewline(a) && NoTripleNewline(b)
    requires a == [] || b == [] || a[|a| - 1] != '\n' || b[0] != '\n'
    ensures NoTripleNewline(a + b)
  {
    var s := a + b;
    forall i | 0 <= i < |s| - 2
      ensures !(s[i] == '\n' && s[i + 1] == '\n' && s[i + 2] == '\n')
    {
      if i + 2 < |a| {
        assert s[i] == a[i] && s[i + 1] == a[i + 1] && s[i + 2] == a[i + 2];
      } else if i >= |a| {
        assert s[i] == b[i - |a|] && s[i + 1] == b[i - |a| + 1] && s[i + 2] == b[i - |a| + 2];
      } else {
        assert s[|a| - 1] == a[|a| - 1] && s[|a|] == b[0];
      }
    }
  }

  /** The blank-line limit (`/\n{3,}/` replaced by two line feeds) leaves no
      three line feeds in a row and keeps spaces away from line feeds. */
  lemma {:induction false} NewlineLimit(s: string)
    ensures NoTripleNewline(CollapseRuns(s, '\n', 3, 2))
    ensures NoSpaceByNewline(s) ==> NoSpaceByNewline(CollapseRuns(s, '\n', 3, 2))
    decreases |s|
  {
    var r := CollapseRuns(s, '\n', 3, 2);
    if s == [] {
    } else if s[0] == '\n' {
      var n := RunEnd(s, 0, '\n');
      var piece := if n >= 3 then Repeat('\n', 2) else s[..n];
      var rest := CollapseRuns(s[n..], '\n', 3, 2);
      NewlineLimit(s[n..]);
      assert r == piece + rest;
      assert |piece| <= 2 && forall i :: 0 <= i < |piece| ==> piece[i] == '\n';
      assert rest != [] ==> rest[0] == s[n];
      TripleFreeConcat(piece, rest);
      if NoSpaceByNewline(s) {
        PairFreeSlice(s, n, |s|, ' ', '\n');
        PairFreeSlice(s, n, |s|, '\n', ' ');
        assert s[n..][..] == s[n..];
        assert rest != [] ==> s[n - 1] == '\n' && rest[0] == s[n] && rest[0] != ' ';
        PairFreeConcat(piece, rest, ' ', '\n');
        PairFreeConcat(piece, rest, '\n', ' ');
      }
    } else {
      var rest := CollapseRuns(s[1..], '\n', 3, 2);
      NewlineLimit(s[1..]);
      assert r == [s[0]] + rest;
      TripleFreeConcat([s[0]], rest);
      if NoSpaceByNewline(s) {
        PairFreeSlice(s, 1, |s|, ' ', '\n');
        PairFreeSlice(s, 1, |s|, '\n', ' ');
        assert rest != [] ==> rest[0] == s[1];
        PairFreeConcat([s[0]], rest, ' ', '\n');
        PairFreeConcat([s[0]], rest, '\n', ' ');
      }
    }
  }

  lemma TripleFreeSlice(s: string, lo: nat, hi: nat)
    requires lo <= hi <= |s|
    requires NoTripleNewline(s)
    ensures NoTripleNewline(s[lo..hi])
  {
    var t := s[lo..hi];
    forall i | 0 <= i < |t| - 2
      ensures !(t[i] == '\n' && t[i + 1] == '\n' && t[i + 2] == '\n')
    {
      assert t[i] == s[lo + i] && t[i + 1] == s[lo + i + 1] && t[i + 2] == s[lo + i + 2];
    }
  }

  /** Trimming keeps every property that holds of all slices. */
  lemma TrimKeeps(s: string)
    ensures forall x :: x in Trim(s) ==> x in s
    ensures NoSpaceByNewline(s) ==> NoSpaceByNewline(Trim(s))
    ensures NoTripleNewline(s) ==> NoTripleNewline(Trim(s))
  {
    var lo, hi := TrimLo(s), TrimHi(s);
    var t := Trim(s);
    assert t == s[lo..hi];
    forall x | x in t
      ensures x in s
    {
      var i :| 0 <= i < |t| && t[i] == x;
      assert s[lo + i] == x;
    }
    if NoSpaceByNewline(s) {
      PairFreeSlice(s, lo, hi, ' ', '\n');
      PairFreeSlice(s, lo, hi, '\n', ' ');
    }
    if NoTripleNewline(s) {
      TripleFreeSlice(s, lo, hi);
    }
  }

  /** The last two steps of `cleanText`: limit blank lines to one empty line,
      then trim. */
  function LimitAndTrim(s: string): (r: string)
    ensures IsTrimmed(r)
    ensures NoTripleNewline(r)
    ensures NoSpaceByNewline(s) ==> NoSpaceByNewline(r)
    ensures forall x :: x in r ==> x in s
  {
    var limited := CollapseRuns(s, '\n', 3, 2);
    NewlineLimit(s);
    TrimKeeps(limited);
    Trim(limited)
  }

  /** The blank-line limit and the trim change only white space. */
  lemma LimitAndTrimKeepsLetters(s: string)
    ensures RemoveWs(LimitAndTrim(s)) == RemoveWs(s)
  {
    CollapseKeepsLetters(s, '\n', 3, 2);
    RemoveWsTrim(CollapseRuns(s, '\n', 3, 2));
  }

  // ---------------------------------------------------------------------------
  // cleanText
  // ---------------------------------------------------------------------------

  /** `cleanText`: empty input gives the empty string; otherwise the passes in
      order, ending with the blank-line limit and a trim. */
  function CleanText(raw: string, refs: string -> string): (r: string)
    ensures raw == [] ==> r == []
    ensures IsTrimmed(r)
    ensures NoTripleNewline(r)
    ensures '\\' !in r && '\t' !in r
    ensures NoSpaceByNewline(r)
    ensures forall i :: 0 <= i < |r| && IsAsciiControl(r[i]) ==> r[i] == '\n' || r[i] == '\r'
  {
    if raw == [] then []
    else
      var decoded := DecodeHtmlEntities(RemoveHtmlTags(raw), refs);
      var unescaped := RemoveEscapeCodes(decoded);
      var r := LimitAndTrim(NormalizeWhitespace(unescaped));
      OnlyLineControlsLeft(unescaped, r);
      r
  }

  /** Text free of markup, entities, backslashes and stripped control
      characters keeps all its non-white-space characters, in order, when the
      character references leave `&`-free text alone. */
  lemma CleanTextKeepsLetters(raw: string, refs: string -> string)
    requires forall t :: '&' !in t ==> refs(t) == t
    requires '<' !in raw && '&' !in raw && '\\' !in raw
    requires forall x :: x in raw ==> !IsStrippedControl(x)
    ensures RemoveWs(CleanText(raw, refs)) == RemoveWs(raw)
  {
    if raw != [] {
      RemoveHtmlTagsPlain(raw);
      assert DecodeHtmlEntities(raw, refs) == raw;
      RemoveEscapeCodesPlain(raw);
      NormalizeWhitespaceKeepsLetters(raw);
      LimitAndTrimKeepsLetters(NormalizeWhitespace(raw));
    }
  }

  lemma OnlyLineControlsLeft(unescaped: string, r: string)
    requires forall x :: x in unescaped ==> !IsStrippedControl(x)
    requires forall x :: x in r ==> (x in unescaped || x == ' ') && x != '\t'
    ensures forall i :: 0 <= i < |r| && IsAsciiControl(r[i]) ==> r[i] == '\n' || r[i] == '\r'
  {
    forall i | 0 <= i < |r| && IsAsciiControl(r[i])
      ensures r[i] == '\n' || r[i] == '\r'
    {
      assert r[i] in r;
    }
  }
}

=== FILE: controls.dfy ===
/** The key dispatch that drives the engine (`handle*Control`): the centre
    key toggles; up and down change speed while reading; left and right jump
    by sentence, with the reading-mode and paused-mode operations. Together
    with timer firings, text loads, the page being hidden (which pauses) and
    validated settings being applied, these are the events that change the
    engine, and every one of them keeps the engine invariant. */
module Controls {
  import opened Wrappers
  import opened Flatten
  import opened Scans
  import opened Reader
  import Strings

  datatype Key = Center | Up | Down | Left | Right

  datatype Event =
    | Press(key: Key)
    | TimerFired
    | Load(rawText: string, startPosition: nat)
    | Hide
    | ApplySettings(wpm: int, increment: int)

  /** One key press. Up and down while paused scroll the paragraph panel,
      which the engine does not see. */
  method HandleKey(e: Engine, k: Key) returns (r: Engine, fx: seq<Effect>)
    requires Valid(e)
    requires (k == Left || k == Right) ==> e.allWords != []
    ensures Valid(r)
    ensures r.allWords == e.allWords
    ensures k == Center ==> r.currentWordIndex == e.currentWordIndex
    ensures k == Center && e.isReading ==> r == e.(isReading := false, isPaused := true, readingTimer := None)
    ensures k == Center && !e.isReading && e.allWords != [] ==> r == ScheduleNextWord(e.(isReading := true, isPaused := false))
    ensures k == Center && e.isReading ==> r.isPaused && r.readingTimer == None
    ensures k == Center && !e.isReading && e.allWords != [] ==> r.isReading && r.readingTimer.Some?
    ensures k == Up && e.isReading ==> r == IncreaseSpeed(e) && fx == [SettingsSaved(r)]
    ensures k == Down && e.isReading ==> r == DecreaseSpeed(e) && fx == [SettingsSaved(r)]
    ensures (k == Up || k == Down) && !e.isReading ==> r == e && fx == []
    ensures k == Left && e.isReading ==> r.currentWordIndex <= e.currentWordIndex
    ensures k == Left && e.isReading ==>
      var s := RunStart(e.allWords, e.currentWordIndex);
      r.currentWordIndex == if e.currentWordIndex - s <= 1 then PreviousRunTarget(e.allWords, e.currentWordIndex) else s
    ensures k == Left && !e.isReading ==> r.currentWordIndex == PreviousRunTarget(e.allWords, e.currentWordIndex)
    ensures k == Right ==> r.currentWordIndex == NextSentenceTarget(e.allWords, e.currentWordIndex)
    ensures k == Left && e.isReading ==>
      var s := RunStart(e.allWords, e.currentWordIndex);
      if s == 0 && e.currentWordIndex <= 1 then r == e && fx == []
      else r == Rearm(e.(currentWordIndex := r.currentWordIndex)) && fx != [] && fx[|fx| - 1] == SaveCurrentPosition(r)
    ensures k == Left && !e.isReading ==>
      && r == e.(currentWordIndex := PreviousRunTarget(e.allWords, e.currentWordIndex))
      && fx != [] && fx[|fx| - 1] == SaveCurrentPosition(r)
    ensures k == Right ==>
      && r == Rearm(e.(currentWordIndex := NextSentenceTarget(e.allWords, e.currentWordIndex)))
      && fx != [] && fx[|fx| - 1] == SaveCurrentPosition(r)
  {
    match k
    case Center =>
      r, fx := Toggle(e);
    case Up =>
      if e.isReading {
        r := IncreaseSpeed(e);
        fx := [SettingsSaved(r)];
      } else {
        r, fx := e, [];
      }
    case Down =>
      if e.isReading {
        r := DecreaseSpeed(e);
        fx := [SettingsSaved(r)];
      } else {
        r, fx := e, [];
      }
    case Left =>
      if e.isReading {
        r, fx := JumpToSentenceStart(e);
      } else {
        r, fx := NavigateToPreviousSentence(e);
      }
    case Right =>
      if e.isReading {
        r, fx := SkipToNextSentence(e);
      } else {
        r, fx := NavigateToNextSentence(e);
      }
  }

  /** One event: a key press, the pending timer firing (ignored when none is
      pending), or loading a text. */
  method Step(e: Engine, ev: Event, refs: string -> string) returns (r: Engine, fx: seq<Effect>)
    requires Valid(e)
    requires ev.Press? && (ev.key == Left || ev.key == Right) ==> e.allWords != []
    requires ev.ApplySettings? ==> ValidSettings(ev.wpm, ev.increment)
    ensures Valid(r)
    ensures ev.Hide? && e.isReading ==> r == e.(isReading := false, isPaused := true, readingTimer := None)
    ensures ev.Hide? && !e.isReading ==> r == e && fx == []
    ensures ev.ApplySettings? ==> r == e.(wordsPerMinute := ev.wpm, wordsPerMinuteIncrement := ev.increment) && fx == []
    ensures ev.TimerFired? && e.readingTimer.None? ==> r == e && fx == []
    ensures ev.TimerFired? && e.readingTimer.Some? ==> r.currentWordIndex == Strings.Min(e.currentWordIndex + 1, |e.allWords| - 1)
    ensures ev.TimerFired? && e.readingTimer.Some? && e.currentWordIndex < |e.allWords| - 1 ==>
      && r == ScheduleNextWord(e.(readingTimer := None, currentWordIndex := e.currentWordIndex + 1))
      && fx == [ShowWord(CurrentWord(r).text)] + (if r.currentWordIndex % 10 == 0 then [SaveCurrentPosition(r)] else [])
    ensures ev.TimerFired? && e.readingTimer.Some? && e.currentWordIndex == |e.allWords| - 1 ==>
      && r == e.(isReading := false, isPaused := true, readingTimer := None)
      && |fx| >= 1 && fx[|fx| - 1] == SaveCurrentPosition(e)
  {
    match ev
    case Press(k) =>
      r, fx := HandleKey(e, k);
    case TimerFired =>
      if e.readingTimer.Some? {
        r, fx := TimerFires(e);
      } else {
        r, fx := e, [];
      }
    case Load(rawText, startPosition) =>
      var ok;
      r, ok, fx := LoadText(e, rawText, startPosition, refs);
    case Hide =>
      if e.isReading {
        r, fx := Pause(e);
      } else {
        r, fx := e, [];
      }
    case ApplySettings(wpm, increment) =>
      r, fx := e.(wordsPerMinute := wpm, wordsPerMinuteIncrement := increment), [];
  }

  /** The ranges the settings form enforces before it saves and applies a
      speed and an increment. */
  predicate ValidSettings(wpm: int, increment: int) {
    50 <= wpm <= 1000 && 1 <= increment <= 100
  }

  /** Arrow keys need a current word: with no words loaded the source's
      handler throws before any state a later event can observe has
      changed, so such a press is dropped. Settings are applied only once
      the form has validated them. */
  predicate Allowed(e: Engine, ev: Event) {
    && (ev.Press? && (ev.key == Left || ev.key == Right) ==> e.allWords != [])
    && (ev.ApplySettings? ==> ValidSettings(ev.wpm, ev.increment))
  }

  /** Any run of events from a valid engine (for instance a freshly
      initialised one) keeps the invariant: reading exactly when one timer
      is pending, never a leaked timer, the position on a word. */
  method Run(e: Engine, events: seq<Event>, refs: string -> string) returns (r: Engine, fx: seq<Effect>)
    requires Valid(e)
    ensures Valid(r)
  {
    r, fx := e, [];
    var n := 0;
    while n < |events|
      invariant 0 <= n <= |events|
      invariant Valid(r)
    {
      if Allowed(r, events[n]) {
        var more;
        r, more := Step(r, events[n], refs);
        fx := fx + more;
      }
      n := n + 1;
    }
  }

  /** A freshly initialised engine with settings in their validated ranges
      is valid, so `Run` applies from start-up. */
  lemma StartUpValid(settingsWpm: int, settingsIncrement: int)
    requires ValidSettings(settingsWpm, settingsIncrement)
    ensures Valid(Initialize(settingsWpm, settingsIncrement))
  {
  }
}

=== FILE: flatten.dfy ===
/** The flat word array the reader walks (`getAllWordsFlat`) and the two
    look-ups from a global word index back into the tree. */
module Flatten {
  import opened Wrappers
  import opened Strings
  import opened Segmenter

  /** A word together with where it sits: its global position and a copy of
      its sentence's and paragraph's index and text. */
  datatype FlatWord = FlatWord(
    wordIndex: nat,
    text: string,
    hasPunctuation: bool,
    globalWordIndex: nat,
    sentenceIndex: nat,
    paragraphIndex: nat,
    sentenceText: string,
    paragraphText: string)

  function Stamp(p: Paragraph, st: Sentence, w: Word, g: nat): FlatWord {
    FlatWord(w.wordIndex, w.text, w.hasPunctuation, g, st.sentenceIndex, p.paragraphIndex, st.text, p.text)
  }

  // ---------------------------------------------------------------------------
  // Running word counts
  // ---------------------------------------------------------------------------

  /** Number of words in the first `j` sentences. */
  function SentenceWordsBefore(ss: seq<Sentence>, j: nat): nat
    requires j <= |ss|
  {
    if j == 0 then 0 else SentenceWordsBefore(ss, j - 1) + |ss[j - 1].words|
  }

  function WordCount(p: Paragraph): nat {
    SentenceWordsBefore(p.sentences, |p.sentences|)
  }

  /** Number of words in the first `i` paragraphs. */
  function WordsBefore(ps: seq<Paragraph>, i: nat): nat
    requires i <= |ps|
  {
    if i == 0 then 0 else WordsBefore(ps, i - 1) + WordCount(ps[i - 1])
  }

  lemma {:induction false} SentenceWordsBeforeMono(ss: seq<Sentence>, a: nat, b: nat)
    requires a <= b <= |ss|
    ensures SentenceWordsBefore(ss, a) <= SentenceWordsBefore(ss, b)
    decreases b
  {
    if a < b {
      SentenceWordsBeforeMono(ss, a, b - 1);
    }
  }

  lemma {:induction false} WordsBeforeMono(ps: seq<Paragraph>, a: nat, b: nat)
    requires a <= b <= |ps|
    ensures WordsBefore(ps, a) <= WordsBefore(ps, b)
    decreases b
  {
    if a < b {
      WordsBeforeMono(ps, a, b - 1);
    }
  }

  /** The running counts agree with the recursive totals `processText` is
      specified by. */
  lemma {:induction false} SentenceWordsBeforeIsCount(ss: seq<Sentence>, j: nat)
    requires j <= |ss|
    ensures SentenceWordsBefore(ss, j) == SentenceWordCount(ss[..j])
    decreases j
  {
    if j == 0 {
      assert ss[..0] == [];
    } else {
      SentenceWordsBeforeIsCount(ss, j - 1);
      SentenceWordCountAppend(ss[..j - 1], [ss[j - 1]]);
      assert ss[..j] == ss[..j - 1] + [ss[j - 1]];
    }
  }

  lemma {:induction false} WordsBeforeIsWordsIn(ps: seq<Paragraph>, i: nat)
    requires i <= |ps|
    ensures WordsBefore(ps, i) == WordsIn(ps[..i])
    decreases i
  {
    if i == 0 {
      assert ps[..0] == [];
    } else {
      WordsBeforeIsWordsIn(ps, i - 1);
      WordsInAppend(ps[..i - 1], [ps[i - 1]]);
      assert ps[..i] == ps[..i - 1] + [ps[i - 1]];
      SentenceWordsBeforeIsCount(ps[i - 1].sentences, |ps[i - 1].sentences|);
      assert ps[i - 1].sentences[..|ps[i - 1].sentences|] == ps[i - 1].sentences;
    }
  }

  lemma TotalWords(ps: seq<Paragraph>)
    ensures WordsBefore(ps, |ps|) == WordsIn(ps)
  {
    WordsBeforeIsWordsIn(ps, |ps|);
    assert ps[..|ps|] == ps;
  }

  // ---------------------------------------------------------------------------
  // Reference definition, in reading order
  // ---------------------------------------------------------------------------

  function FlatSentence(p: Paragraph, st: Sentence, base: nat): (r: seq<FlatWord>)
    ensures |r| == |st.words|
  {
    seq(|st.words|, k requires 0 <= k < |st.words| => Stamp(p, st, st.words[k], base + k))
  }

  /** The words of the first `j` sentences of `p`, numbered from `base`. */
  function FlatSentences(p: Paragraph, j: nat, base: nat): (r: seq<FlatWord>)
    requires j <= |p.sentences|
    ensures |r| == SentenceWordsBefore(p.sentences, j)
  {
    if j == 0 then []
    else FlatSentences(p, j - 1, base) + FlatSentence(p, p.sentences[j - 1], base + SentenceWordsBefore(p.sentences, j - 1))
  }

  function FlatParagraph(p: Paragraph, base: nat): (r: seq<FlatWord>)
    ensures |r| == WordCount(p)
  {
    FlatSentences(p, |p.sentences|, base)
  }

  /** The words of the first `i` paragraphs, in reading order. */
  function FlatParagraphs(ps: seq<Paragraph>, i: nat): (r: seq<FlatWord>)
    requires i <= |ps|
    ensures |r| == WordsBefore(ps, i)
  {
    if i == 0 then []
    else FlatParagraphs(ps, i - 1) + FlatParagraph(ps[i - 1], WordsBefore(ps, i - 1))
  }

  /** The whole flat array of a document's paragraphs. */
  function AllWordsFlat(ps: seq<Paragraph>): (r: seq<FlatWord>)
    ensures |r| == WordsIn(ps)
  {
    TotalWords(ps);
    FlatParagraphs(ps, |ps|)
  }

  // ---------------------------------------------------------------------------
  // Properties of the flat array
  // ---------------------------------------------------------------------------

  /** Every word of a paragraph carries the paragraph's index and text, and
      its own position. */
  lemma {:induction false} FlatSentencesFields(p: Paragraph, j: nat, base: nat)
    requires j <= |p.sentences|
    ensures forall t :: 0 <= t < |FlatSentences(p, j, base)| ==>
      && FlatSentences(p, j, base)[t].globalWordIndex == base + t
      && FlatSentences(p, j, base)[t].paragraphIndex == p.paragraphIndex
      && FlatSentences(p, j, base)[t].paragraphText == p.text
    decreases j
  {
    if j > 0 {
      FlatSentencesFields(p, j - 1, base);
    }
  }

  /** Entry `t` of the flat array has global index `t`. */
  lemma {:induction false} FlatGlobalIndex(ps: seq<Paragraph>, i: nat)
    requires i <= |ps|
    ensures forall t :: 0 <= t < |FlatParagraphs(ps, i)| ==> FlatParagraphs(ps, i)[t].globalWordIndex == t
    decreases i
  {
    if i > 0 {
      FlatGlobalIndex(ps, i - 1);
      FlatSentencesFields(ps[i - 1], |ps[i - 1].sentences|, WordsBefore(ps, i - 1));
    }
  }

  /** Word `k` of sentence `j` sits right after the words of the sentences
      before it, carrying that sentence's and the paragraph's index and text. */
  lemma {:induction false} FlatSentencesAt(p: Paragraph, n: nat, base: nat, j: nat, k: nat)
    requires j < n <= |p.sentences| && k < |p.sentences[j].words|
    ensures SentenceWordsBefore(p.sentences, j) + k < |FlatSentences(p, n, base)|
    ensures FlatSentences(p, n, base)[SentenceWordsBefore(p.sentences, j) + k]
      == Stamp(p, p.sentences[j], p.sentences[j].words[k], base + SentenceWordsBefore(p.sentences, j) + k)
    decreases n
  {
    if j < n - 1 {
      FlatSentencesAt(p, n - 1, base, j, k);
      SentenceWordsBeforeMono(p.sentences, j + 1, n - 1);
    }
  }

  /** Word `k` of sentence `j` of paragraph `i` is entry
      `WordsBefore(ps, i) + SentenceWordsBefore(ps[i].sentences, j) + k` of the
      flat array, and carries its own global index and its sentence's and
      paragraph's index and text. */
  lemma {:induction false} FlatParagraphsAt(ps: seq<Paragraph>, n: nat, i: nat, j: nat, k: nat)
    requires i < n <= |ps| && j < |ps[i].sentences| && k < |ps[i].sentences[j].words|
    ensures WordsBefore(ps, i) + SentenceWordsBefore(ps[i].sentences, j) + k < |FlatParagraphs(ps, n)|
    ensures var t := WordsBefore(ps, i) + SentenceWordsBefore(ps[i].sentences, j) + k;
      FlatParagraphs(ps, n)[t] == Stamp(ps[i], ps[i].sentences[j], ps[i].sentences[j].words[k], t)
    decreases n
  {
    if i < n - 1 {
      FlatParagraphsAt(ps, n - 1, i, j, k);
    } else {
      FlatSentencesAt(ps[i], |ps[i].sentences|, WordsBefore(ps, i), j, k);
    }
  }

  /** The words of paragraph `i` fill exactly the range
      `[WordsBefore(ps, i), WordsBefore(ps, i + 1))` of the flat array. */
  lemma {:induction false} FlatParagraphRange(ps: seq<Paragraph>, n: nat, i: nat, t: nat)
    requires i < n <= |ps| && WordsBefore(ps, i) <= t < WordsBefore(ps, i + 1)
    ensures t < |FlatParagraphs(ps, n)|
    ensures FlatParagraphs(ps, n)[t].paragraphIndex == ps[i].paragraphIndex
    ensures FlatParagraphs(ps, n)[t].paragraphText == ps[i].text
    decreases n
  {
    if i < n - 1 {
      FlatParagraphRange(ps, n - 1, i, t);
      WordsBeforeMono(ps, i + 1, n - 1);
    } else {
      FlatSentencesFields(ps[i], |ps[i].sentences|, WordsBefore(ps, i));
    }
  }

  predicate IndexedFromZero(ps: seq<Paragraph>) {
    forall k :: 0 <= k < |ps| ==> ps[k].paragraphIndex == k
  }

  /** Along the flat array of paragraphs numbered from 0, `paragraphIndex`
      never decreases (and stays below the number of paragraphs). */
  lemma {:induction false} FlatParagraphIndexMonotone(ps: seq<Paragraph>, n: nat)
    requires n <= |ps| && IndexedFromZero(ps)
    ensures forall a :: 0 <= a < |FlatParagraphs(ps, n)| ==> FlatParagraphs(ps, n)[a].paragraphIndex < n
    ensures forall a, b :: 0 <= a <= b < |FlatParagraphs(ps, n)| ==>
      FlatParagraphs(ps, n)[a].paragraphIndex <= FlatParagraphs(ps, n)[b].paragraphIndex
    decreases n
  {
    if n > 0 {
      FlatParagraphIndexMonotone(ps, n - 1);
      FlatSentencesFields(ps[n - 1], |ps[n - 1].sentences|, WordsBefore(ps, n - 1));
      MonotoneJoin(FlatParagraphs(ps, n - 1), FlatParagraph(ps[n - 1], WordsBefore(ps, n - 1)), n - 1);
    }
  }

  lemma MonotoneJoin(head: seq<FlatWord>, tail: seq<FlatWord>, m: nat)
    requires forall a :: 0 <= a < |head| ==> head[a].paragraphIndex < m
    requires forall a, b :: 0 <= a <= b < |head| ==> head[a].paragraphIndex <= head[b].paragraphIndex
    requires forall a :: 0 <= a < |tail| ==> tail[a].paragraphIndex == m
    ensures forall a :: 0 <= a < |head + tail| ==> (head + tail)[a].paragraphIndex < m + 1
    ensures forall a, b :: 0 <= a <= b < |head + tail| ==> (head + tail)[a].paragraphIndex <= (head + tail)[b].paragraphIndex
  {
  }

  /** In a well-formed document, flat entries never go back to an earlier
      paragraph. */
  lemma DocumentParagraphIndexMonotone(ps: seq<Paragraph>)
    requires DocumentWellFormed(ps)
    ensures forall a, b :: 0 <= a <= b < |AllWordsFlat(ps)| ==>
      AllWordsFlat(ps)[a].paragraphIndex <= AllWordsFlat(ps)[b].paragraphIndex
  {
    FlatParagraphIndexMonotone(ps, |ps|);
  }

  // ---------------------------------------------------------------------------
  // getAllWordsFlat
  // ---------------------------------------------------------------------------

  /** `getAllWordsFlat`: the three nested `forEach` loops that push every word
      with a running global counter; the outer one is here, the inner two in
      `PushParagraph` and `PushSentence`. The result has one entry per word,
      entry `t` having global index `t`. */
  method GetAllWordsFlat(doc: Document) returns (allWords: seq<FlatWord>)
    ensures allWords == AllWordsFlat(doc.paragraphs)
    ensures |allWords| == WordsIn(doc.paragraphs)
    ensures forall t :: 0 <= t < |allWords| ==> allWords[t].globalWordIndex == t
  {
    var ps := doc.paragraphs;
    allWords := [];
    var globalWordIndex := 0;
    var i := 0;
    while i < |ps|
      invariant 0 <= i <= |ps|
      invariant globalWordIndex == WordsBefore(ps, i)
      invariant allWords == FlatParagraphs(ps, i)
    {
      allWords, globalWordIndex := PushParagraph(allWords, ps[i], globalWordIndex);
      i := i + 1;
    }
    TotalWords(ps);
    FlatGlobalIndex(ps, |ps|);
  }

  method PushParagraph(allWords: seq<FlatWord>, p: Paragraph, g: nat) returns (allWords': seq<FlatWord>, g': nat)
    ensures allWords' == allWords + FlatParagraph(p, g)
    ensures g' == g + WordCount(p)
  {
    allWords', g' := allWords, g;
    var j := 0;
    while j < |p.sentences|
      invariant 0 <= j <= |p.sentences|
      invariant g' == g + SentenceWordsBefore(p.sentences, j)
      invariant allWords' == allWords + FlatSentences(p, j, g)
    {
      allWords', g' := PushSentence(allWords', p, p.sentences[j], g');
      AppendAssoc(allWords, FlatSentences(p, j, g), FlatSentence(p, p.sentences[j], g + SentenceWordsBefore(p.sentences, j)));
      j := j + 1;
    }
  }

  method PushSentence(allWords: seq<FlatWord>, p: Paragraph, st: Sentence, g: nat) returns (allWords': seq<FlatWord>, g': nat)
    ensures allWords' == allWords + FlatSentence(p, st, g)
    ensures g' == g + |st.words|
  {
    allWords', g' := allWords, g;
    var k := 0;
    while k < |st.words|
      invariant 0 <= k <= |st.words|
      invariant g' == g + k
      invariant allWords' == allWords + FlatSentence(p, st, g)[..k]
    {
      allWords' := allWords' + [Stamp(p, st, st.words[k], g')];
      g' := g' + 1;
      k := k + 1;
    }
    assert FlatSentence(p, st, g)[..k] == FlatSentence(p, st, g);
  }

  // ---------------------------------------------------------------------------
  // Look-ups
  // ---------------------------------------------------------------------------

  /** `findParagraphByWordIndex`: the first paragraph whose cumulative word
      range reaches past `g`; past the end, the last paragraph; with no
      paragraphs, nothing. Within range it is the paragraph the flat word `g`
      names. */
  method FindParagraphByWordIndex(ps: seq<Paragraph>, g: nat) returns (r: Option<Paragraph>)
    ensures ps == [] ==> r == None
    ensures ps != [] && g >= WordsIn(ps) ==> r == Some(ps[|ps| - 1])
    ensures g < WordsIn(ps) ==>
      exists i :: 0 <= i < |ps| && r == Some(ps[i]) && WordsBefore(ps, i) <= g < WordsBefore(ps, i + 1)
    ensures g < WordsIn(ps) ==>
      r.Some? && r.value.paragraphIndex == AllWordsFlat(ps)[g].paragraphIndex && r.value.text == AllWordsFlat(ps)[g].paragraphText
  {
    TotalWords(ps);
    var currentWordCount := 0;
    var i := 0;
    while i < |ps|
      invariant 0 <= i <= |ps|
      invariant currentWordCount == WordsBefore(ps, i) <= g
    {
      var paragraphWordCount := ParagraphWordCount(ps[i]);
      SentenceWordsBeforeIsCount(ps[i].sentences, |ps[i].sentences|);
      assert ps[i].sentences[..|ps[i].sentences|] == ps[i].sentences;
      if g < currentWordCount + paragraphWordCount {
        FlatParagraphRange(ps, |ps|, i, g);
        return Some(ps[i]);
      }
      currentWordCount := currentWordCount + paragraphWordCount;
      i := i + 1;
    }
    if |ps| == 0 {
      return None;
    }
    return Some(ps[|ps| - 1]);
  }

  /** All sentences of the document in reading order. */
  function AllSentences(ps: seq<Paragraph>): (r: seq<Sentence>)
    ensures SentenceWordCount(r) == WordsIn(ps)
  {
    if ps == [] then []
    else
      SentenceWordCountAppend(ps[0].sentences, AllSentences(ps[1..]));
      ps[0].sentences + AllSentences(ps[1..])
  }

  /** The first sentence, in reading order from `ss`, whose cumulative word
      range reaches past `g`. */
  function FindSentenceIn(ss: seq<Sentence>, g: nat): (r: Option<Sentence>)
    ensures r == None <==> g >= SentenceWordCount(ss)
    ensures r.Some? ==>
      exists j :: 0 <= j < |ss| && r == Some(ss[j]) && SentenceWordCount(ss[..j]) <= g < SentenceWordCount(ss[..j + 1])
  {
    if ss == [] then None
    else if g < |ss[0].words| then
      assert ss[..0] == [] && ss[..1] == [ss[0]];
      Some(ss[0])
    else
      var r := FindSentenceIn(ss[1..], g - |ss[0].words|);
      if r.Some? then
        var j :| 0 <= j < |ss[1..]| && r == Some(ss[1..][j])
          && SentenceWordCount(ss[1..][..j]) <= g - |ss[0].words| < SentenceWordCount(ss[1..][..j + 1]);
        assert ss[..j + 1][1..] == ss[1..][..j];
        assert ss[..j + 2][1..] == ss[1..][..j + 1];
        r
      else r
  }

  /** `findSentenceByWordIndex`: the nested loops over paragraphs and their
      sentences, returning nothing past the last word. */
  function FindSentenceByWordIndex(ps: seq<Paragraph>, g: nat): (r: Option<Sentence>)
    ensures r == None <==> g >= WordsIn(ps)
    ensures r.Some? ==>
      exists j :: 0 <= j < |AllSentences(ps)| && r == Some(AllSentences(ps)[j])
        && SentenceWordCount(AllSentences(ps)[..j]) <= g < SentenceWordCount(AllSentences(ps)[..j + 1])
  {
    FindSentenceIn(AllSentences(ps), g)
  }
}

=== FILE: library.dfy ===
/** The reading library (`LibraryManager`, library.js): an in-memory list of
    document records plus the active document and the unsaved bookmarklet text,
    all as one immutable `Library` value. The browser store behind it is
    abstract: the clock value and the storage usage are parameters. */
module Library {
  import opened Wrappers
  import opened Strings

  // ---------------------------------------------------------------------------
  // Records
  // ---------------------------------------------------------------------------

  /** A saved reading position (library.js:164). */
  datatype Position = Position(wordIndex: int, sentenceIndex: int, paragraphIndex: int)

  const ZeroPosition := Position(0, 0, 0)

  /** One document record (library.js:160-169). Times are milliseconds since the epoch. */
  datatype DocRecord = DocRecord(
    id: string,
    title: string,
    textContent: string,
    position: Position,
    lastRead: int,
    dateAdded: int,
    source: string,
    autoSave: bool)

  /** The manager's state (library.js:14-16) together with the two temporary
      keys of the store (library.js:9-10). An absent temporary text is `[]`,
      as every reader of that key treats it (library.js:86, 117, 193). */
  datatype Library = Library(
    documents: seq<DocRecord>,
    activeDocumentId: Option<string>,
    tempText: string,
    tempPosition: Option<Position>,
    hasUnsavedText: bool)

  datatype LibraryError = StorageFull | NoTempText

  const BookmarkletSource := "bookmarklet"

  // ---------------------------------------------------------------------------
  // Titles
  // ---------------------------------------------------------------------------

  const TitleLimit := 50
  const Ellipsis := "..."
  const UntitledTitle := "Untitled Document"

  /** `generateTitle`: the first 50 characters of the trimmed text, with an
      ellipsis exactly when something was cut, or a fixed title for blank text. */
  function GenerateTitle(textContent: string): (title: string)
    ensures AllWs(textContent) ==> title == UntitledTitle
    ensures !AllWs(textContent) && |Trim(textContent)| <= TitleLimit ==> title == Trim(textContent)
    ensures |Trim(textContent)| > TitleLimit ==> title == Trim(textContent)[..TitleLimit] + Ellipsis
  {
    var trimmed := Trim(textContent);
    var cleaned := trimmed[..Min(TitleLimit, |trimmed|)];
    var title := if |cleaned| < |trimmed| then cleaned + Ellipsis else cleaned;
    if title == [] then UntitledTitle else title
  }

  /** A generated title is never blank, carries no surrounding white space and
      is at most 53 characters long. */
  lemma TitleShape(textContent: string)
    ensures var title := GenerateTitle(textContent);
      title != [] && IsTrimmed(title) && |title| <= TitleLimit + |Ellipsis|
  {
    var t := Trim(textContent);
    if |t| > TitleLimit {
      var title := t[..TitleLimit] + Ellipsis;
      assert title[0] == t[0];
    }
  }

  /** Generating a title from a generated title changes nothing. */
  lemma TitleIdempotent(textContent: string)
    ensures GenerateTitle(GenerateTitle(textContent)) == GenerateTitle(textContent)
  {
    var title := GenerateTitle(textContent);
    TitleShape(textContent);
    TrimOfTrimmed(title);
    assert !AllWs(title) by {
      assert !IsWs(title[0]);
    }
  }

  // ---------------------------------------------------------------------------
  // Document ids
  // ---------------------------------------------------------------------------

  predicate IsDigit(c: char) {
    48 <= c as int <= 57
  }

  function DigitChar(d: nat): (c: char)
    requires d < 10
    ensures IsDigit(c)
  {
    (48 + d) as char
  }

  /** Decimal notation of a natural number, as a template literal prints it. */
  function NatToString(n: nat): (s: string)
    ensures s != []
    ensures forall i :: 0 <= i < |s| ==> IsDigit(s[i])
  {
    if n < 10 then [DigitChar(n)] else NatToString(n / 10) + [DigitChar(n % 10)]
  }

  /** The value of a string of decimal digits. */
  function DigitsValue(s: string): nat
    requires forall i :: 0 <= i < |s| ==> IsDigit(s[i])
  {
    if s == [] then 0
    else
      assert IsDigit(s[|s| - 1]);
      DigitsValue(s[..|s| - 1]) * 10 + (s[|s| - 1] as int - 48)
  }

  lemma {:induction false} DigitsRoundTrip(n: nat)
    ensures DigitsValue(NatToString(n)) == n
  {
    if n >= 10 {
      var s := NatToString(n);
      assert s[..|s| - 1] == NatToString(n / 10);
      DigitsRoundTrip(n / 10);
    }
  }

  const IdPrefix := "doc_"

  /** The id `createDocument` derives from the clock (library.js:161). */
  function DocId(now: nat): (id: string)
    ensures |id| > |IdPrefix| && id[..|IdPrefix|] == IdPrefix
    ensures forall i :: |IdPrefix| <= i < |id| ==> IsDigit(id[i])
    ensures DigitsValue(id[|IdPrefix|..]) == now
  {
    DigitsRoundTrip(now);
    assert (IdPrefix + NatToString(now))[|IdPrefix|..] == NatToString(now);
    IdPrefix + NatToString(now)
  }

  /** Documents created at different times get different ids. */
  lemma DocIdInjective(a: nat, b: nat)
    ensures DocId(a) == DocId(b) ==> a == b
  {
  }

  // ---------------------------------------------------------------------------
  // Creating and adding documents
  // ---------------------------------------------------------------------------

  /** `title || generateTitle(textContent)`: an absent or empty title falls back. */
  function ChosenTitle(title: Option<string>, textContent: string): string {
    if title.Some? && title.value != [] then title.value else GenerateTitle(textContent)
  }

  /** `createDocument`, with `Date.now()` passed in as `now`. */
  function CreateDocument(textContent: string, source: string, title: Option<string>, now: nat): (d: DocRecord)
    ensures d.id == DocId(now) && d.lastRead == d.dateAdded == now
    ensures d.position == ZeroPosition && d.autoSave
    ensures d.textContent == textContent && d.source == source
    ensures d.title != []
    ensures title.Some? && title.value != [] ==> d.title == title.value
    ensures (title.None? || title.value == []) ==> d.title == GenerateTitle(textContent)
  {
    TitleShape(textContent);
    DocRecord(DocId(now), ChosenTitle(title, textContent), textContent, ZeroPosition, now, now, source, true)
  }

  const StorageLimit := 5 * 1024 * 1024

  /** `hasStorageSpace`: `usage` is the total stored size `getStorageUsage`
      reports, or `None` when it cannot be read, in which case adding is allowed. */
  function HasStorageSpace(usage: Option<nat>, newTextLength: nat): (ok: bool)
    ensures usage.None? ==> ok
    ensures usage.Some? ==>
      (ok <==> ((usage.value + newTextLength) as real / StorageLimit as real) * 100.0 < 95.0)
  {
    usage.None? || (usage.value + newTextLength) * 100 < 95 * StorageLimit
  }

  /** The 95% threshold is 4980736 characters, and a shorter text always fits
      where a longer one does. */
  lemma StorageThreshold(used: nat, n: nat, m: nat)
    ensures HasStorageSpace(Some(used), n) <==> used + n < 4980736
    ensures m <= n && HasStorageSpace(Some(used), n) ==> HasStorageSpace(Some(used), m)
  {
  }

  /** `addDocument`: append the record when the store has room for its text. */
  function AddDocument(lib: Library, doc: DocRecord, usage: Option<nat>): (out: (Library, Result<string, LibraryError>))
    ensures out.1.Success? <==> HasStorageSpace(usage, |doc.textContent|)
    ensures out.1.Success? ==> out.1.value == doc.id
    ensures out.1.Success? ==> out.0 == lib.(documents := lib.documents + [doc])
    ensures out.1.Failure? ==> out.0 == lib && out.1.error == StorageFull
  {
    if !HasStorageSpace(usage, |doc.textContent|) then (lib, Failure(StorageFull))
    else (lib.(documents := lib.documents + [doc]), Success(doc.id))
  }

  // ---------------------------------------------------------------------------
  // Looking documents up
  // ---------------------------------------------------------------------------

  predicate HasId(docs: seq<DocRecord>, id: string) {
    exists i :: 0 <= i < |docs| && docs[i].id == id
  }

  /** `k` is the first position holding `id`. */
  predicate IsFirst(docs: seq<DocRecord>, id: string, k: nat) {
    k < |docs| && docs[k].id == id && forall i :: 0 <= i < k ==> docs[i].id != id
  }

  /** `findIndex` by id. */
  function FindIndex(docs: seq<DocRecord>, id: string): (k: Option<nat>)
    ensures k.None? <==> !HasId(docs, id)
    ensures k.Some? ==> IsFirst(docs, id, k.value)
  {
    if docs == [] then None
    else if docs[0].id == id then Some(0)
    else
      var k := FindIndex(docs[1..], id);
      if k.None? then (assert forall i :: 1 <= i < |docs| ==> docs[i] == docs[1..][i - 1]; None)
      else Some(k.value + 1)
  }

  /** `getDocument`: the first record with the id, if any. */
  function GetDocument(docs: seq<DocRecord>, id: string): (r: Option<DocRecord>)
    ensures r.None? <==> !HasId(docs, id)
    ensures r.Some? ==> exists k: nat :: IsFirst(docs, id, k) && r.value == docs[k]
  {
    var k := FindIndex(docs, id);
    if k.None? then None else Some(docs[k.value])
  }

  /** A record appended under a fresh id is found again under that id. */
  lemma AddThenGet(lib: Library, doc: DocRecord, usage: Option<nat>)
    requires !HasId(lib.documents, doc.id)
    requires HasStorageSpace(usage, |doc.textContent|)
    ensures GetDocument(AddDocument(lib, doc, usage).0.documents, doc.id) == Some(doc)
  {
    var docs := lib.documents + [doc];
    assert IsFirst(docs, doc.id, |lib.documents|);
    assert forall i :: 0 <= i < |lib.documents| ==> docs[i] == lib.documents[i];
  }

  // ---------------------------------------------------------------------------
  // Updating documents
  // ---------------------------------------------------------------------------

  /** The fields an `updates` object may carry; `None` leaves a field as it is.
      `lastRead` is absent because the update always overwrites it. */
  datatype Patch = Patch(
    id: Option<string>,
    title: Option<string>,
    textContent: Option<string>,
    position: Option<Position>,
    dateAdded: Option<int>,
    source: Option<string>,
    autoSave: Option<bool>)

  const EmptyPatch := Patch(None, None, None, None, None, None, None)

  /** `{ ...doc, ...updates, lastRead: now }`. */
  function Merge(d: DocRecord, p: Patch, now: int): (r: DocRecord)
    ensures r.lastRead == now
    ensures p == EmptyPatch ==> r == d.(lastRead := now)
  {
    DocRecord(
      p.id.GetOr(d.id), p.title.GetOr(d.title), p.textContent.GetOr(d.textContent),
      p.position.GetOr(d.position), now, p.dateAdded.GetOr(d.dateAdded),
      p.source.GetOr(d.source), p.autoSave.GetOr(d.autoSave))
  }

  /** `updateDocument`: replace the first record with the id by its merge with
      the patch; an unknown id changes nothing and reports false. */
  function UpdateDocument(lib: Library, id: string, updates: Patch, now: int): (out: (Library, bool))
    ensures out.1 <==> HasId(lib.documents, id)
    ensures !out.1 ==> out.0 == lib
    ensures out.0 == lib.(documents := out.0.documents)
    ensures out.1 ==> |out.0.documents| == |lib.documents|
    ensures out.1 ==> exists k: nat :: IsFirst(lib.documents, id, k) &&
                        out.0.documents[k] == Merge(lib.documents[k], updates, now) &&
                        (forall i :: 0 <= i < |lib.documents| && i != k ==> out.0.documents[i] == lib.documents[i])
  {
    var k := FindIndex(lib.documents, id);
    if k.None? then (lib, false)
    else
      var docs := lib.documents[k.value := Merge(lib.documents[k.value], updates, now)];
      (lib.(documents := docs), true)
  }

  /** `updateDocumentPosition`: `updateDocument` with only the position
      patched, so every other record and the rest of the library stay as they
      were, and an unknown id changes nothing. */
  function UpdateDocumentPosition(lib: Library, id: string, position: Position, now: int): (out: (Library, bool))
    ensures out.1 <==> HasId(lib.documents, id)
    ensures out.1 ==>
              GetDocument(out.0.documents, id) ==
              Some(GetDocument(lib.documents, id).value.(position := position, lastRead := now))
    ensures !out.1 ==> out.0 == lib
    ensures out.0 == lib.(documents := out.0.documents) && |out.0.documents| == |lib.documents|
    ensures out.1 ==> exists k: nat :: IsFirst(lib.documents, id, k) &&
                        out.0.documents[k] == lib.documents[k].(position := position, lastRead := now) &&
                        (forall i :: 0 <= i < |lib.documents| && i != k ==> out.0.documents[i] == lib.documents[i])
    ensures out == UpdateDocument(lib, id, EmptyPatch.(position := Some(position)), now)
  {
    var p := EmptyPatch.(position := Some(position));
    var out := UpdateDocument(lib, id, p, now);
    if out.1 then UpdateThenGet(lib, id, p, now); out else out
  }

  /** `updateDocumentTitle`: `updateDocument` with only the title patched. */
  function UpdateDocumentTitle(lib: Library, id: string, title: string, now: int): (out: (Library, bool))
    ensures out.1 <==> HasId(lib.documents, id)
    ensures out.1 ==>
              GetDocument(out.0.documents, id) ==
              Some(GetDocument(lib.documents, id).value.(title := title, lastRead := now))
    ensures !out.1 ==> out.0 == lib
    ensures out.0 == lib.(documents := out.0.documents) && |out.0.documents| == |lib.documents|
    ensures out.1 ==> exists k: nat :: IsFirst(lib.documents, id, k) &&
                        out.0.documents[k] == lib.documents[k].(title := title, lastRead := now) &&
                        (forall i :: 0 <= i < |lib.documents| && i != k ==> out.0.documents[i] == lib.documents[i])
    ensures out == UpdateDocument(lib, id, EmptyPatch.(title := Some(title)), now)
  {
    var p := EmptyPatch.(title := Some(title));
    var out := UpdateDocument(lib, id, p, now);
    if out.1 then UpdateThenGet(lib, id, p, now); out else out
  }

  /** After an update that keeps the id, looking the id up yields the merged record. */
  lemma UpdateThenGet(lib: Library, id: string, updates: Patch, now: int)
    requires HasId(lib.documents, id) && updates.id.None?
    ensures GetDocument(UpdateDocument(lib, id, updates, now).0.documents, id) ==
      Some(Merge(GetDocument(lib.documents, id).value, updates, now))
  {
    var docs := lib.documents;
    var k := FindIndex(docs, id).value;
    var docs' := UpdateDocument(lib, id, updates, now).0.documents;
    assert IsFirst(docs', id, k) by {
      assert forall i :: 0 <= i < k ==> docs'[i] == docs[i];
    }
  }

  // ---------------------------------------------------------------------------
  // Deleting documents
  // ---------------------------------------------------------------------------

  /** `filter(document => document.id !== id)`. */
  function RemoveId(docs: seq<DocRecord>, id: string): (r: seq<DocRecord>)
    ensures |r| <= |docs|
    ensures forall d :: d in r <==> d in docs && d.id != id
  {
    if docs == [] then []
    else (if docs[0].id == id then [] else [docs[0]]) + RemoveId(docs[1..], id)
  }

  /** The filter shrinks the list exactly when the id is present. */
  lemma {:induction false} RemoveIdShrinks(docs: seq<DocRecord>, id: string)
    ensures |RemoveId(docs, id)| < |docs| <==> HasId(docs, id)
  {
    if docs != [] {
      RemoveIdShrinks(docs[1..], id);
      assert HasId(docs, id) <==> docs[0].id == id || HasId(docs[1..], id) by {
        if HasId(docs, id) && docs[0].id != id {
          var i :| 0 <= i < |docs| && docs[i].id == id;
          assert docs[1..][i - 1] == docs[i];
        }
        if HasId(docs[1..], id) {
          var i :| 0 <= i < |docs| - 1 && docs[1..][i].id == id;
          assert docs[i + 1] == docs[1..][i];
        }
      }
    }
  }

  /** One record is kept exactly when its id differs; with `RemoveIdAppend`
      this pins the filter down completely. */
  lemma RemoveIdSingle(d: DocRecord, id: string)
    ensures RemoveId([d], id) == if d.id == id then [] else [d]
  {
    assert [d][1..] == [];
  }

  /** The filter distributes over concatenation, so the kept records stay in
      their original order. */
  lemma {:induction false} RemoveIdAppend(a: seq<DocRecord>, b: seq<DocRecord>, id: string)
    ensures RemoveId(a + b, id) == RemoveId(a, id) + RemoveId(b, id)
    decreases |a|
  {
    if a == [] {
      assert a + b == b;
    } else {
      assert (a + b)[1..] == a[1..] + b;
      RemoveIdAppend(a[1..], b, id);
      AppendAssoc(if a[0].id == id then [] else [a[0]], RemoveId(a[1..], id), RemoveId(b, id));
    }
  }

  /** `deleteDocument`: drop every record with the id; report whether the list
      shrank, and forget the active id when that document went away. */
  function DeleteDocument(lib: Library, id: string): (out: (Library, bool))
    ensures out.1 <==> HasId(lib.documents, id)
    ensures !out.1 ==> out.0 == lib
    ensures forall d :: d in out.0.documents <==> d in lib.documents && d.id != id
    ensures out.0.documents == RemoveId(lib.documents, id)
    ensures out.0.activeDocumentId ==
      if out.1 && lib.activeDocumentId == Some(id) then None else lib.activeDocumentId
    ensures out.0 == lib.(documents := out.0.documents, activeDocumentId := out.0.activeDocumentId)
  {
    var kept := RemoveId(lib.documents, id);
    RemoveIdShrinks(lib.documents, id);
    if |kept| < |lib.documents| then
      var active := if lib.activeDocumentId == Some(id) then None else lib.activeDocumentId;
      (lib.(documents := kept, activeDocumentId := active), true)
    else
      assert kept == lib.documents by { RemoveIdAbsent(lib.documents, id); }
      (lib, false)
  }

  lemma {:induction false} RemoveIdAbsent(docs: seq<DocRecord>, id: string)
    requires !HasId(docs, id)
    ensures RemoveId(docs, id) == docs
  {
    if docs != [] {
      assert docs[0].id != id;
      assert !HasId(docs[1..], id) by {
        forall i | 0 <= i < |docs| - 1
          ensures docs[1..][i].id != id
        {
          assert docs[1..][i] == docs[i + 1];
        }
      }
      RemoveIdAbsent(docs[1..], id);
      assert docs == [docs[0]] + docs[1..];
    }
  }

  /** Adding a record under a fresh id and deleting that id restores the list. */
  lemma AddThenDelete(lib: Library, doc: DocRecord, usage: Option<nat>)
    requires !HasId(lib.documents, doc.id)
    requires HasStorageSpace(usage, |doc.textContent|)
    ensures DeleteDocument(AddDocument(lib, doc, usage).0, doc.id).0.documents == lib.documents
  {
    RemoveIdAppend(lib.documents, [doc], doc.id);
    RemoveIdAbsent(lib.documents, doc.id);
    assert RemoveId([doc], doc.id) == [];
  }

  // ---------------------------------------------------------------------------
  // Sorting by recency
  // ---------------------------------------------------------------------------

  predicate SortedByRecent(docs: seq<DocRecord>) {
    forall i, j :: 0 <= i < j < |docs| ==> docs[i].lastRead >= docs[j].lastRead
  }

  /** Put `x` after every record read at least as recently, keeping ties in
      arrival order. */
  function Insert(sorted: seq<DocRecord>, x: DocRecord): (r: seq<DocRecord>)
    requires SortedByRecent(sorted)
    ensures SortedByRecent(r)
    ensures multiset(r) == multiset(sorted) + multiset{x}
    ensures |r| == |sorted| + 1
    ensures r[0] == x || (sorted != [] && r[0] == sorted[0])
  {
    if sorted == [] then [x]
    else if sorted[0].lastRead < x.lastRead then [x] + sorted
    else
      var rest := Insert(sorted[1..], x);
      assert sorted == [sorted[0]] + sorted[1..];
      assert forall j :: 0 <= j < |rest| ==> sorted[0].lastRead >= rest[0].lastRead >= rest[j].lastRead;
      [sorted[0]] + rest
  }

  /** `getLibrarySortedByRecent`: a stable sort of a copy of the list, most
      recently read first. */
  function SortByRecent(docs: seq<DocRecord>): (r: seq<DocRecord>)
    ensures SortedByRecent(r)
    ensures multiset(r) == multiset(docs)
  {
    if docs == [] then []
    else
      assert docs == docs[..|docs| - 1] + [docs[|docs| - 1]];
      Insert(SortByRecent(docs[..|docs| - 1]), docs[|docs| - 1])
  }

  /** `[d]` when `d` was last read at time `t`, else nothing. */
  function ReadAtOne(d: DocRecord, t: int): seq<DocRecord> {
    if d.lastRead == t then [d] else []
  }

  /** The records read at time `t`, in list order. */
  function ReadAt(docs: seq<DocRecord>, t: int): seq<DocRecord> {
    if docs == [] then [] else ReadAt(docs[..|docs| - 1], t) + ReadAtOne(docs[|docs| - 1], t)
  }

  lemma {:induction false} ReadAtCons(x: DocRecord, docs: seq<DocRecord>, t: int)
    ensures ReadAt([x] + docs, t) == ReadAtOne(x, t) + ReadAt(docs, t)
    decreases |docs|
  {
    if docs != [] {
      var init, last := docs[..|docs| - 1], docs[|docs| - 1];
      assert ([x] + docs)[..|docs|] == [x] + init;
      ReadAtCons(x, init, t);
      AppendAssoc(ReadAtOne(x, t), ReadAt(init, t), ReadAtOne(last, t));
    }
  }

  lemma {:induction false} ReadAtNone(docs: seq<DocRecord>, t: int)
    requires forall i :: 0 <= i < |docs| ==> docs[i].lastRead < t
    ensures ReadAt(docs, t) == []
    decreases |docs|
  {
    if docs != [] {
      ReadAtNone(docs[..|docs| - 1], t);
    }
  }

  lemma ReadAtInsertFront(sorted: seq<DocRecord>, x: DocRecord, t: int)
    requires SortedByRecent(sorted) && sorted != [] && sorted[0].lastRead < x.lastRead
    ensures ReadAt([x] + sorted, t) == ReadAt(sorted, t) + ReadAtOne(x, t)
  {
    ReadAtCons(x, sorted, t);
    if x.lastRead == t {
      ReadAtNone(sorted, t);
    }
  }

  lemma ReadAtInsertBehind(head: DocRecord, tail: seq<DocRecord>, rest: seq<DocRecord>, x: DocRecord, t: int)
    requires ReadAt(rest, t) == ReadAt(tail, t) + ReadAtOne(x, t)
    ensures ReadAt([head] + rest, t) == ReadAt([head] + tail, t) + ReadAtOne(x, t)
  {
    ReadAtCons(head, rest, t);
    ReadAtCons(head, tail, t);
    AppendAssoc(ReadAtOne(head, t), ReadAt(tail, t), ReadAtOne(x, t));
  }

  lemma {:induction false} ReadAtInsert(sorted: seq<DocRecord>, x: DocRecord, t: int)
    requires SortedByRecent(sorted)
    ensures ReadAt(Insert(sorted, x), t) == ReadAt(sorted, t) + ReadAtOne(x, t)
  {
    if sorted == [] {
      ReadAtCons(x, [], t);
    } else if sorted[0].lastRead < x.lastRead {
      ReadAtInsertFront(sorted, x, t);
    } else {
      ReadAtInsert(sorted[1..], x, t);
      ReadAtInsertBehind(sorted[0], sorted[1..], Insert(sorted[1..], x), x, t);
      assert sorted == [sorted[0]] + sorted[1..];
    }
  }

  /** The sort is stable: records read at the same time keep their relative order. */
  lemma {:induction false} SortStable(docs: seq<DocRecord>, t: int)
    ensures ReadAt(SortByRecent(docs), t) == ReadAt(docs, t)
  {
    if docs != [] {
      var init, last := docs[..|docs| - 1], docs[|docs| - 1];
      SortStable(init, t);
      ReadAtInsert(SortByRecent(init), last, t);
    }
  }

  // ---------------------------------------------------------------------------
  // Saving the bookmarklet text
  // ---------------------------------------------------------------------------

  /** The position `loadTempText` reports: the stored one, or zero. */
  function TempPosition(lib: Library): Position {
    lib.tempPosition.GetOr(ZeroPosition)
  }

  /** `saveCurrentTempTextToLibrary`: file the unsaved text as a bookmarklet
      document at its temporary position, then clear the temporary text and make
      the new document the active one. */
  function SaveCurrentTempTextToLibrary(lib: Library, title: Option<string>, now: nat, usage: Option<nat>)
    : (out: (Library, Result<string, LibraryError>))
    ensures lib.tempText == [] ==> out == (lib, Failure(NoTempText))
    ensures lib.tempText != [] && !HasStorageSpace(usage, |lib.tempText|) ==> out == (lib, Failure(StorageFull))
    ensures out.1.Success? <==> lib.tempText != [] && HasStorageSpace(usage, |lib.tempText|)
    ensures out.1.Success? ==> out.1.value == DocId(now)
    ensures out.1.Success? ==>
              out.0.documents ==
              lib.documents + [CreateDocument(lib.tempText, BookmarkletSource, title, now).(position := TempPosition(lib))]
    ensures out.1.Success? ==> out.0.activeDocumentId == Some(DocId(now))
    ensures out.1.Success? ==> out.0.tempText == [] && out.0.tempPosition.None? && !out.0.hasUnsavedText
  {
    if lib.tempText == [] then (lib, Failure(NoTempText))
    else
      var doc := CreateDocument(lib.tempText, BookmarkletSource, title, now).(position := TempPosition(lib));
      var added := AddDocument(lib, doc, usage);
      if added.1.Success? then
        var cleared := added.0.(tempText := [], tempPosition := None, hasUnsavedText := false);
        (cleared.(activeDocumentId := Some(doc.id)), added.1)
      else added
  }

  /** The temporary text is filed at most once: a second save finds nothing. */
  lemma SaveTempTextOnce(lib: Library, title: Option<string>, now: nat, later: nat, usage: Option<nat>, usage': Option<nat>)
    requires SaveCurrentTempTextToLibrary(lib, title, now, usage).1.Success?
    ensures var saved := SaveCurrentTempTextToLibrary(lib, title, now, usage).0;
      SaveCurrentTempTextToLibrary(saved, title, later, usage') == (saved, Failure(NoTempText))
  {
  }

  /** After a save, the active id names the new document, provided the clock
      value had not been used for an id before. */
  lemma SavedTextIsActive(lib: Library, title: Option<string>, now: nat, usage: Option<nat>)
    requires !HasId(lib.documents, DocId(now))
    requires SaveCurrentTempTextToLibrary(lib, title, now, usage).1.Success?
    ensures var saved := SaveCurrentTempTextToLibrary(lib, title, now, usage).0;
      GetDocument(saved.documents, saved.activeDocumentId.value) ==
        Some(CreateDocument(lib.tempText, BookmarkletSource, title, now).(position := TempPosition(lib)))
  {
    var doc := CreateDocument(lib.tempText, BookmarkletSource, title, now).(position := TempPosition(lib));
    AddThenGet(lib, doc, usage);
  }
}

=== FILE: reader.dfy ===
/** The playback engine (`ReaderEngine`): reading/paused state, the current
    position in the flat word array, the speed, one pending word timer and
    the one-shot "just jumped" flag. Display and storage calls are returned
    as effects; a timer is its delay, and firing it is an event. */
module Reader {
  import opened Wrappers
  import opened Segmenter
  import opened Flatten
  import opened Scans
  import Strings
  import Clean

  /** A pending `setTimeout` for the next word: the speed it was computed
      from and whether the base delay was doubled. */
  datatype Delay = Delay(wpm: int, doubled: bool)

  /** Milliseconds of a delay: `(60 / wpm) * 1000`, times two when doubled. */
  function DelayMs(d: Delay): real
    requires d.wpm > 0
  {
    var baseDelay := (60.0 / d.wpm as real) * 1000.0;
    if d.doubled then baseDelay * 2.0 else baseDelay
  }

  /** The delay is one minute per word at the given speed, or two. */
  lemma DelayPerMinute(d: Delay)
    requires d.wpm > 0
    ensures DelayMs(d) * d.wpm as real == if d.doubled then 120000.0 else 60000.0
  {
    var w := d.wpm as real;
    assert (60.0 / w) * w == 60.0;
  }

  /** What the engine asks of the page and of storage. */
  datatype Effect =
    | ShowWord(text: string)                          // displayCurrentWord
    | ShowParagraph(paragraph: Paragraph, highlight: nat) // displayParagraph
    | SavePosition(wordIndex: nat, sentenceIndex: nat, paragraphIndex: nat)
    | SaveSettings(wordsPerMinute: int, increment: int)

  datatype Engine = Engine(
    isReading: bool,
    isPaused: bool,
    currentWordIndex: nat,
    wordsPerMinute: int,
    wordsPerMinuteIncrement: int,
    processedText: Option<Document>,
    allWords: seq<FlatWord>,
    readingTimer: Option<Delay>,
    // timers still pending whose handle was overwritten without `clearTimeout`
    orphanTimers: nat,
    justJumpedToSentence: bool)

  /** The current word exists. */
  predicate Loaded(e: Engine) {
    e.currentWordIndex < |e.allWords|
  }

  function CurrentWord(e: Engine): FlatWord
    requires Loaded(e)
  {
    e.allWords[e.currentWordIndex]
  }

  /** The processed text and the flat array agree, except after a failed
      load, which leaves a document with no paragraphs. */
  predicate Coherent(e: Engine) {
    && (e.allWords != [] ==> e.processedText.Some?)
    && (e.processedText.Some? ==>
          e.processedText.value.paragraphs == [] || e.allWords == AllWordsFlat(e.processedText.value.paragraphs))
  }

  /** The invariant every reachable engine keeps: reading and paused are
      opposite, exactly one timer is pending while reading and none while
      paused, the jump flag never outlives the call that set it, speeds are
      in range, and there is a current word whenever there are words. */
  predicate Valid(e: Engine) {
    && e.isReading == !e.isPaused
    && (e.isReading <==> e.readingTimer.Some?)
    && e.orphanTimers == 0
    && !e.justJumpedToSentence
    && e.wordsPerMinute >= 50
    && e.wordsPerMinuteIncrement >= 1
    && (e.readingTimer.Some? ==> e.readingTimer.value.wpm >= 50)
    && (e.allWords == [] ==> !e.isReading && e.currentWordIndex == 0)
    && (e.allWords != [] ==> Loaded(e))
    && Coherent(e)
  }

  /** `initialize`: speeds from the settings, where 0 means "unset" and
      falls back to 200 and 5; paused, with nothing loaded. */
  function Initialize(settingsWpm: int, settingsIncrement: int): (e: Engine)
    ensures e.isPaused && !e.isReading && e.allWords == [] && e.processedText == None
    ensures e.readingTimer == None && e.currentWordIndex == 0
    ensures e.wordsPerMinute == if settingsWpm == 0 then 200 else settingsWpm
    ensures e.wordsPerMinuteIncrement == if settingsIncrement == 0 then 5 else settingsIncrement
    ensures (settingsWpm == 0 || settingsWpm >= 50) && (settingsIncrement == 0 || settingsIncrement >= 1) ==> Valid(e)
  {
    Engine(
      false, true, 0,
      if settingsWpm == 0 then 200 else settingsWpm,
      if settingsIncrement == 0 then 5 else settingsIncrement,
      None, [], None, 0, false)
  }

  /** `saveCurrentPosition`, as the record it stores. */
  function SaveCurrentPosition(e: Engine): Effect
    requires Loaded(e)
  {
    SavePosition(e.currentWordIndex, CurrentWord(e).sentenceIndex, CurrentWord(e).paragraphIndex)
  }

  /** What `displayParagraph` shows: nothing without paragraphs; otherwise
      one paragraph with the current word's `sentenceIndex` highlighted, and
      when the processed text and the word array agree, it is the current
      word's paragraph. */
  predicate ParagraphShown(e: Engine, fx: seq<Effect>)
    requires Loaded(e)
  {
    if e.processedText.None? || e.processedText.value.paragraphs == [] then fx == []
    else
      && |fx| == 1
      && fx[0].ShowParagraph?
      && fx[0].highlight == CurrentWord(e).sentenceIndex
      && (Coherent(e) ==>
            && fx[0].paragraph.paragraphIndex == CurrentWord(e).paragraphIndex
            && fx[0].paragraph.text == CurrentWord(e).paragraphText)
  }

  method DisplayParagraph(e: Engine) returns (fx: seq<Effect>)
    requires Loaded(e)
    ensures ParagraphShown(e, fx)
  {
    if e.processedText.None? {
      return [];
    }
    var ps := e.processedText.value.paragraphs;
    var currentParagraph := FindParagraphByWordIndex(ps, e.currentWordIndex);
    if currentParagraph.None? {
      return [];
    }
    fx := [ShowParagraph(currentParagraph.value, CurrentWord(e).sentenceIndex)];
  }

  /** `loadText`: process the text; with no words, report failure and keep
      everything but the processed text; otherwise install the flat array
      and clamp the start position to the last word. The reading state and
      the pending timer are left as they were. */
  method LoadText(e: Engine, rawText: string, startPosition: nat, refs: string -> string)
    returns (r: Engine, ok: bool, fx: seq<Effect>)
    ensures r.processedText.Some?
    ensures r.processedText.value.originalText == rawText
    ensures r.processedText.value.cleanedText == Clean.CleanText(rawText, refs)
    ensures ok <==> Clean.CleanText(rawText, refs) != []
    ensures !ok ==> r == e.(processedText := r.processedText) && r.processedText.value.paragraphs == [] && fx == []
    ensures ok ==> Installed(e, r, r.processedText.value, startPosition) && fx == [ShowWord(CurrentWord(r).text)]
    ensures Valid(e) ==> Valid(r)
  {
    var doc := ProcessText(rawText, refs);
    r := e.(processedText := Some(doc));
    if doc.totalWords == 0 {
      return r, false, [];
    }
    r := InstallWords(r, doc, startPosition);
    ok := true;
    fx := [ShowWord(CurrentWord(r).text)];
  }

  /** `r` is `e` with the words of `doc` installed and the start position
      clamped to the last of them; nothing else differs. */
  predicate Installed(e: Engine, r: Engine, doc: Document, startPosition: nat) {
    && r.processedText == Some(doc)
    && r.allWords == AllWordsFlat(doc.paragraphs)
    && |r.allWords| == doc.totalWords > 0
    && r.currentWordIndex == Strings.Min(startPosition, |r.allWords| - 1)
    && r == e.(processedText := r.processedText, allWords := r.allWords, currentWordIndex := r.currentWordIndex)
  }

  /** The successful half of `loadText`: the flat array and the clamped
      start position. */
  method InstallWords(e: Engine, doc: Document, startPosition: nat) returns (r: Engine)
    requires doc.totalWords == WordsIn(doc.paragraphs) > 0
    ensures Installed(e, r, doc, startPosition) && Loaded(r)
    ensures Valid(e) && e.processedText == Some(doc) ==> Valid(r)
  {
    var allWords := GetAllWordsFlat(doc);
    r := e.(processedText := Some(doc), allWords := allWords, currentWordIndex := Strings.Min(startPosition, |allWords| - 1));
  }

  /** `scheduleNextWord`: only while reading, arm a timer at the current
      speed, doubled iff the current word has pausing punctuation or a jump
      has just happened; the flag is consumed. The old timer handle is
      overwritten without being cleared. */
  function ScheduleNextWord(e: Engine): (r: Engine)
    requires e.isReading ==> Loaded(e)
    ensures !e.isReading ==> r == e
    ensures e.isReading ==> r.readingTimer.Some? && r.readingTimer.value.wpm == e.wordsPerMinute
    ensures e.isReading ==> (r.readingTimer.value.doubled <==> CurrentWord(e).hasPunctuation || e.justJumpedToSentence)
    ensures e.isReading ==> !r.justJumpedToSentence
    ensures e.isReading ==> r.orphanTimers == e.orphanTimers + (if e.readingTimer.Some? then 1 else 0)
    ensures r.(readingTimer := e.readingTimer, justJumpedToSentence := e.justJumpedToSentence, orphanTimers := e.orphanTimers) == e
  {
    if !e.isReading then e
    else
      var delay := Delay(e.wordsPerMinute, CurrentWord(e).hasPunctuation || e.justJumpedToSentence);
      e.(readingTimer := Some(delay),
         justJumpedToSentence := false,
         orphanTimers := e.orphanTimers + if e.readingTimer.Some? then 1 else 0)
  }

  /** `startReading`: with no words, nothing; otherwise reading, with a
      timer armed for the current word. Starting while already reading
      leaks the previous timer. */
  method Start(e: Engine) returns (r: Engine, fx: seq<Effect>)
    requires e.allWords != [] ==> Loaded(e)
    ensures e.allWords == [] ==> r == e && fx == []
    ensures e.allWords != [] ==> r.isReading && !r.isPaused && r.readingTimer.Some?
    ensures e.allWords != [] ==> r.currentWordIndex == e.currentWordIndex && r.allWords == e.allWords
    ensures e.allWords != [] ==> r.orphanTimers == e.orphanTimers + (if e.readingTimer.Some? then 1 else 0)
    ensures e.allWords != [] ==> r == ScheduleNextWord(e.(isReading := true, isPaused := false))
    ensures fx == []
    ensures Valid(e) && !e.isReading ==> Valid(r)
  {
    if e.allWords == [] {
      return e, [];
    }
    r := e.(isReading := true, isPaused := false);
    r := ScheduleNextWord(r);
    fx := [];
  }

  /** `pauseReading`: paused, no timer pending, paragraph shown and the
      position saved. */
  method Pause(e: Engine) returns (r: Engine, fx: seq<Effect>)
    requires Loaded(e)
    ensures !r.isReading && r.isPaused && r.readingTimer == None
    ensures r == e.(isReading := false, isPaused := true, readingTimer := None)
    ensures |fx| >= 1 && ParagraphShown(e, fx[..|fx| - 1]) && fx[|fx| - 1] == SaveCurrentPosition(e)
    ensures Valid(e) ==> Valid(r)
  {
    r := e.(isReading := false, isPaused := true, readingTimer := None);
    fx := DisplayParagraph(r);
    fx := fx + [SaveCurrentPosition(r)];
  }

  /** `toggleReading`. */
  method Toggle(e: Engine) returns (r: Engine, fx: seq<Effect>)
    requires e.allWords != [] ==> Loaded(e)
    requires e.isReading ==> Loaded(e)
    ensures e.isReading ==> !r.isReading && r.isPaused && r.readingTimer == None
    ensures !e.isReading && e.allWords != [] ==> r.isReading && !r.isPaused && r.readingTimer.Some?
    ensures !e.isReading && e.allWords == [] ==> r == e && fx == []
    ensures e.isReading ==> r == e.(isReading := false, isPaused := true, readingTimer := None)
    ensures e.isReading ==> |fx| >= 1 && ParagraphShown(e, fx[..|fx| - 1]) && fx[|fx| - 1] == SaveCurrentPosition(e)
    ensures !e.isReading && e.allWords != [] ==> r == ScheduleNextWord(e.(isReading := true, isPaused := false)) && fx == []
    ensures r.currentWordIndex == e.currentWordIndex && r.allWords == e.allWords
    ensures Valid(e) ==> Valid(r)
  {
    if e.isReading {
      r, fx := Pause(e);
    } else {
      r, fx := Start(e);
    }
  }

  /** `advanceToNextWord`: before the last word, move on by exactly one,
      show it, re-arm while reading and save every tenth position; on the
      last word, pause in place. */
  method AdvanceToNextWord(e: Engine) returns (r: Engine, fx: seq<Effect>)
    requires Loaded(e)
    ensures Loaded(r) && r.allWords == e.allWords
    ensures e.currentWordIndex < |e.allWords| - 1 ==>
      && r.currentWordIndex == e.currentWordIndex + 1
      && r == ScheduleNextWord(e.(currentWordIndex := r.currentWordIndex))
      && fx == [ShowWord(CurrentWord(r).text)] + (if r.currentWordIndex % 10 == 0 then [SaveCurrentPosition(r)] else [])
      && (e.isReading ==> r.readingTimer.Some? && !r.justJumpedToSentence)
      && (e.isReading ==> (r.readingTimer.value.doubled <==> CurrentWord(r).hasPunctuation || e.justJumpedToSentence))
      && (!e.isReading ==> r == e.(currentWordIndex := r.currentWordIndex))
    ensures e.currentWordIndex == |e.allWords| - 1 ==>
      && r == e.(isReading := false, isPaused := true, readingTimer := None)
      && |fx| >= 1 && ParagraphShown(e, fx[..|fx| - 1]) && fx[|fx| - 1] == SaveCurrentPosition(e)
  {
    if e.currentWordIndex < |e.allWords| - 1 {
      r := e.(currentWordIndex := e.currentWordIndex + 1);
      fx := [ShowWord(CurrentWord(r).text)];
      r := ScheduleNextWord(r);
      if r.currentWordIndex % 10 == 0 {
        fx := fx + [SaveCurrentPosition(r)];
      }
    } else {
      r, fx := Pause(e);
    }
  }

  /** The pending timer fires: it is consumed and the engine advances. While
      words remain, exactly one new timer is pending again; on the last word
      the engine pauses with none. */
  method TimerFires(e: Engine) returns (r: Engine, fx: seq<Effect>)
    requires Loaded(e) && e.readingTimer.Some?
    ensures e.currentWordIndex < |e.allWords| - 1 ==> r.currentWordIndex == e.currentWordIndex + 1
    ensures e.currentWordIndex < |e.allWords| - 1 && e.isReading ==> r.isReading && r.readingTimer.Some? && r.orphanTimers == e.orphanTimers
    ensures e.currentWordIndex == |e.allWords| - 1 ==> r.currentWordIndex == e.currentWordIndex && r.isPaused && r.readingTimer == None
    ensures e.currentWordIndex < |e.allWords| - 1 ==>
      && r == ScheduleNextWord(e.(readingTimer := None, currentWordIndex := e.currentWordIndex + 1))
      && fx == [ShowWord(CurrentWord(r).text)] + (if r.currentWordIndex % 10 == 0 then [SaveCurrentPosition(r)] else [])
    ensures e.currentWordIndex == |e.allWords| - 1 ==>
      && r == e.(isReading := false, isPaused := true, readingTimer := None)
      && |fx| >= 1 && ParagraphShown(e, fx[..|fx| - 1]) && fx[|fx| - 1] == SaveCurrentPosition(e)
    ensures Valid(e) ==> Valid(r)
  {
    r, fx := AdvanceToNextWord(e.(readingTimer := None));
  }

  /** The reading-mode tail of every jump: clear the pending timer, set the
      jump flag and schedule, so no timer is leaked and the landing word
      always gets the doubled delay. Paused, nothing changes. */
  function Rearm(e: Engine): (r: Engine)
    requires Loaded(e)
    ensures e.isReading ==> r.readingTimer == Some(Delay(e.wordsPerMinute, true))
    ensures e.isReading ==> !r.justJumpedToSentence && r.orphanTimers == e.orphanTimers
    ensures !e.isReading ==> r == e
    ensures r.(readingTimer := e.readingTimer, justJumpedToSentence := e.justJumpedToSentence) == e
  {
    if e.isReading then ScheduleNextWord(e.(readingTimer := None, justJumpedToSentence := true)) else e
  }

  /** What every successful jump does after choosing its target `j`: show
      the word, re-arm while reading, show the paragraph while paused, and
      save the position. */
  method LandOn(e: Engine, j: nat) returns (r: Engine, fx: seq<Effect>)
    requires j < |e.allWords|
    ensures r == Rearm(e.(currentWordIndex := j))
    ensures |fx| >= 2 && fx[0] == ShowWord(e.allWords[j].text) && fx[|fx| - 1] == SaveCurrentPosition(r)
    ensures e.isPaused ==> ParagraphShown(r, fx[1..|fx| - 1])
    ensures !e.isPaused ==> |fx| == 2
    ensures Valid(e) ==> Valid(r)
  {
    r := e.(currentWordIndex := j);
    fx := [ShowWord(CurrentWord(r).text)];
    r := Rearm(r);
    if r.isPaused {
      var shown := DisplayParagraph(r);
      fx := fx + shown;
    }
    fx := fx + [SaveCurrentPosition(r)];
  }

  /** `jumpToPreviousSentence`: if the current run starts at 0, nothing at
      all happens (no display, no save, no timer change); otherwise land on
      the start of the run before it, strictly earlier. */
  method JumpToPreviousSentence(e: Engine) returns (r: Engine, fx: seq<Effect>)
    requires Loaded(e)
    ensures RunStart(e.allWords, e.currentWordIndex) == 0 ==> r == e && fx == []
    ensures RunStart(e.allWords, e.currentWordIndex) > 0 ==>
      && r.currentWordIndex == PreviousRunTarget(e.allWords, e.currentWordIndex) < e.currentWordIndex
      && r == Rearm(e.(currentWordIndex := r.currentWordIndex))
      && fx != [] && fx[|fx| - 1] == SaveCurrentPosition(r)
    ensures Valid(e) ==> Valid(r)
  {
    var moved, j := ScanPreviousRun(e.allWords, e.currentWordIndex);
    if !moved {
      return e, [];
    }
    r, fx := LandOn(e, j);
  }

  /** `jumpToSentenceStart`: land on the first word of the run ending at the
      current word; but while reading with at most one word into the run,
      go to the previous sentence instead. Never moves forward. */
  method JumpToSentenceStart(e: Engine) returns (r: Engine, fx: seq<Effect>)
    requires Loaded(e)
    ensures r.currentWordIndex <= e.currentWordIndex
    ensures var s := RunStart(e.allWords, e.currentWordIndex);
      e.isReading && e.currentWordIndex - s <= 1 ==>
        && r.currentWordIndex == PreviousRunTarget(e.allWords, e.currentWordIndex)
        && (s == 0 ==> r == e && fx == [])
        && (s > 0 ==> r == Rearm(e.(currentWordIndex := r.currentWordIndex)) && fx != [] && fx[|fx| - 1] == SaveCurrentPosition(r))
    ensures var s := RunStart(e.allWords, e.currentWordIndex);
      !(e.isReading && e.currentWordIndex - s <= 1) ==>
        && r.currentWordIndex == s
        && r == Rearm(e.(currentWordIndex := s))
        && fx != [] && fx[|fx| - 1] == SaveCurrentPosition(r)
    ensures Valid(e) ==> Valid(r)
  {
    var sentenceStartIndex := ScanRunStart(e.allWords, e.currentWordIndex);
    var wordsIntoSentence := e.currentWordIndex - sentenceStartIndex;
    if e.isReading && wordsIntoSentence <= 1 {
      r, fx := JumpToPreviousSentence(e);
      return;
    }
    r, fx := LandOn(e, sentenceStartIndex);
  }

  /** `skipToNextSentence`: land on the first later word of a different run,
      or one word on (clamped) inside the last run. */
  method SkipToNextSentence(e: Engine) returns (r: Engine, fx: seq<Effect>)
    requires Loaded(e)
    ensures r.currentWordIndex == NextSentenceTarget(e.allWords, e.currentWordIndex)
    ensures e.currentWordIndex <= r.currentWordIndex < |e.allWords|
    ensures r == Rearm(e.(currentWordIndex := r.currentWordIndex))
    ensures fx != [] && fx[|fx| - 1] == SaveCurrentPosition(r)
    ensures Valid(e) ==> Valid(r)
  {
    var nextSentenceIndex := ScanNextSentence(e.allWords, e.currentWordIndex);
    r, fx := LandOn(e, nextSentenceIndex);
  }

  /** `navigateToPreviousSentence`: only while paused; move to the start of
      the previous run if there is one, then always show the word and the
      paragraph and save. */
  method NavigateToPreviousSentence(e: Engine) returns (r: Engine, fx: seq<Effect>)
    requires e.isPaused ==> Loaded(e)
    ensures !e.isPaused ==> r == e && fx == []
    ensures e.isPaused ==> r == e.(currentWordIndex := PreviousRunTarget(e.allWords, e.currentWordIndex))
    ensures e.isPaused ==>
      && |fx| >= 2 && fx[0] == ShowWord(CurrentWord(r).text)
      && ParagraphShown(r, fx[1..|fx| - 1]) && fx[|fx| - 1] == SaveCurrentPosition(r)
    ensures Valid(e) ==> Valid(r)
  {
    if !e.isPaused {
      return e, [];
    }
    var moved, j := ScanPreviousRun(e.allWords, e.currentWordIndex);
    r := e.(currentWordIndex := j);
    var shown := DisplayParagraph(r);
    fx := [ShowWord(CurrentWord(r).text)] + shown + [SaveCurrentPosition(r)];
  }

  /** `navigateToNextSentence`: `skipToNextSentence`, only while paused. */
  method NavigateToNextSentence(e: Engine) returns (r: Engine, fx: seq<Effect>)
    requires e.isPaused ==> Loaded(e)
    ensures !e.isPaused ==> r == e && fx == []
    ensures e.isPaused ==> r == Rearm(e.(currentWordIndex := NextSentenceTarget(e.allWords, e.currentWordIndex)))
    ensures e.isPaused ==> fx != [] && fx[|fx| - 1] == SaveCurrentPosition(r)
    ensures Valid(e) ==> Valid(r)
  {
    if !e.isPaused {
      return e, [];
    }
    r, fx := SkipToNextSentence(e);
  }

  /** `increaseSpeed`: add the increment, with no upper cap. A pending timer
      keeps the delay it was armed with. */
  function IncreaseSpeed(e: Engine): (r: Engine)
    ensures r.wordsPerMinute - e.wordsPerMinute == e.wordsPerMinuteIncrement
    ensures r.(wordsPerMinute := e.wordsPerMinute) == e
    ensures Valid(e) ==> Valid(r) && r.wordsPerMinute > e.wordsPerMinute
  {
    e.(wordsPerMinute := e.wordsPerMinute + e.wordsPerMinuteIncrement)
  }

  /** `decreaseSpeed`: subtract the increment, but never below 50. */
  function DecreaseSpeed(e: Engine): (r: Engine)
    ensures r.wordsPerMinute >= 50
    ensures e.wordsPerMinute - e.wordsPerMinuteIncrement >= 50 ==> r.wordsPerMinute == e.wordsPerMinute - e.wordsPerMinuteIncrement
    ensures e.wordsPerMinute - e.wordsPerMinuteIncrement < 50 ==> r.wordsPerMinute == 50
    ensures r.(wordsPerMinute := e.wordsPerMinute) == e
    ensures Valid(e) ==> Valid(r) && r.wordsPerMinute <= e.wordsPerMinute
  {
    e.(wordsPerMinute := if 50 < e.wordsPerMinute - e.wordsPerMinuteIncrement then e.wordsPerMinute - e.wordsPerMinuteIncrement else 50)
  }

  /** Both speed changes save the settings. */
  function SettingsSaved(e: Engine): Effect {
    SaveSettings(e.wordsPerMinute, e.wordsPerMinuteIncrement)
  }

  /** From a valid speed, slowing down undoes speeding up. */
  lemma DecreaseUndoesIncrease(e: Engine)
    requires e.wordsPerMinute >= 50 && e.wordsPerMinuteIncrement >= 1
    ensures DecreaseSpeed(IncreaseSpeed(e)) == e
  {
  }

  /** Speeding up after slowing down never ends below the start. */
  lemma IncreaseAfterDecrease(e: Engine)
    requires e.wordsPerMinuteIncrement >= 1
    ensures IncreaseSpeed(DecreaseSpeed(e)).wordsPerMinute >= e.wordsPerMinute
    ensures e.wordsPerMinute - e.wordsPerMinuteIncrement >= 50 ==> IncreaseSpeed(DecreaseSpeed(e)) == e
  {
  }
}

=== FILE: scans.dfy ===
/** The index scans behind sentence navigation. They walk the flat word array
    comparing `sentenceIndex`, which restarts at 0 in every paragraph, so a
    "sentence" here is a maximal run of adjacent words with equal
    `sentenceIndex`, and such a run can span a paragraph boundary. */
module Scans {
  import opened Segmenter
  import opened Flatten
  import Strings
  import Clean

  /** `s` is the first index of the maximal run of equal `sentenceIndex`
      that ends at `i`. */
  predicate IsRunStart(ws: seq<FlatWord>, i: nat, s: nat)
    requires i < |ws|
  {
    && s <= i
    && (forall k :: s <= k <= i ==> ws[k].sentenceIndex == ws[i].sentenceIndex)
    && (s == 0 || ws[s - 1].sentenceIndex != ws[i].sentenceIndex)
  }

  /** Start of the run ending at `i`. */
  function RunStart(ws: seq<FlatWord>, i: nat): (s: nat)
    requires i < |ws|
    ensures IsRunStart(ws, i, s)
  {
    if i == 0 || ws[i - 1].sentenceIndex != ws[i].sentenceIndex then i
    else RunStart(ws, i - 1)
  }

  /** The run start is unique. */
  lemma RunStartUnique(ws: seq<FlatWord>, i: nat, s: nat)
    requires i < |ws| && IsRunStart(ws, i, s)
    ensures s == RunStart(ws, i)
  {
  }

  /** The backward loop of `jumpToSentenceStart` (and the first loop of the
      two previous-sentence operations): walk down from `i` while the
      `sentenceIndex` equals that of word `i`. */
  method ScanRunStart(ws: seq<FlatWord>, i: nat) returns (start: nat)
    requires i < |ws|
    ensures start == RunStart(ws, i)
  {
    var si := ws[i].sentenceIndex;
    start := i;
    var index: int := i;
    while index >= 0
      invariant -1 <= index <= i
      invariant start == if index < i then index + 1 else i
      invariant forall k :: index < k <= i ==> ws[k].sentenceIndex == si
    {
      if ws[index].sentenceIndex == si {
        start := index;
      } else {
        break;
      }
      index := index - 1;
    }
    RunStartUnique(ws, i, start);
  }

  /** Where the previous-sentence operations land: the start of the run
      just before the current one, or `i` itself when the current run
      starts at 0. */
  function PreviousRunTarget(ws: seq<FlatWord>, i: nat): (j: nat)
    requires i < |ws|
    ensures j <= i
    ensures RunStart(ws, i) == 0 ==> j == i
    ensures RunStart(ws, i) > 0 ==> j < RunStart(ws, i) && IsRunStart(ws, RunStart(ws, i) - 1, j)
  {
    var s := RunStart(ws, i);
    if s > 0 then RunStart(ws, s - 1) else i
  }

  /** The two loops of `jumpToPreviousSentence` and
      `navigateToPreviousSentence`: find the current run's start, then, if
      it is not 0, walk down over the run before it. */
  method ScanPreviousRun(ws: seq<FlatWord>, i: nat) returns (moved: bool, j: nat)
    requires i < |ws|
    ensures moved <==> RunStart(ws, i) > 0
    ensures j == PreviousRunTarget(ws, i)
  {
    var currentSentenceStart := ScanRunStart(ws, i);
    j := i;
    moved := currentSentenceStart > 0;
    if moved {
      var previousSentenceIndex := ws[currentSentenceStart - 1].sentenceIndex;
      var index: int := currentSentenceStart - 1;
      while index >= 0
        invariant -1 <= index <= currentSentenceStart - 1
        invariant j == if index < currentSentenceStart - 1 then index + 1 else i
        invariant forall k :: index < k <= currentSentenceStart - 1 ==> ws[k].sentenceIndex == previousSentenceIndex
      {
        if ws[index].sentenceIndex == previousSentenceIndex {
          j := index;
        } else {
          break;
        }
        index := index - 1;
      }
      RunStartUnique(ws, currentSentenceStart - 1, j);
    }
  }

  /** The first index at or after `from` whose `sentenceIndex` is not `si`,
      or `|ws|`. */
  function FirstDifferent(ws: seq<FlatWord>, si: nat, from: nat): (d: nat)
    requires from <= |ws|
    ensures from <= d <= |ws|
    ensures forall k :: from <= k < d ==> ws[k].sentenceIndex == si
    ensures d < |ws| ==> ws[d].sentenceIndex != si
    decreases |ws| - from
  {
    if from == |ws| || ws[from].sentenceIndex != si then from
    else FirstDifferent(ws, si, from + 1)
  }

  /** Where `skipToNextSentence` lands: the first later word of a different
      run; when there is none, one word on, clamped to the last word. */
  function NextSentenceTarget(ws: seq<FlatWord>, i: nat): (j: nat)
    requires i < |ws|
    ensures i <= j < |ws|
    ensures (exists k :: i < k < |ws| && ws[k].sentenceIndex != ws[i].sentenceIndex) ==>
      && ws[j].sentenceIndex != ws[i].sentenceIndex
      && forall k :: i < k < j ==> ws[k].sentenceIndex == ws[i].sentenceIndex
    ensures (forall k :: i < k < |ws| ==> ws[k].sentenceIndex == ws[i].sentenceIndex) ==>
      j == Strings.Min(i + 1, |ws| - 1)
  {
    var d := FirstDifferent(ws, ws[i].sentenceIndex, i + 1);
    Strings.Min(if d < |ws| then d else i + 1, |ws| - 1)
  }

  /** The forward loop of `skipToNextSentence` with its final clamp. */
  method ScanNextSentence(ws: seq<FlatWord>, i: nat) returns (j: nat)
    requires i < |ws|
    ensures j == NextSentenceTarget(ws, i)
  {
    var si := ws[i].sentenceIndex;
    var nextSentenceIndex := i + 1;
    var index := i + 1;
    while index < |ws|
      invariant i + 1 <= index <= |ws|
      invariant forall k :: i + 1 <= k < index ==> ws[k].sentenceIndex == si
    {
      if ws[index].sentenceIndex != si {
        nextSentenceIndex := index;
        break;
      }
      index := index + 1;
    }
    FirstDifferentAt(ws, si, i + 1, index);
    j := Strings.Min(nextSentenceIndex, |ws| - 1);
  }

  /** `FirstDifferent` is pinned down by its contract. */
  lemma FirstDifferentAt(ws: seq<FlatWord>, si: nat, from: nat, d: nat)
    requires from <= d <= |ws|
    requires forall k :: from <= k < d ==> ws[k].sentenceIndex == si
    requires d < |ws| ==> ws[d].sentenceIndex != si
    ensures FirstDifferent(ws, si, from) == d
  {
  }

  // ---------------------------------------------------------------------------
  // Runs cross paragraph boundaries
  // ---------------------------------------------------------------------------

  /** Two one-sentence paragraphs, "One." and "Two.". */
  function TwoParagraphs(): seq<Paragraph> {
    [ Paragraph(0, "One.", [Sentence(0, "One.", [Word(0, "One.", true)])]),
      Paragraph(1, "Two.", [Sentence(0, "Two.", [Word(0, "Two.", true)])]) ]
  }

  /** They are what the text "One.", a blank line, "Two." parses to. */
  lemma TwoParagraphsParsed()
    ensures ParseParagraphs("One.\n\nTwo.") == TwoParagraphs()
  {
    var one, two := "One.", "Two.";
    OneTwoFacts();
    BlankLineBetweenWords(one, two);
  }

  lemma OneTwoFacts()
    ensures "One." + "\n\n" + "Two." == "One.\n\nTwo."
    ensures HasPausingPunctuation("One.") && HasPausingPunctuation("Two.")
    ensures Strings.NoWs("One.") && Strings.NoWs("Two.")
  {
    var one, two := "One.", "Two.";
    assert IsPausing(one[3]) && IsPausing(two[3]);
  }

  /** Two words with a blank line between them are two paragraphs of one
      sentence of one word each. */
  lemma BlankLineBetweenWords(a: string, b: string)
    requires a != [] && Strings.NoWs(a) && b != [] && Strings.NoWs(b)
    ensures ParseParagraphs(a + "\n\n" + b) ==
      [ Paragraph(0, a, [Sentence(0, a, [Word(0, a, HasPausingPunctuation(a))])]),
        Paragraph(1, b, [Sentence(0, b, [Word(0, b, HasPausingPunctuation(b))])]) ]
  {
    var text := a + "\n\n" + b;
    SplitBlankLinesAround(a, b);
    assert text != [];
    assert ParseParagraphs(text) == BuildParagraphs([a, b], 0);
    NoWsPiece(a);
    NoWsPiece(b);
    BuildTwo(a, b);
    OneWordParagraph(a, 0);
    OneWordParagraph(b, 1);
  }

  lemma SplitBlankLinesAround(a: string, b: string)
    requires a != [] && Strings.NoWs(a) && b != [] && Strings.NoWs(b)
    ensures SplitBlankLines(a + "\n\n" + b) == [a, b]
  {
    assert Clean.Repeat('\n', 2) == "\n\n";
    assert !Strings.IsWs(a[|a| - 1]) && !Strings.IsWs(b[0]);
    SplitBlankLinesAt(a, 2, b);
    NoWsPiece(a);
    NoWsPiece(b);
    SplitBlankLinesSingle(a);
    SplitBlankLinesSingle(b);
  }

  /** A word is a piece with no blank line and something to read. */
  lemma NoWsPiece(w: string)
    requires w != [] && Strings.NoWs(w)
    ensures Strings.PairFree(w, '\n', '\n') && Strings.Trim(w) == w
  {
    Strings.TrimOfTrimmed(w);
    assert !Strings.IsWs(w[0]);
  }

  /** A piece without white space is a paragraph of one sentence of one word. */
  lemma OneWordParagraph(w: string, index: nat)
    requires w != [] && Strings.NoWs(w)
    ensures MakeParagraph(index, w) == Paragraph(index, w, [Sentence(0, w, [Word(0, w, HasPausingPunctuation(w))])])
  {
    Strings.TrimOfTrimmed(w);
    OneWordSentence(w);
  }

  lemma BuildTwo(a: string, b: string)
    requires Strings.PairFree(a, '\n', '\n') && Strings.Trim(a) != []
    requires Strings.PairFree(b, '\n', '\n') && Strings.Trim(b) != []
    ensures BuildParagraphs([a, b], 0) == [MakeParagraph(0, a), MakeParagraph(1, b)]
  {
    var pieces := [a, b];
    assert pieces[1..] == [b];
    BuildParagraphsOne(b, 1);
  }

  /** Both sentences have local index 0, so in the flat array they form one
      run: from the first word of the second paragraph the run start is word
      0, in the first paragraph, and from word 0 there is no later sentence,
      so skipping moves one word. */
  lemma RunCrossesParagraphs()
    ensures |AllWordsFlat(TwoParagraphs())| == 2
    ensures AllWordsFlat(TwoParagraphs())[0].paragraphIndex == 0
    ensures AllWordsFlat(TwoParagraphs())[1].paragraphIndex == 1
    ensures RunStart(AllWordsFlat(TwoParagraphs()), 1) == 0
    ensures PreviousRunTarget(AllWordsFlat(TwoParagraphs()), 1) == 1
    ensures NextSentenceTarget(AllWordsFlat(TwoParagraphs()), 0) == 1
  {
    var ps := TwoParagraphs();
    FlatParagraphsAt(ps, 2, 0, 0, 0);
    FlatParagraphsAt(ps, 2, 1, 0, 0);
  }
}

=== FILE: segmenter.dfy ===
/** The segmenter proper: cleaned text is split into paragraphs (at blank
    lines), each paragraph into sentences (after runs of `.`, `!`, `?`), each
    sentence into words (at white space); `ProcessText` assembles the document
    and its totals. */
module Segmenter {
  import opened Strings
  import Clean

  datatype Word = Word(wordIndex: nat, text: string, hasPunctuation: bool)

  /** `sentenceIndex` counts from 0 within its paragraph. */
  datatype Sentence = Sentence(sentenceIndex: nat, text: string, words: seq<Word>)

  datatype Paragraph = Paragraph(paragraphIndex: nat, text: string, sentences: seq<Sentence>)

  datatype Document = Document(
    originalText: string,
    cleanedText: string,
    paragraphs: seq<Paragraph>,
    totalWords: nat,
    totalSentences: nat,
    totalParagraphs: nat)

  // ---------------------------------------------------------------------------
  // Words
  // ---------------------------------------------------------------------------

  /** The punctuation that lengthens a word's display: `. , ; : ? !` and the em dash. */
  predicate IsPausing(c: char) {
    c == '.' || c == ',' || c == ';' || c == ':' || c == '?' || c == '!' || c == '\U{2014}'
  }

  /** `hasPausingPunctuation`: the word contains a pausing mark anywhere. */
  function HasPausingPunctuation(w: string): (r: bool)
    ensures r <==> exists i :: 0 <= i < |w| && IsPausing(w[i])
  {
    if w == [] then false
    else if IsPausing(w[0]) then true
    else
      assert forall i :: 1 <= i < |w| ==> w[i] == w[1..][i - 1];
      HasPausingPunctuation(w[1..])
  }

  /** End of the run of non-white-space characters starting at `i`. */
  function TokenEnd(s: string, i: nat): (j: nat)
    requires i <= |s|
    ensures i <= j <= |s|
    ensures forall k :: i <= k < j ==> !IsWs(s[k])
    ensures j < |s| ==> IsWs(s[j])
    decreases |s| - i
  {
    if i == |s| || IsWs(s[i]) then i else TokenEnd(s, i + 1)
  }

  /** `split(/\s+/)` followed by dropping empty tokens: the maximal runs of
      non-white-space characters. */
  function Tokens(s: string): (r: seq<string>)
    ensures forall k :: 0 <= k < |r| ==> r[k] != [] && NoWs(r[k])
    ensures Concat(r) == RemoveWs(s)
    decreases |s|
  {
    if s == [] then []
    else if IsWs(s[0]) then Tokens(s[1..])
    else
      var n := TokenEnd(s, 0);
      var rest := Tokens(s[n..]);
      assert s == s[..n] + s[n..];
      RemoveWsConcat(s[..n], s[n..]);
      RemoveWsOfNoWs(s[..n]);
      assert Concat([s[..n]] + rest) == s[..n] + Concat(rest) by {
        assert ([s[..n]] + rest)[1..] == rest;
      }
      [s[..n]] + rest
  }

  function Texts(ws: seq<Word>): (r: seq<string>)
    ensures |r| == |ws|
  {
    seq(|ws|, k requires 0 <= k < |ws| => ws[k].text)
  }

  predicate WordsWellFormed(ws: seq<Word>) {
    forall k :: 0 <= k < |ws| ==> ws[k].wordIndex == k && ws[k].text != [] && NoWs(ws[k].text)
  }

  /** `parseWords`: one word per token, numbered from 0, flagged when it
      carries pausing punctuation; together the words spell out exactly the
      non-white-space characters of the sentence. */
  function ParseWords(s: string): (r: seq<Word>)
    ensures WordsWellFormed(r)
    ensures forall k :: 0 <= k < |r| ==> r[k].hasPunctuation == HasPausingPunctuation(r[k].text)
    ensures Concat(Texts(r)) == RemoveWs(s)
  {
    if s == [] then []
    else
      var ts := Tokens(s);
      var r := seq(|ts|, k requires 0 <= k < |ts| => Word(k, ts[k], HasPausingPunctuation(ts[k])));
      assert Texts(r) == ts;
      r
  }

  /** Words joined by single spaces. */
  function JoinWords(ts: seq<string>): string {
    if ts == [] then []
    else if |ts| == 1 then ts[0]
    else ts[0] + " " + JoinWords(ts[1..])
  }

  /** Tokenising undoes joining: words that are non-empty and free of white
      space come back unchanged. */
  lemma {:induction false} TokensOfJoined(ts: seq<string>)
    requires forall k :: 0 <= k < |ts| ==> ts[k] != [] && NoWs(ts[k])
    ensures Tokens(JoinWords(ts)) == ts
    decreases |ts|
  {
    if |ts| == 1 {
      TokensOfWord(ts[0], []);
      assert ts[0] + [] == ts[0];
      assert Tokens([]) == [];
    } else if |ts| > 1 {
      TokensOfJoined(ts[1..]);
      TokensOfWord(ts[0], " " + JoinWords(ts[1..]));
      assert Tokens(" " + JoinWords(ts[1..])) == Tokens(JoinWords(ts[1..])) by {
        assert (" " + JoinWords(ts[1..]))[1..] == JoinWords(ts[1..]);
      }
      assert ts[0] + " " + JoinWords(ts[1..]) == ts[0] + (" " + JoinWords(ts[1..]));
      assert [ts[0]] + ts[1..] == ts;
    }
  }

  /** A word followed by white space (or nothing) is the first token. */
  lemma TokensOfWord(w: string, tail: string)
    requires w != [] && NoWs(w)
    requires tail != [] ==> IsWs(tail[0])
    ensures Tokens(w + tail) == [w] + Tokens(tail)
  {
    var s := w + tail;
    TokenEndOfWord(w, tail);
    assert s[..|w|] == w && s[|w|..] == tail;
  }

  lemma TokenEndOfWord(w: string, tail: string)
    requires w != [] && NoWs(w)
    requires tail != [] ==> IsWs(tail[0])
    ensures TokenEnd(w + tail, 0) == |w|
  {
    TokenEndAt(w + tail, 0, |w|);
  }

  lemma {:induction false} TokenEndAt(s: string, i: nat, j: nat)
    requires i <= j <= |s|
    requires forall k :: i <= k < j ==> !IsWs(s[k])
    requires j < |s| ==> IsWs(s[j])
    ensures TokenEnd(s, i) == j
    decreases j - i
  {
    if i < j {
      TokenEndAt(s, i + 1, j);
    }
  }

  // ---------------------------------------------------------------------------
  // Sentences
  // ---------------------------------------------------------------------------

  predicate IsTerminator(c: char) {
    c == '.' || c == '!' || c == '?'
  }

  /** One match of the sentence-end expression: a run of terminators starting
      at `start`, and the white space after it, ending at `end`. */
  datatype Match = Match(start: nat, end: nat)

  predicate MatchesValid(s: string, ms: seq<Match>, pos: nat) {
    && (forall k :: 0 <= k < |ms| ==> pos <= ms[k].start < ms[k].end <= |s| && IsTerminator(s[ms[k].start]))
    && (forall k :: 0 <= k < |ms| - 1 ==> ms[k].end <= ms[k + 1].start)
  }

  /** End of the run of terminators starting at `i`. */
  function TerminatorEnd(s: string, i: nat): (j: nat)
    requires i <= |s|
    ensures i <= j <= |s|
    ensures forall k :: i <= k < j ==> IsTerminator(s[k])
    ensures j < |s| ==> !IsTerminator(s[j])
    decreases |s| - i
  {
    if i == |s| || !IsTerminator(s[i]) then i else TerminatorEnd(s, i + 1)
  }

  /** All matches, left to right from `pos`, of `/[.!?]+(?:\s+|$)/g`: a run of
      terminators counts only when white space or the end of the text follows
      it, and then takes all of that white space with it. */
  function SentenceMatches(s: string, pos: nat): (r: seq<Match>)
    requires pos <= |s|
    ensures MatchesValid(s, r, pos)
    ensures (forall i :: pos <= i < |s| ==> !IsTerminator(s[i])) ==> r == []
    decreases |s| - pos
  {
    if pos == |s| then []
    else if !IsTerminator(s[pos]) then SentenceMatches(s, pos + 1)
    else
      var j := TerminatorEnd(s, pos);
      if j == |s| then [Match(pos, j)]
      else if IsWs(s[j]) then
        var k := SkipWs(s, j);
        [Match(pos, k)] + SentenceMatches(s, k)
      else SentenceMatches(s, j)
  }

  /** `i` begins a maximal run of terminators within `s[pos..]`. */
  predicate RunStartsAt(s: string, pos: nat, i: nat) {
    pos <= i < |s| && IsTerminator(s[i]) && (i == pos || !IsTerminator(s[i - 1]))
  }

  /** The run of terminators starting at `i` is followed by white space or by
      the end of the text. */
  predicate EndsSentence(s: string, i: nat)
    requires i <= |s|
  {
    var j := TerminatorEnd(s, i);
    j == |s| || IsWs(s[j])
  }

  /** `m` is the match of the run starting at `m.start`: a maximal run of
      terminators followed by white space or the end, with that white space. */
  predicate MatchSound(s: string, pos: nat, m: Match) {
    && RunStartsAt(s, pos, m.start)
    && EndsSentence(s, m.start)
    && m.end == SkipWs(s, TerminatorEnd(s, m.start))
  }

  predicate HasMatchAt(ms: seq<Match>, i: nat) {
    exists k :: 0 <= k < |ms| && ms[k].start == i
  }

  /** Every match is a maximal run of terminators followed by white space or
      the end, and it takes all of that white space. */
  lemma {:induction false} SentenceMatchesSound(s: string, pos: nat)
    requires pos <= |s|
    ensures forall k :: 0 <= k < |SentenceMatches(s, pos)| ==> MatchSound(s, pos, SentenceMatches(s, pos)[k])
    decreases |s| - pos
  {
    var ms := SentenceMatches(s, pos);
    if pos < |s| {
      if !IsTerminator(s[pos]) {
        assert ms == SentenceMatches(s, pos + 1);
        SentenceMatchesSound(s, pos + 1);
        assert forall i: nat :: RunStartsAt(s, pos + 1, i) ==> RunStartsAt(s, pos, i);
      } else {
        var j := TerminatorEnd(s, pos);
        if j < |s| && IsWs(s[j]) {
          SentenceMatchesSound(s, SkipWs(s, j));
          SoundAtRun(s, pos, SkipWs(s, j));
        } else if j < |s| {
          assert ms == SentenceMatches(s, j);
          SentenceMatchesSound(s, j);
          assert forall i: nat :: RunStartsAt(s, j, i) ==> RunStartsAt(s, pos, i);
        }
      }
    }
  }

  /** The match cut at a run followed by white space is sound, and so are the
      matches after it when they are sound from where it ends. */
  lemma SoundAtRun(s: string, pos: nat, e: nat)
    requires pos < |s| && IsTerminator(s[pos])
    requires TerminatorEnd(s, pos) < |s| && IsWs(s[TerminatorEnd(s, pos)])
    requires e == SkipWs(s, TerminatorEnd(s, pos))
    requires forall k :: 0 <= k < |SentenceMatches(s, e)| ==> MatchSound(s, e, SentenceMatches(s, e)[k])
    ensures forall k :: 0 <= k < |SentenceMatches(s, pos)| ==> MatchSound(s, pos, SentenceMatches(s, pos)[k])
  {
    var rest := SentenceMatches(s, e);
    var ms := SentenceMatches(s, pos);
    assert IsWs(s[e - 1]);
    assert ms == [Match(pos, e)] + rest;
    forall k | 0 <= k < |ms|
      ensures MatchSound(s, pos, ms[k])
    {
      if k > 0 {
        assert ms[k] == rest[k - 1];
        MatchSoundFrom(s, pos, e, rest[k - 1]);
      } else {
        assert ms[0] == Match(pos, e);
        MatchSoundAt(s, pos);
      }
    }
  }

  /** A maximal run at the start, followed by white space or the end, with
      the white space after it. */
  lemma MatchSoundAt(s: string, pos: nat)
    requires pos < |s| && IsTerminator(s[pos])
    requires EndsSentence(s, pos)
    ensures MatchSound(s, pos, Match(pos, SkipWs(s, TerminatorEnd(s, pos))))
  {
    assert RunStartsAt(s, pos, pos);
  }

  /** A match sound from `e` is sound from any earlier position, when no
      terminator stands just before `e`. */
  lemma MatchSoundFrom(s: string, pos: nat, e: nat, m: Match)
    requires pos < e <= |s| && !IsTerminator(s[e - 1])
    requires MatchSound(s, e, m)
    ensures MatchSound(s, pos, m)
  {
  }

  /** Every maximal run of terminators followed by white space or the end of
      the text starts a match: the matcher misses no sentence end. */
  lemma {:induction false} SentenceMatchesComplete(s: string, pos: nat)
    requires pos <= |s|
    ensures forall i: nat :: RunStartsAt(s, pos, i) && EndsSentence(s, i) ==> HasMatchAt(SentenceMatches(s, pos), i)
    decreases |s| - pos
  {
    var ms := SentenceMatches(s, pos);
    if pos < |s| {
      if !IsTerminator(s[pos]) {
        assert ms == SentenceMatches(s, pos + 1);
        SentenceMatchesComplete(s, pos + 1);
        forall i: nat | RunStartsAt(s, pos, i) && EndsSentence(s, i)
          ensures HasMatchAt(ms, i)
        {
          assert RunStartsAt(s, pos + 1, i);
        }
      } else {
        var j := TerminatorEnd(s, pos);
        RunInterior(s, pos);
        if j == |s| {
          assert ms == [Match(pos, j)];
          assert ms[0].start == pos;
        } else if IsWs(s[j]) {
          var e := SkipWs(s, j);
          var rest := SentenceMatches(s, e);
          SentenceMatchesComplete(s, e);
          assert ms == [Match(pos, e)] + rest;
          forall i: nat | j <= i < e
            ensures !RunStartsAt(s, pos, i)
          {
            assert IsWs(s[i]);
          }
          forall i: nat | RunStartsAt(s, pos, i) && EndsSentence(s, i)
            ensures HasMatchAt(ms, i)
          {
            if i == pos {
              assert ms[0].start == i;
            } else {
              assert RunStartsAt(s, e, i);
              var k :| 0 <= k < |rest| && rest[k].start == i;
              assert ms[k + 1] == rest[k];
            }
          }
        } else {
          assert ms == SentenceMatches(s, j);
          SentenceMatchesComplete(s, j);
          assert forall i: nat :: RunStartsAt(s, pos, i) && i != pos ==> RunStartsAt(s, j, i);
        }
      }
    }
  }

  /** No maximal run starts strictly inside the run at `pos`, nor right after it. */
  lemma RunInterior(s: string, pos: nat)
    requires pos <= |s|
    ensures forall i: nat :: pos < i <= TerminatorEnd(s, pos) ==> !RunStartsAt(s, pos, i)
  {
    var j := TerminatorEnd(s, pos);
    forall i: nat | pos < i <= j
      ensures !RunStartsAt(s, pos, i)
    {
      if i < j {
        assert IsTerminator(s[i - 1]);
      }
    }
  }

  /** No terminator before `hi` (from `lo`) is followed by white space or the
      end of the text. */
  predicate NoSentenceEnd(s: string, lo: nat, hi: nat)
    requires hi <= |s|
  {
    forall p :: lo <= p < hi ==> !(IsTerminator(s[p]) && (p + 1 == |s| || IsWs(s[p + 1])))
  }

  /** What the matcher skips before its first match holds no sentence end; the
      rest of the matches are the matches from that match's end. */
  predicate FirstMatchShape(s: string, pos: nat, ms: seq<Match>)
    requires pos <= |s|
  {
    if ms == [] then NoSentenceEnd(s, pos, |s|)
    else
      && pos <= ms[0].start < |s|
      && ms[0].start < TerminatorEnd(s, ms[0].start)
      && NoSentenceEnd(s, pos, ms[0].start)
      && EndsSentence(s, ms[0].start)
      && ms[0].end == SkipWs(s, TerminatorEnd(s, ms[0].start))
      && ms[1..] == SentenceMatches(s, ms[0].end)
  }

  lemma {:induction false} FirstMatch(s: string, pos: nat)
    requires pos <= |s|
    ensures FirstMatchShape(s, pos, SentenceMatches(s, pos))
    decreases |s| - pos
  {
    if pos < |s| {
      if !IsTerminator(s[pos]) {
        FirstMatch(s, pos + 1);
        FirstMatchPast(s, pos, pos + 1);
      } else {
        var j := TerminatorEnd(s, pos);
        if j < |s| && !IsWs(s[j]) {
          FirstMatch(s, j);
          SkippedRun(s, pos, j);
          FirstMatchPast(s, pos, j);
        } else {
          FirstMatchHere(s, pos);
        }
      }
    }
  }

  /** The matcher passes over `s[pos..q]` without a match. */
  lemma FirstMatchPast(s: string, pos: nat, q: nat)
    requires pos < q <= |s|
    requires SentenceMatches(s, pos) == SentenceMatches(s, q)
    requires NoSentenceEnd(s, pos, q)
    requires FirstMatchShape(s, q, SentenceMatches(s, q))
    ensures FirstMatchShape(s, pos, SentenceMatches(s, pos))
  {
    var ms := SentenceMatches(s, q);
    if ms == [] {
      NoSentenceEndJoin(s, pos, q, |s|);
    } else {
      NoSentenceEndJoin(s, pos, q, ms[0].start);
    }
    assert FirstMatchShape(s, pos, ms);
  }

  lemma NoSentenceEndJoin(s: string, lo: nat, mid: nat, hi: nat)
    requires lo <= mid <= hi <= |s|
    requires NoSentenceEnd(s, lo, mid) && NoSentenceEnd(s, mid, hi)
    ensures NoSentenceEnd(s, lo, hi)
  {
  }

  /** A run of terminators at `pos` followed by white space or the end. */
  lemma FirstMatchHere(s: string, pos: nat)
    requires pos < |s| && IsTerminator(s[pos])
    requires TerminatorEnd(s, pos) == |s| || IsWs(s[TerminatorEnd(s, pos)])
    ensures FirstMatchShape(s, pos, SentenceMatches(s, pos))
  {
    var j := TerminatorEnd(s, pos);
    var e := SkipWs(s, j);
    var ms := SentenceMatches(s, pos);
    if j < |s| {
      assert ms == [Match(pos, e)] + SentenceMatches(s, e);
    } else {
      assert ms == [Match(pos, j)];
      assert SentenceMatches(s, e) == [];
    }
    assert ms[0].start == pos;
  }

  /** A run of terminators followed by another character holds no sentence end. */
  lemma SkippedRun(s: string, pos: nat, j: nat)
    requires pos <= |s| && j == TerminatorEnd(s, pos)
    requires j < |s| && !IsWs(s[j])
    ensures NoSentenceEnd(s, pos, j)
  {
    forall p | pos <= p < j
      ensures !(IsTerminator(s[p]) && (p + 1 == |s| || IsWs(s[p + 1])))
    {
      if p + 1 < j {
        assert IsTerminator(s[p + 1]);
      }
    }
  }

  function MakeSentence(index: nat, text: string): Sentence {
    Sentence(index, text, ParseWords(text))
  }

  /** A non-empty trimmed sentence with at least one word, its words being
      those of its text. */
  predicate SentenceWellFormed(st: Sentence) {
    st.text != [] && IsTrimmed(st.text) && st.words != [] && st.words == ParseWords(st.text)
  }

  predicate SentencesIndexed(ss: seq<Sentence>) {
    forall k :: 0 <= k < |ss| ==> ss[k].sentenceIndex == k
  }

  predicate SentencesWellFormed(ss: seq<Sentence>) {
    forall k :: 0 <= k < |ss| ==> SentenceWellFormed(ss[k])
  }

  /** The non-white-space characters the sentences' words spell out, in order. */
  function Letters(ss: seq<Sentence>): string {
    if ss == [] then [] else Concat(Texts(ss[0].words)) + Letters(ss[1..])
  }

  lemma {:induction false} LettersAppend(a: seq<Sentence>, b: seq<Sentence>)
    ensures Letters(a + b) == Letters(a) + Letters(b)
    decreases |a|
  {
    if a != [] {
      assert (a + b)[1..] == a[1..] + b;
      LettersAppend(a[1..], b);
    } else {
      assert a + b == b;
    }
  }

  lemma TrimmedHasLetters(t: string)
    requires t != [] && IsTrimmed(t)
    ensures RemoveWs(t) != []
  {
    RemoveWsEmpty(t);
  }

  lemma MakeSentenceWellFormed(index: nat, t: string)
    requires t != [] && IsTrimmed(t)
    ensures SentenceWellFormed(MakeSentence(index, t))
  {
    TrimmedHasLetters(t);
    assert Concat(Texts(MakeSentence(index, t).words)) != [];
  }

  lemma SentenceLetters(index: nat, t: string)
    ensures Letters([MakeSentence(index, t)]) == RemoveWs(t)
  {
    assert [MakeSentence(index, t)][1..] == [];
  }

  /** The text from any point up to the end of a later match holds the match's
      terminator, so it never trims to nothing. */
  lemma MatchSegmentHasText(text: string, ms: seq<Match>, matchIndex: nat, cur: nat)
    requires MatchesValid(text, ms, 0)
    requires matchIndex < |ms| && cur <= ms[matchIndex].start
    ensures cur < ms[matchIndex].end <= |text|
    ensures Trim(text[cur..ms[matchIndex].end]) != []
  {
    var m := ms[matchIndex];
    var segment := text[cur..m.end];
    assert segment[m.start - cur] == text[m.start];
    assert !AllWs(segment);
  }

  lemma AppendSentence(acc: seq<Sentence>, st: Sentence)
    requires SentencesIndexed(acc) && SentencesWellFormed(acc)
    requires st.sentenceIndex == |acc| && SentenceWellFormed(st)
    ensures SentencesIndexed(acc + [st]) && SentencesWellFormed(acc + [st])
  {
  }

  /** The `forEach` over the matches: the text from the previous match end to
      this match end, trimmed, is sentence number `matchIndex`; what follows
      the last match, trimmed, is one more sentence when it is not empty. */
  function CollectSentences(text: string, ms: seq<Match>, matchIndex: nat, cur: nat, acc: seq<Sentence>): (r: seq<Sentence>)
    requires MatchesValid(text, ms, 0)
    requires matchIndex <= |ms| && cur <= |text|
    requires matchIndex < |ms| ==> cur <= ms[matchIndex].start
    ensures acc <= r && (matchIndex < |ms| ==> |r| > |acc|)
    decreases |ms| - matchIndex
  {
    if matchIndex == |ms| then
      if cur < |text| && Trim(text[cur..]) != [] then acc + [MakeSentence(|acc|, Trim(text[cur..]))]
      else acc
    else
      var end := ms[matchIndex].end;
      CollectSentences(text, ms, matchIndex + 1, end, acc + [MakeSentence(matchIndex, Trim(text[cur..end]))])
  }

  /** Sentences are numbered consecutively, and every one of them is
      non-empty, trimmed and has at least one word. */
  lemma {:induction false} CollectSentencesWellFormed(text: string, ms: seq<Match>, matchIndex: nat, cur: nat, acc: seq<Sentence>)
    requires MatchesValid(text, ms, 0)
    requires matchIndex <= |ms| && cur <= |text|
    requires matchIndex < |ms| ==> cur <= ms[matchIndex].start
    requires |acc| == matchIndex && SentencesIndexed(acc) && SentencesWellFormed(acc)
    ensures SentencesIndexed(CollectSentences(text, ms, matchIndex, cur, acc))
    ensures SentencesWellFormed(CollectSentences(text, ms, matchIndex, cur, acc))
    decreases |ms| - matchIndex
  {
    if matchIndex == |ms| {
      if cur < |text| && Trim(text[cur..]) != [] {
        MakeSentenceWellFormed(|acc|, Trim(text[cur..]));
        AppendSentence(acc, MakeSentence(|acc|, Trim(text[cur..])));
      }
    } else {
      var end := ms[matchIndex].end;
      MatchSegmentHasText(text, ms, matchIndex, cur);
      var st := MakeSentence(matchIndex, Trim(text[cur..end]));
      MakeSentenceWellFormed(matchIndex, Trim(text[cur..end]));
      AppendSentence(acc, st);
      assert matchIndex + 1 < |ms| ==> end <= ms[matchIndex + 1].start;
      CollectSentencesWellFormed(text, ms, matchIndex + 1, end, acc + [st]);
      assert CollectSentences(text, ms, matchIndex, cur, acc) == CollectSentences(text, ms, matchIndex + 1, end, acc + [st]);
    }
  }

  /** Every non-white-space character from `cur` on lands, in order, in
      exactly one of the collected sentences' words. */
  lemma {:induction false} CollectSentencesLetters(text: string, ms: seq<Match>, matchIndex: nat, cur: nat, acc: seq<Sentence>)
    requires MatchesValid(text, ms, 0)
    requires matchIndex <= |ms| && cur <= |text|
    requires matchIndex < |ms| ==> cur <= ms[matchIndex].start
    ensures Letters(CollectSentences(text, ms, matchIndex, cur, acc)) == Letters(acc) + RemoveWs(text[cur..])
    decreases |ms| - matchIndex
  {
    if matchIndex == |ms| {
      LastSentenceLetters(text, cur, acc);
    } else {
      var end := ms[matchIndex].end;
      var st := MakeSentence(matchIndex, Trim(text[cur..end]));
      CollectSentencesLetters(text, ms, matchIndex + 1, end, acc + [st]);
      NextSentenceLetters(text, cur, end, acc, matchIndex);
    }
  }

  lemma LastSentenceLetters(text: string, cur: nat, acc: seq<Sentence>)
    requires cur <= |text|
    ensures var t := Trim(text[cur..]);
      Letters(if cur < |text| && t != [] then acc + [MakeSentence(|acc|, t)] else acc)
      == Letters(acc) + RemoveWs(text[cur..])
  {
    var t := Trim(text[cur..]);
    RemoveWsTrim(text[cur..]);
    if cur < |text| && t != [] {
      LettersAppend(acc, [MakeSentence(|acc|, t)]);
      SentenceLetters(|acc|, t);
    } else {
      RemoveWsEmpty(t);
      assert Letters(acc) + [] == Letters(acc);
    }
  }

  lemma NextSentenceLetters(text: string, cur: nat, end: nat, acc: seq<Sentence>, index: nat)
    requires cur <= end <= |text|
    ensures var st := MakeSentence(index, Trim(text[cur..end]));
       Letters(acc + [st]) + RemoveWs(text[end..]) == Letters(acc) + RemoveWs(text[cur..])
  {
    var st := MakeSentence(index, Trim(text[cur..end]));
    var x, y, z := Letters(acc), RemoveWs(text[cur..end]), RemoveWs(text[end..]);
    calc {
      Letters(acc + [st]) + z;
      { LettersAppend(acc, [st]); }
      (x + Letters([st])) + z;
      { SentenceLetters(index, Trim(text[cur..end]));
        RemoveWsTrim(text[cur..end]); }
      (x + y) + z;
      x + (y + z);
      { RemoveWsSplit(text, cur, end); }
      x + RemoveWs(text[cur..]);
    }
  }

  lemma RemoveWsSplit(s: string, lo: nat, mid: nat)
    requires lo <= mid <= |s|
    ensures RemoveWs(s[lo..]) == RemoveWs(s[lo..mid]) + RemoveWs(s[mid..])
  {
    assert s[lo..] == s[lo..mid] + s[mid..];
    RemoveWsConcat(s[lo..mid], s[mid..]);
  }

  lemma WholeTextSentence(text: string)
    ensures !AllWs(text) ==> SentenceWellFormed(MakeSentence(0, Trim(text)))
    ensures IsTrimmed(text) ==> Trim(text) == text
  {
    if !AllWs(text) {
      MakeSentenceWellFormed(0, Trim(text));
    }
    if IsTrimmed(text) {
      TrimOfTrimmed(text);
    }
  }

  /** `parseSentences`: the sentences of one paragraph, numbered from 0; a
      paragraph without a terminator is one sentence. */
  function ParseSentences(text: string): (r: seq<Sentence>)
    ensures SentencesIndexed(r)
    ensures !AllWs(text) ==> |r| >= 1 && SentencesWellFormed(r)
    ensures text != [] && IsTrimmed(text) && (forall i :: 0 <= i < |text| ==> !IsTerminator(text[i]))
      ==> |r| == 1 && r[0].text == text
  {
    if text == [] then []
    else
      var ms := SentenceMatches(text, 0);
      if ms == [] then
        WholeTextSentence(text);
        [MakeSentence(0, Trim(text))]
      else
        CollectSentencesWellFormed(text, ms, 0, 0, []);
        CollectSentences(text, ms, 0, 0, [])
  }

  /** A text without white space is one sentence of one word. */
  lemma OneWordSentence(t: string)
    requires t != [] && NoWs(t)
    ensures ParseSentences(t) == [Sentence(0, t, [Word(0, t, HasPausingPunctuation(t))])]
  {
    OneWordWords(t);
    TrimOfTrimmed(t);
    var ms := SentenceMatches(t, 0);
    FirstMatch(t, 0);
    if ms != [] {
      var m := ms[0];
      var j := TerminatorEnd(t, m.start);
      assert j == |t|;
      assert m.end == |t|;
      assert ms[1..] == [];
      assert t[0..|t|] == t;
      var st := MakeSentence(0, t);
      assert CollectSentences(t, ms, 0, 0, []) == CollectSentences(t, ms, 1, |t|, [st]);
    }
  }

  lemma OneWordWords(t: string)
    requires t != [] && NoWs(t)
    ensures ParseWords(t) == [Word(0, t, HasPausingPunctuation(t))]
  {
    var ts := [t];
    TokensOfJoined(ts);
    assert JoinWords(ts) == t;
  }

  /** No non-white-space character of a paragraph is lost or repeated. */
  lemma ParseSentencesLetters(text: string)
    ensures Letters(ParseSentences(text)) == RemoveWs(text)
  {
    if text != [] {
      var ms := SentenceMatches(text, 0);
      if ms == [] {
        SentenceLetters(0, Trim(text));
        RemoveWsTrim(text);
      } else {
        assert text[0..] == text;
        CollectSentencesLetters(text, ms, 0, 0, []);
      }
    }
  }

  // ---------------------------------------------------------------------------
  // Where a paragraph is split into sentences
  // ---------------------------------------------------------------------------

  function SentenceTexts(ss: seq<Sentence>): (r: seq<string>)
    ensures |r| == |ss|
  {
    seq(|ss|, k requires 0 <= k < |ss| => ss[k].text)
  }

  /** `s[pos..]` is the texts `ts` in order, with white space before, between
      and after them, and at least one white-space character between any two. */
  predicate GapSeparatedFrom(s: string, pos: nat, ts: seq<string>)
    requires pos <= |s|
    decreases |ts|
  {
    if ts == [] then forall p :: pos <= p < |s| ==> IsWs(s[p])
    else
      var a := SkipWs(s, pos);
      var b := a + |ts[0]|;
      && b <= |s|
      && s[a..b] == ts[0]
      && (|ts| > 1 ==> b < |s| && IsWs(s[b]))
      && GapSeparatedFrom(s, b, ts[1..])
  }

  /** No terminator inside `t` stands directly before white space. */
  predicate NoStopBeforeWs(t: string) {
    forall p :: 0 <= p < |t| - 1 ==> !(IsTerminator(t[p]) && IsWs(t[p + 1]))
  }

  predicate EndsInTerminator(t: string) {
    t != [] && IsTerminator(t[|t| - 1])
  }

  /** The sentences `ss` split `text[cur..]` as `parseSentences` does: their
      texts separated by white space, none with a terminator directly before
      white space, and all but the last ending in a terminator. */
  predicate SentencesShape(text: string, cur: nat, ss: seq<Sentence>)
    requires cur <= |text|
  {
    && GapSeparatedFrom(text, cur, SentenceTexts(ss))
    && (forall k :: 0 <= k < |ss| ==> NoStopBeforeWs(ss[k].text))
    && (forall k :: 0 <= k < |ss| - 1 ==> EndsInTerminator(ss[k].text))
  }

  /** Where `parseSentences` cuts: the paragraph is its sentences' texts
      separated by white space; every sentence but the last ends in `.`, `!`
      or `?`; and no sentence holds a terminator directly followed by white
      space. So the cuts are exactly after the terminator runs that white
      space follows. */
  lemma ParseSentencesSplit(text: string)
    ensures GapSeparatedFrom(text, 0, SentenceTexts(ParseSentences(text)))
    ensures forall k :: 0 <= k < |ParseSentences(text)| ==> NoStopBeforeWs(ParseSentences(text)[k].text)
    ensures forall k :: 0 <= k < |ParseSentences(text)| - 1 ==> EndsInTerminator(ParseSentences(text)[k].text)
  {
    ParseSentencesShape(text);
  }

  lemma ParseSentencesShape(text: string)
    ensures SentencesShape(text, 0, ParseSentences(text))
  {
    var r := ParseSentences(text);
    if text == [] {
      assert SentenceTexts(r) == [];
    } else {
      var ms := SentenceMatches(text, 0);
      FirstMatch(text, 0);
      assert text[0..] == text;
      if ms == [] {
        RestShape(text, 0, 0);
      } else {
        var none: seq<Sentence> := [];
        CollectSentencesShape(text, ms, 0, 0, none);
        assert ms[0..] == ms && r[|none|..] == r;
      }
    }
  }

  /** Skipping white space before the first text changes nothing. */
  lemma GapSeparatedSkip(s: string, j: nat, e: nat, ts: seq<string>)
    requires j <= e <= |s|
    requires forall p :: j <= p < e ==> IsWs(s[p])
    requires GapSeparatedFrom(s, e, ts)
    ensures GapSeparatedFrom(s, j, ts)
  {
    if ts != [] {
      SkipWsAt(s, j, SkipWs(s, e));
    }
  }

  /** No terminator in `text[a..b]` stands directly before white space. */
  predicate NoStopBeforeWsIn(text: string, a: nat, b: nat) {
    forall p :: a <= p && p + 1 < b <= |text| ==> !(IsTerminator(text[p]) && IsWs(text[p + 1]))
  }

  lemma SliceNoStop(text: string, a: nat, b: nat)
    requires a <= b <= |text| && NoStopBeforeWsIn(text, a, b)
    ensures NoStopBeforeWs(text[a..b])
  {
    var t := text[a..b];
    forall p | 0 <= p < |t| - 1
      ensures !(IsTerminator(t[p]) && IsWs(t[p + 1]))
    {
      assert t[p] == text[a + p] && t[p + 1] == text[a + p + 1];
    }
  }

  /** What is left after the last match, when it holds no sentence end, is one
      more (possibly empty) sentence surrounded by white space. */
  lemma RestShape(text: string, cur: nat, index: nat)
    requires cur <= |text| && NoSentenceEnd(text, cur, |text|)
    ensures SentencesShape(text, cur, [MakeSentence(index, Trim(text[cur..]))])
    ensures Trim(text[cur..]) == [] ==> SentencesShape(text, cur, [])
  {
    var t := Trim(text[cur..]);
    RestText(text, cur);
    var ss := [MakeSentence(index, t)];
    assert SentenceTexts(ss) == [t];
    assert SentenceTexts(ss)[1..] == [];
  }

  /** The trimmed rest sits between white space and holds no terminator
      directly before white space. */
  lemma RestText(text: string, cur: nat)
    requires cur <= |text| && NoSentenceEnd(text, cur, |text|)
    ensures GapSeparatedFrom(text, cur, [Trim(text[cur..])])
    ensures NoStopBeforeWs(Trim(text[cur..]))
    ensures Trim(text[cur..]) == [] ==> GapSeparatedFrom(text, cur, [])
  {
    var a, b := TrimmedTail(text, cur);
    GapSingle(text, cur, Trim(text[cur..]), b);
    NoStopInRest(text, cur, a, b);
    SliceNoStop(text, a, b);
  }

  /** One text, then only white space. */
  lemma GapSingle(s: string, pos: nat, t: string, b: nat)
    requires pos <= |s| && SkipWs(s, pos) <= b <= |s|
    requires b == SkipWs(s, pos) + |t| && s[SkipWs(s, pos)..b] == t
    requires forall p :: b <= p < |s| ==> IsWs(s[p])
    ensures GapSeparatedFrom(s, pos, [t])
    ensures t == [] ==> GapSeparatedFrom(s, pos, [])
  {
    var ts := [t];
    assert ts[1..] == [];
    assert GapSeparatedFrom(s, b, ts[1..]);
  }

  lemma NoStopInRest(text: string, cur: nat, a: nat, b: nat)
    requires cur <= a <= b <= |text| && NoSentenceEnd(text, cur, |text|)
    ensures NoStopBeforeWsIn(text, a, b)
  {
    forall p | a <= p && p + 1 < b
      ensures !(IsTerminator(text[p]) && IsWs(text[p + 1]))
    {
      assert cur <= p < |text|;
    }
  }

  /** Trimming `text[cur..]` in place: the trimmed text starts where white
      space skipping from `cur` stops, and only white space follows it. */
  lemma TrimmedTail(text: string, cur: nat) returns (a: nat, b: nat)
    requires cur <= |text|
    ensures cur <= a == SkipWs(text, cur) && a <= b <= |text|
    ensures text[a..b] == Trim(text[cur..])
    ensures forall p :: b <= p < |text| ==> IsWs(text[p])
  {
    var seg := text[cur..];
    var lo, hi := TrimLo(seg), TrimHi(seg);
    var t := Trim(seg);
    a, b := cur + lo, cur + hi;
    TrimParts(seg);
    assert t == seg[lo..hi];
    forall p | cur <= p < a
      ensures IsWs(text[p])
    {
      assert text[p] == seg[..lo][p - cur];
    }
    if t == [] {
      assert lo == hi;
      assert AllWs(seg) && lo == |seg|;
    } else {
      assert text[a] == seg[lo] == t[0];
    }
    SkipWsAt(text, cur, a);
    assert text[a..b] == seg[lo..hi];
    forall p | b <= p < |text|
      ensures IsWs(text[p])
    {
      assert text[p] == seg[hi..][p - b];
    }
  }

  /** The sentence cut at a match is the text from the first non-white-space
      character up to the end of the match's terminator run. */
  lemma MatchSentenceTrim(text: string, cur: nat, start: nat, j: nat, end: nat)
    requires cur <= start < j <= end <= |text|
    requires IsTerminator(text[start]) && IsTerminator(text[j - 1])
    requires forall p :: j <= p < end ==> IsWs(text[p])
    ensures SkipWs(text, cur) <= start
    ensures Trim(text[cur..end]) == text[SkipWs(text, cur)..j]
  {
    var a := SkipWs(text, cur);
    assert !IsWs(text[start]);
    assert a <= start;
    var x, t, z := text[cur..a], text[a..j], text[j..end];
    assert AllWs(x) by {
      forall k | 0 <= k < |x|
        ensures IsWs(x[k])
      {
        assert x[k] == text[cur + k];
      }
    }
    assert AllWs(z) by {
      forall k | 0 <= k < |z|
        ensures IsWs(z[k])
      {
        assert z[k] == text[j + k];
      }
    }
    assert IsTrimmed(t) by {
      assert t[0] == text[a] && t[|t| - 1] == text[j - 1];
    }
    SliceSplit3(text, cur, a, j, end);
    TrimUnique(x, t, z);
  }

  lemma SliceSplit3<T>(s: seq<T>, i: nat, j: nat, k: nat, l: nat)
    requires i <= j <= k <= l <= |s|
    ensures s[i..l] == s[i..j] + s[j..k] + s[k..l]
  {
  }

  /** That sentence ends in a terminator and has none directly before white
      space. */
  lemma MatchSentenceStops(text: string, cur: nat, a: nat, start: nat, j: nat)
    requires cur <= a <= start < j <= |text|
    requires NoSentenceEnd(text, cur, start)
    requires forall p :: start <= p < j ==> IsTerminator(text[p])
    ensures NoStopBeforeWs(text[a..j]) && EndsInTerminator(text[a..j])
  {
    forall p | a <= p && p + 1 < j
      ensures !(IsTerminator(text[p]) && IsWs(text[p + 1]))
    {
      if p >= start {
        assert IsTerminator(text[p + 1]);
      }
    }
    SliceNoStop(text, a, j);
    assert text[a..j][j - a - 1] == text[j - 1];
  }

  /** A sentence cut at a match, followed by the sentences after the match. */
  lemma ShapeCons(text: string, cur: nat, ss: seq<Sentence>, j: nat, e: nat)
    requires cur <= j <= e <= |text| && SkipWs(text, cur) <= j
    requires ss != [] && ss[0].text == text[SkipWs(text, cur)..j]
    requires NoStopBeforeWs(ss[0].text) && EndsInTerminator(ss[0].text)
    requires forall p :: j <= p < e ==> IsWs(text[p])
    requires |ss| > 1 ==> j < |text| && IsWs(text[j])
    requires SentencesShape(text, e, ss[1..])
    ensures SentencesShape(text, cur, ss)
  {
    var rest := ss[1..];
    GapSeparatedSkip(text, j, e, SentenceTexts(rest));
    assert SentenceTexts(ss)[0] == ss[0].text;
    assert SentenceTexts(ss)[1..] == SentenceTexts(rest);
    forall k | 0 <= k < |ss|
      ensures NoStopBeforeWs(ss[k].text)
      ensures k < |ss| - 1 ==> EndsInTerminator(ss[k].text)
    {
      if k > 0 {
        assert ss[k] == rest[k - 1];
      }
    }
  }

  /** The sentences collected from match `matchIndex` on, when the remaining
      matches are the matcher's matches from `cur`. */
  lemma {:induction false} CollectSentencesShape(text: string, ms: seq<Match>, matchIndex: nat, cur: nat, acc: seq<Sentence>)
    requires MatchesValid(text, ms, 0)
    requires matchIndex <= |ms| && cur <= |text|
    requires matchIndex < |ms| ==> cur <= ms[matchIndex].start
    requires ms[matchIndex..] == SentenceMatches(text, cur)
    ensures var r := CollectSentences(text, ms, matchIndex, cur, acc);
      SentencesShape(text, cur, r[|acc|..])
    decreases |ms| - matchIndex
  {
    var r := CollectSentences(text, ms, matchIndex, cur, acc);
    FirstMatch(text, cur);
    if matchIndex == |ms| {
      var t := Trim(text[cur..]);
      RestShape(text, cur, |acc|);
      if cur < |text| && t != [] {
        assert r[|acc|..] == [MakeSentence(|acc|, t)];
      } else {
        assert r[|acc|..] == [];
      }
    } else {
      var m := ms[matchIndex];
      assert SentenceMatches(text, cur)[0] == m;
      var j := TerminatorEnd(text, m.start);
      MatchSentenceTrim(text, cur, m.start, j, m.end);
      MatchSentenceStops(text, cur, SkipWs(text, cur), m.start, j);
      var st := MakeSentence(matchIndex, Trim(text[cur..m.end]));
      assert ms[matchIndex + 1..] == ms[matchIndex..][1..];
      CollectSentencesShape(text, ms, matchIndex + 1, m.end, acc + [st]);
      assert r == CollectSentences(text, ms, matchIndex + 1, m.end, acc + [st]);
      assert r[|acc|] == (acc + [st])[|acc|] == st;
      var tail := r[|acc|..];
      assert tail[0] == st && tail[1..] == r[|acc| + 1..];
      if j == |text| {
        assert |ms| == matchIndex + 1;
        assert |r| == |acc| + 1;
      }
      ShapeCons(text, cur, tail, j, m.end);
    }
  }

  // ---------------------------------------------------------------------------
  // Paragraphs
  // ---------------------------------------------------------------------------

  /** `split(/\n\n+/)`: the pieces between runs of two or more line feeds;
      glued back together they are the text with those runs deleted. */
  function SplitBlankLines(s: string): (r: seq<string>)
    ensures |r| >= 1
    ensures forall k :: 0 <= k < |r| ==> PairFree(r[k], '\n', '\n')
    ensures s != [] && s[0] != '\n' ==> r[0] != [] && r[0][0] == s[0]
    ensures Concat(r) == Clean.CollapseRuns(s, '\n', 2, 0)
    decreases |s|
  {
    if s == [] then [[]]
    else if s[0] == '\n' && Clean.RunEnd(s, 0, '\n') >= 2 then
      var rest := SplitBlankLines(s[Clean.RunEnd(s, 0, '\n')..]);
      assert ([[]] + rest)[1..] == rest;
      [[]] + rest
    else
      var rest := SplitBlankLines(s[1..]);
      assert s[0] == '\n' && |s| > 1 ==> s[1] != '\n';
      PairFreeConcat([s[0]], rest[0], '\n', '\n');
      var r := [[s[0]] + rest[0]] + rest[1..];
      assert Concat(r) == [s[0]] + Concat(rest) by {
        assert r[1..] == rest[1..];
      }
      assert s[0] == '\n' ==> s[..1] == [s[0]] && Clean.RunEnd(s, 0, '\n') == 1;
      r
  }

  /** A text without a blank line is one piece, unchanged. */
  lemma {:induction false} SplitBlankLinesSingle(s: string)
    requires PairFree(s, '\n', '\n')
    ensures SplitBlankLines(s) == [s]
    decreases |s|
  {
    if s != [] {
      assert s[0] == '\n' && |s| > 1 ==> s[1] != '\n';
      assert Clean.RunEnd(s, 0, '\n') < 2;
      PairFreeSlice(s, 1, |s|, '\n', '\n');
      SplitBlankLinesSingle(s[1..]);
      assert [s[0]] + s[1..] == s;
    }
  }

  /** A run of two or more line feeds between two texts that do not touch it
      with line feeds of their own separates their pieces. */
  lemma {:induction false} SplitBlankLinesAt(a: string, n: nat, b: string)
    requires n >= 2
    requires a == [] || a[|a| - 1] != '\n'
    requires b == [] || b[0] != '\n'
    ensures SplitBlankLines(a + Clean.Repeat('\n', n) + b) == SplitBlankLines(a) + SplitBlankLines(b)
    decreases |a|
  {
    var gap := Clean.Repeat('\n', n);
    if a == [] {
      var s := gap + b;
      assert a + gap + b == s;
      Clean.RunEndAt(s, 0, n, '\n');
      assert s[n..] == b;
      SplitBlankLinesBlank(s);
    } else {
      var e := Clean.RunEnd(a, 0, '\n');
      RunEndPrefix(a, gap + b, '\n');
      AppendAssoc(a, gap, b);
      if a[0] == '\n' && e >= 2 {
        SplitBlankLinesAt(a[e..], n, b);
        BlankThenAt(a, gap, b);
      } else {
        assert a[1..] == [] || a[1..][|a[1..]| - 1] == a[|a| - 1];
        SplitBlankLinesAt(a[1..], n, b);
        StepThenAt(a, gap, b);
      }
    }
  }

  /** `a` starts with a blank line: both sides start with an empty piece. */
  lemma BlankThenAt(a: string, gap: string, b: string)
    requires a != [] && a[0] == '\n' && a[|a| - 1] != '\n'
    requires Clean.RunEnd(a, 0, '\n') >= 2
    requires Clean.RunEnd(a + (gap + b), 0, '\n') == Clean.RunEnd(a, 0, '\n') < |a|
    requires var e := Clean.RunEnd(a, 0, '\n');
      SplitBlankLines(a[e..] + gap + b) == SplitBlankLines(a[e..]) + SplitBlankLines(b)
    ensures SplitBlankLines(a + gap + b) == SplitBlankLines(a) + SplitBlankLines(b)
  {
    var e := Clean.RunEnd(a, 0, '\n');
    var s := a + gap + b;
    AppendAssoc(a, gap, b);
    DropSplit(a, gap, b, e);
    SplitBlankLinesBlank(s);
    SplitBlankLinesBlank(a);
    AppendAssoc([[]], SplitBlankLines(a[e..]), SplitBlankLines(b));
  }

  /** `a` does not start with a blank line: its first character joins the
      first piece on both sides. */
  lemma StepThenAt(a: string, gap: string, b: string)
    requires a != [] && (a[0] != '\n' || Clean.RunEnd(a, 0, '\n') < 2)
    requires Clean.RunEnd(a + (gap + b), 0, '\n') == Clean.RunEnd(a, 0, '\n')
    requires SplitBlankLines(a[1..] + gap + b) == SplitBlankLines(a[1..]) + SplitBlankLines(b)
    ensures SplitBlankLines(a + gap + b) == SplitBlankLines(a) + SplitBlankLines(b)
  {
    var s := a + gap + b;
    AppendAssoc(a, gap, b);
    ConsSplit(a, gap, b);
    var ra, rb := SplitBlankLines(a[1..]), SplitBlankLines(b);
    var rs := SplitBlankLines(s[1..]);
    assert rs == ra + rb;
    SplitBlankLinesStep(s);
    SplitBlankLinesStep(a);
    var first := [a[0]] + ra[0];
    HeadOfAppend(ra, rb);
    assert SplitBlankLines(s) == [first] + (ra[1..] + rb);
    assert SplitBlankLines(a) == [first] + ra[1..];
    AppendAssoc([first], ra[1..], rb);
  }

  /** The step taken when the text does not start with a blank line. */
  lemma SplitBlankLinesStep(s: string)
    requires s != [] && (s[0] != '\n' || Clean.RunEnd(s, 0, '\n') < 2)
    ensures var rest := SplitBlankLines(s[1..]);
      SplitBlankLines(s) == [[s[0]] + rest[0]] + rest[1..]
  {
  }

  /** The step taken at a blank line. */
  lemma SplitBlankLinesBlank(s: string)
    requires s != [] && s[0] == '\n' && Clean.RunEnd(s, 0, '\n') >= 2
    ensures SplitBlankLines(s) == [[]] + SplitBlankLines(s[Clean.RunEnd(s, 0, '\n')..])
  {
  }

  /** A leading run of `c` ends inside `a` when `a` ends with another character. */
  lemma RunEndPrefix(a: string, t: string, c: char)
    requires a != [] && a[|a| - 1] != c
    ensures Clean.RunEnd(a + t, 0, c) == Clean.RunEnd(a, 0, c) < |a|
  {
    var j := Clean.RunEnd(a, 0, c);
    Clean.RunEndAt(a + t, 0, j, c);
  }

  predicate ParagraphWellFormed(p: Paragraph) {
    && p.text != [] && IsTrimmed(p.text)
    && PairFree(p.text, '\n', '\n')
    && |p.sentences| >= 1
    && SentencesIndexed(p.sentences)
    && SentencesWellFormed(p.sentences)
  }

  /** Paragraphs numbered from 0 in order, each well formed. */
  predicate DocumentWellFormed(ps: seq<Paragraph>) {
    NumberedFrom(ps, 0)
  }

  function DocLetters(ps: seq<Paragraph>): string {
    if ps == [] then [] else Letters(ps[0].sentences) + DocLetters(ps[1..])
  }

  function MakeParagraph(index: nat, piece: string): Paragraph {
    Paragraph(index, Trim(piece), ParseSentences(Trim(piece)))
  }

  lemma MakeParagraphWellFormed(index: nat, piece: string)
    requires PairFree(piece, '\n', '\n') && Trim(piece) != []
    ensures ParagraphWellFormed(MakeParagraph(index, piece))
  {
    PairFreeSlice(piece, TrimLo(piece), TrimHi(piece), '\n', '\n');
  }

  /** Trim each piece, drop the empty ones, number the rest from `next`. */
  function BuildParagraphs(pieces: seq<string>, next: nat): (r: seq<Paragraph>)
    requires forall k :: 0 <= k < |pieces| ==> PairFree(pieces[k], '\n', '\n')
    ensures NumberedFrom(r, next)
  {
    if pieces == [] then []
    else if Trim(pieces[0]) == [] then BuildParagraphs(pieces[1..], next)
    else
      MakeParagraphWellFormed(next, pieces[0]);
      ConsParagraph(MakeParagraph(next, pieces[0]), BuildParagraphs(pieces[1..], next + 1), next);
      [MakeParagraph(next, pieces[0])] + BuildParagraphs(pieces[1..], next + 1)
  }

  predicate NumberedFrom(ps: seq<Paragraph>, next: nat) {
    forall k :: 0 <= k < |ps| ==> ps[k].paragraphIndex == next + k && ParagraphWellFormed(ps[k])
  }

  lemma ConsParagraph(p: Paragraph, rest: seq<Paragraph>, next: nat)
    requires p.paragraphIndex == next && ParagraphWellFormed(p)
    requires NumberedFrom(rest, next + 1)
    ensures NumberedFrom([p] + rest, next)
  {
    forall k | 0 <= k < |[p] + rest|
      ensures ([p] + rest)[k].paragraphIndex == next + k && ParagraphWellFormed(([p] + rest)[k])
    {
      if k > 0 {
        assert ([p] + rest)[k] == rest[k - 1];
      }
    }
  }

  lemma PieceLetters(index: nat, piece: string)
    ensures Trim(piece) != [] ==> Letters(MakeParagraph(index, piece).sentences) == RemoveWs(piece)
    ensures Trim(piece) == [] ==> RemoveWs(piece) == []
  {
    RemoveWsTrim(piece);
    ParseSentencesLetters(Trim(piece));
  }

  lemma {:induction false} BuildParagraphsLetters(pieces: seq<string>, next: nat)
    requires forall k :: 0 <= k < |pieces| ==> PairFree(pieces[k], '\n', '\n')
    ensures DocLetters(BuildParagraphs(pieces, next)) == RemoveWs(Concat(pieces))
    decreases |pieces|
  {
    if pieces != [] {
      var empty := Trim(pieces[0]) == [];
      var rest := BuildParagraphs(pieces[1..], if empty then next else next + 1);
      BuildParagraphsLetters(pieces[1..], if empty then next else next + 1);
      PieceLetters(next, pieces[0]);
      RemoveWsConcat(pieces[0], Concat(pieces[1..]));
      if !empty {
        var r := BuildParagraphs(pieces, next);
        assert r[1..] == rest;
      }
    }
  }

  /** `parseParagraphs`: the trimmed, non-empty pieces between blank lines,
      numbered from 0, each split into sentences. */
  function ParseParagraphs(text: string): (r: seq<Paragraph>)
    ensures DocumentWellFormed(r)
  {
    if text == [] then [] else BuildParagraphs(SplitBlankLines(text), 0)
  }

  /** A text with something to read and no blank line is one paragraph: the
      whole text, trimmed. */
  lemma ParseParagraphsSingle(text: string)
    requires PairFree(text, '\n', '\n') && !AllWs(text)
    ensures ParseParagraphs(text) == [MakeParagraph(0, text)]
    ensures ParseParagraphs(text)[0].text == Trim(text)
  {
    assert text != [];
    SplitBlankLinesSingle(text);
    assert ParseParagraphs(text) == BuildParagraphs([text], 0);
    BuildParagraphsOne(text, 0);
  }

  lemma BuildParagraphsOne(piece: string, next: nat)
    requires PairFree(piece, '\n', '\n') && Trim(piece) != []
    ensures BuildParagraphs([piece], next) == [MakeParagraph(next, piece)]
  {
    var pieces := [piece];
    assert pieces[0] == piece && pieces[1..] == [];
    assert BuildParagraphs(pieces[1..], next + 1) == [];
  }

  /** No non-white-space character of the text is lost or repeated: the
      words of all paragraphs spell out exactly its non-white-space
      characters. */
  lemma ParseParagraphsLetters(text: string)
    ensures DocLetters(ParseParagraphs(text)) == RemoveWs(text)
  {
    if text != [] {
      BuildParagraphsLetters(SplitBlankLines(text), 0);
      Clean.CollapseKeepsLetters(text, '\n', 2, 0);
    }
  }

  // ---------------------------------------------------------------------------
  // Totals and processText
  // ---------------------------------------------------------------------------

  function SentenceWordCount(ss: seq<Sentence>): nat {
    if ss == [] then 0 else |ss[0].words| + SentenceWordCount(ss[1..])
  }

  function ParagraphWordCount(p: Paragraph): nat {
    SentenceWordCount(p.sentences)
  }

  function WordsIn(ps: seq<Paragraph>): nat {
    if ps == [] then 0 else ParagraphWordCount(ps[0]) + WordsIn(ps[1..])
  }

  function SentencesIn(ps: seq<Paragraph>): nat {
    if ps == [] then 0 else |ps[0].sentences| + SentencesIn(ps[1..])
  }

  lemma {:induction false} SentenceWordCountAppend(a: seq<Sentence>, b: seq<Sentence>)
    ensures SentenceWordCount(a + b) == SentenceWordCount(a) + SentenceWordCount(b)
    decreases |a|
  {
    if a == [] {
      assert a + b == b;
    } else {
      assert (a + b)[1..] == a[1..] + b;
      SentenceWordCountAppend(a[1..], b);
    }
  }

  lemma {:induction false} WordsInAppend(a: seq<Paragraph>, b: seq<Paragraph>)
    ensures WordsIn(a + b) == WordsIn(a) + WordsIn(b)
    ensures SentencesIn(a + b) == SentencesIn(a) + SentencesIn(b)
    decreases |a|
  {
    if a == [] {
      assert a + b == b;
    } else {
      assert (a + b)[1..] == a[1..] + b;
      WordsInAppend(a[1..], b);
    }
  }

  lemma {:induction false} NoWordsNoLettersInSentences(ss: seq<Sentence>)
    requires SentencesWellFormed(ss)
    ensures SentenceWordCount(ss) == 0 <==> Letters(ss) == []
    decreases |ss|
  {
    if ss != [] {
      var ws := ss[0].words;
      assert Texts(ws)[0] == ws[0].text != [];
      assert Concat(Texts(ws)) == Texts(ws)[0] + Concat(Texts(ws)[1..]);
      NoWordsNoLettersInSentences(ss[1..]);
    }
  }

  /** With every word non-empty, a document has words exactly when its words
      spell out some character. */
  lemma {:induction false} NoWordsNoLetters(ps: seq<Paragraph>)
    requires forall k :: 0 <= k < |ps| ==> ParagraphWellFormed(ps[k])
    ensures WordsIn(ps) == 0 <==> DocLetters(ps) == []
    decreases |ps|
  {
    if ps != [] {
      NoWordsNoLettersInSentences(ps[0].sentences);
      NoWordsNoLetters(ps[1..]);
    }
  }

  /** `processText`: clean the text, split it, and count paragraphs,
      sentences and words. The words spell out exactly the non-white-space
      characters of the cleaned text, so there are words exactly when the
      cleaned text is not empty. */
  method ProcessText(raw: string, refs: string -> string) returns (doc: Document)
    ensures doc.originalText == raw && doc.cleanedText == Clean.CleanText(raw, refs)
    ensures doc.paragraphs == ParseParagraphs(doc.cleanedText)
    ensures DocumentWellFormed(doc.paragraphs)
    ensures DocLetters(doc.paragraphs) == RemoveWs(doc.cleanedText)
    ensures doc.totalParagraphs == |doc.paragraphs|
    ensures doc.totalSentences == SentencesIn(doc.paragraphs)
    ensures doc.totalWords == WordsIn(doc.paragraphs)
    ensures doc.totalWords == 0 <==> doc.cleanedText == []
  {
    var cleaned := Clean.CleanText(raw, refs);
    if cleaned == [] {
      return Document(raw, [], [], 0, 0, 0);
    }
    var paragraphs := ParseParagraphs(cleaned);
    var totalWords, totalSentences := CountTotals(paragraphs);
    ParseParagraphsLetters(cleaned);
    CleanedWords(cleaned, paragraphs);
    doc := Document(raw, cleaned, paragraphs, totalWords, totalSentences, |paragraphs|);
  }

  /** The two nested `forEach` loops of `processText` that add up the
      sentences and words of every paragraph. */
  method CountTotals(paragraphs: seq<Paragraph>) returns (totalWords: nat, totalSentences: nat)
    ensures totalSentences == SentencesIn(paragraphs)
    ensures totalWords == WordsIn(paragraphs)
  {
    totalWords, totalSentences := 0, 0;
    var i := 0;
    while i < |paragraphs|
      invariant 0 <= i <= |paragraphs|
      invariant totalSentences == SentencesIn(paragraphs[..i])
      invariant totalWords == WordsIn(paragraphs[..i])
    {
      var p := paragraphs[i];
      totalSentences := totalSentences + |p.sentences|;
      var j := 0;
      while j < |p.sentences|
        invariant 0 <= j <= |p.sentences|
        invariant totalWords == WordsIn(paragraphs[..i]) + SentenceWordCount(p.sentences[..j])
      {
        totalWords := totalWords + |p.sentences[j].words|;
        SentenceWordCountAppend(p.sentences[..j], [p.sentences[j]]);
        assert p.sentences[..j + 1] == p.sentences[..j] + [p.sentences[j]];
        j := j + 1;
      }
      assert p.sentences[..j] == p.sentences;
      WordsInAppend(paragraphs[..i], [p]);
      assert paragraphs[..i + 1] == paragraphs[..i] + [p];
      i := i + 1;
    }
    assert paragraphs[..i] == paragraphs;
  }

  lemma CleanedWords(cleaned: string, ps: seq<Paragraph>)
    requires IsTrimmed(cleaned) && ps == ParseParagraphs(cleaned)
    ensures WordsIn(ps) == 0 <==> cleaned == []
  {
    ParseParagraphsLetters(cleaned);
    NoWordsNoLetters(ps);
    RemoveWsEmpty(cleaned);
  }
}

=== FILE: strings.dfy ===
/** String helpers with JavaScript semantics: the white-space class shared by
    the regular-expression escape `\s` and `String.prototype.trim`, trimming,
    literal replace-all (`split(p).join(q)`) and white-space removal. */
module Strings {

  /** JavaScript white space and line terminators: the characters `\s` matches
      and `trim` removes. */
  predicate IsWs(c: char) {
    || c == '\t' || c == '\n' || c == '\U{000B}' || c == '\U{000C}' || c == '\r' || c == ' '
    || c == '\U{00A0}' || c == '\U{1680}' || ('\U{2000}' <= c <= '\U{200A}')
    || c == '\U{2028}' || c == '\U{2029}' || c == '\U{202F}' || c == '\U{205F}'
    || c == '\U{3000}' || c == '\U{FEFF}'
  }

  /** The smaller of two integers (`Math.min`). */
  function Min(a: int, b: int): (m: int)
    ensures m <= a && m <= b && (m == a || m == b)
  {
    if a <= b then a else b
  }

  predicate AllWs(s: string) {
    forall i :: 0 <= i < |s| ==> IsWs(s[i])
  }

  predicate NoWs(s: string) {
    forall i :: 0 <= i < |s| ==> !IsWs(s[i])
  }

  /** What `trim` leaves: empty, or starting and ending with a non-white-space character. */
  predicate IsTrimmed(s: string) {
    s == [] || (!IsWs(s[0]) && !IsWs(s[|s| - 1]))
  }

  /** Index of the first non-white-space character at or after `i`, or `|s|`. */
  function SkipWs(s: string, i: nat): (j: nat)
    requires i <= |s|
    ensures i <= j <= |s|
    ensures forall k :: i <= k < j ==> IsWs(s[k])
    ensures j < |s| ==> !IsWs(s[j])
    decreases |s| - i
  {
    if i == |s| || !IsWs(s[i]) then i else SkipWs(s, i + 1)
  }

  /** One past the last non-white-space character before `j`, or 0. */
  function SkipWsBack(s: string, j: nat): (i: nat)
    requires j <= |s|
    ensures i <= j
    ensures forall k :: i <= k < j ==> IsWs(s[k])
    ensures i > 0 ==> !IsWs(s[i - 1])
  {
    if j == 0 || !IsWs(s[j - 1]) then j else SkipWsBack(s, j - 1)
  }

  function TrimLo(s: string): nat
    ensures TrimLo(s) <= |s|
  {
    SkipWs(s, 0)
  }

  function TrimHi(s: string): (hi: nat)
    ensures TrimLo(s) <= hi <= |s|
    ensures forall k :: hi <= k < |s| ==> IsWs(s[k])
  {
    var lo := TrimLo(s);
    if lo == |s| then |s| else SkipWsBack(s, |s|)
  }

  /** `String.prototype.trim`: drop leading and trailing white space. */
  function Trim(s: string): (r: string)
    ensures IsTrimmed(r)
    ensures r == [] <==> AllWs(s)
  {
    s[TrimLo(s)..TrimHi(s)]
  }

  /** What `trim` drops is white space at both ends, and nothing else. */
  lemma TrimParts(s: string)
    ensures AllWs(s[..TrimLo(s)]) && AllWs(s[TrimHi(s)..])
    ensures s == s[..TrimLo(s)] + Trim(s) + s[TrimHi(s)..]
  {
    assert s == s[..TrimLo(s)] + s[TrimLo(s)..TrimHi(s)] + s[TrimHi(s)..];
  }

  lemma {:induction false} SkipWsAt(s: string, i: nat, j: nat)
    requires i <= j <= |s|
    requires forall k :: i <= k < j ==> IsWs(s[k])
    requires j < |s| ==> !IsWs(s[j])
    ensures SkipWs(s, i) == j
    decreases j - i
  {
    if i < j {
      SkipWsAt(s, i + 1, j);
    }
  }

  lemma {:induction false} SkipWsBackAt(s: string, i: nat, j: nat)
    requires i <= j <= |s|
    requires forall k :: i <= k < j ==> IsWs(s[k])
    requires i > 0 ==> !IsWs(s[i - 1])
    ensures SkipWsBack(s, j) == i
    decreases j - i
  {
    if i < j {
      SkipWsBackAt(s, i, j - 1);
    }
  }

  /** White space, then a trimmed non-empty text, then white space: `trim`
      returns exactly the middle. */
  lemma TrimUnique(x: string, y: string, z: string)
    requires AllWs(x) && AllWs(z)
    requires y != [] && IsTrimmed(y)
    ensures Trim(x + y + z) == y
  {
    var s := x + y + z;
    var hi := |x| + |y|;
    assert s[|x|] == y[0] && s[hi - 1] == y[|y| - 1];
    SkipWsAt(s, 0, |x|);
    SkipWsBackAt(s, hi, |s|);
    assert s[|x|..hi] == y;
  }

  lemma TrimOfTrimmed(s: string)
    requires IsTrimmed(s)
    ensures Trim(s) == s
  {
  }

  /** Literal left-to-right, non-overlapping replacement of every occurrence of
      `pat` by `rep`; this is what both `s.split(pat).join(rep)` and a global
      regular expression with a literal pattern compute. */
  function ReplaceAll(s: string, pat: string, rep: string): (r: string)
    requires pat != []
    ensures forall x :: x in r ==> x in s || x in rep
    ensures |pat| == 1 ==> forall x :: x in r ==> (x in s && x != pat[0]) || x in rep
    ensures pat[0] !in s ==> r == s
    decreases |s|
  {
    if |s| < |pat| then s
    else if s[..|pat|] == pat then
      assert s[0] == pat[0];
      rep + ReplaceAll(s[|pat|..], pat, rep)
    else
      assert [s[0]] + s[1..] == s;
      [s[0]] + ReplaceAll(s[1..], pat, rep)
  }

  /** Text before the first occurrence is kept, the occurrence becomes `rep`,
      and replacement carries on after it. */
  lemma {:induction false} ReplaceAllAt(a: string, pat: string, rep: string, b: string)
    requires pat != [] && pat[0] !in a
    ensures ReplaceAll(a + pat + b, pat, rep) == a + rep + ReplaceAll(b, pat, rep)
    decreases |a|
  {
    var s := a + pat + b;
    var tail := ReplaceAll(b, pat, rep);
    if a == [] {
      assert s[..|pat|] == pat && s[|pat|..] == b;
      ReplaceAllMatch(s, pat, rep);
    } else {
      ConsSplit(a, pat, b);
      assert a[0] in a;
      ReplaceAllSkip(s, pat, rep);
      ReplaceAllAt(a[1..], pat, rep, b);
      ConsSplit(a, rep, tail);
    }
  }

  /** Splitting off the first element of `a + b + c`. */
  lemma ConsSplit<T>(a: seq<T>, b: seq<T>, c: seq<T>)
    requires a != []
    ensures (a + b + c)[0] == a[0] && (a + b + c)[1..] == a[1..] + b + c
    ensures a + b + c == [a[0]] + (a[1..] + b + c)
  {
    assert a == [a[0]] + a[1..];
  }

  /** An occurrence at the start is replaced. */
  lemma ReplaceAllMatch(s: string, pat: string, rep: string)
    requires pat != [] && |pat| <= |s| && s[..|pat|] == pat
    ensures ReplaceAll(s, pat, rep) == rep + ReplaceAll(s[|pat|..], pat, rep)
  {
  }

  lemma DropSplit<T>(a: seq<T>, b: seq<T>, c: seq<T>, e: nat)
    requires e <= |a|
    ensures (a + b + c)[e..] == a[e..] + b + c
  {
  }

  lemma HeadOfAppend<T>(x: seq<T>, y: seq<T>)
    requires x != []
    ensures (x + y)[0] == x[0] && (x + y)[1..] == x[1..] + y
    ensures [x[0]] + x[1..] + y == x + y
  {
  }

  /** A first character that cannot start `pat` is kept as it is. */
  lemma ReplaceAllSkip(s: string, pat: string, rep: string)
    requires pat != [] && s != [] && s[0] != pat[0]
    ensures ReplaceAll(s, pat, rep) == [s[0]] + ReplaceAll(s[1..], pat, rep)
  {
    if |s| >= |pat| {
      assert s[..|pat|][0] == s[0];
    } else {
      assert ReplaceAll(s[1..], pat, rep) == s[1..];
      assert [s[0]] + s[1..] == s;
    }
  }

  /** A prefix without the pattern's first character is kept as it is. */
  lemma {:induction false} ReplaceAllPrefix(p: string, x: string, pat: string, rep: string)
    requires pat != [] && pat[0] !in p
    ensures ReplaceAll(p + x, pat, rep) == p + ReplaceAll(x, pat, rep)
    decreases |p|
  {
    if p == [] {
      assert p + x == x;
    } else {
      HeadOfAppend(p, x);
      assert p[0] in p;
      ReplaceAllSkip(p + x, pat, rep);
      ReplaceAllPrefix(p[1..], x, pat, rep);
      HeadOfAppend(p, ReplaceAll(x, pat, rep));
    }
  }

  /** Two characters that differ from a two-character pattern, the second
      not starting it, are kept. */
  lemma ReplaceAllMiss2(c: char, d: char, x: string, pat: string, rep: string)
    requires |pat| == 2 && [c, d] != pat && d != pat[0]
    ensures ReplaceAll([c, d] + x, pat, rep) == [c, d] + ReplaceAll(x, pat, rep)
  {
    var s := [c, d] + x;
    assert s[..2] == [c, d];
    assert s[1..] == [d] + x;
    ReplaceAllSkip([d] + x, pat, rep);
    assert ([d] + x)[1..] == x;
  }

  /** Replacing white space by white space keeps every other character. */
  lemma {:induction false} ReplaceAllKeepsLetters(s: string, pat: string, rep: string)
    requires pat != [] && AllWs(pat) && AllWs(rep)
    ensures RemoveWs(ReplaceAll(s, pat, rep)) == RemoveWs(s)
    decreases |s|
  {
    if |s| >= |pat| {
      if s[..|pat|] == pat {
        var rest := s[|pat|..];
        ReplaceAllKeepsLetters(rest, pat, rep);
        RemoveWsConcat(rep, ReplaceAll(rest, pat, rep));
        RemoveWsEmpty(rep);
        assert s == pat + rest;
        RemoveWsConcat(pat, rest);
        RemoveWsEmpty(pat);
      } else {
        var r := [s[0]] + ReplaceAll(s[1..], pat, rep);
        ReplaceAllKeepsLetters(s[1..], pat, rep);
        assert r[0] == s[0] && r[1..] == ReplaceAll(s[1..], pat, rep);
      }
    }
  }

  /** The non-white-space characters of `s`, in order. */
  function RemoveWs(s: string): (r: string)
    ensures NoWs(r)
    ensures |r| <= |s|
  {
    if s == [] then []
    else if IsWs(s[0]) then RemoveWs(s[1..])
    else [s[0]] + RemoveWs(s[1..])
  }

  lemma {:induction false} RemoveWsConcat(a: string, b: string)
    ensures RemoveWs(a + b) == RemoveWs(a) + RemoveWs(b)
    decreases |a|
  {
    if a == [] {
      assert a + b == b;
    } else {
      assert (a + b)[1..] == a[1..] + b;
      RemoveWsConcat(a[1..], b);
    }
  }

  lemma RemoveWsTakeDrop(s: string, e: nat)
    requires e <= |s|
    ensures RemoveWs(s) == RemoveWs(s[..e]) + RemoveWs(s[e..])
  {
    TakeDrop(s, e);
    RemoveWsConcat(s[..e], s[e..]);
  }

  lemma TakeDrop<T>(s: seq<T>, e: nat)
    requires e <= |s|
    ensures s[..e] + s[e..] == s
  {
  }

  lemma RemoveWsCons(c: char, s: string)
    ensures RemoveWs([c] + s) == (if IsWs(c) then [] else [c]) + RemoveWs(s)
  {
    assert ([c] + s)[0] == c && ([c] + s)[1..] == s;
  }

  lemma {:induction false} RemoveWsEmpty(s: string)
    ensures RemoveWs(s) == [] <==> AllWs(s)
    decreases |s|
  {
    if s != [] {
      RemoveWsEmpty(s[1..]);
      assert AllWs(s) <==> IsWs(s[0]) && AllWs(s[1..]);
    }
  }

  lemma {:induction false} RemoveWsOfNoWs(s: string)
    requires NoWs(s)
    ensures RemoveWs(s) == s
    decreases |s|
  {
    if s != [] {
      RemoveWsOfNoWs(s[1..]);
    }
  }

  /** Trimming only ever drops white space. */
  lemma RemoveWsTrim(s: string)
    ensures RemoveWs(Trim(s)) == RemoveWs(s)
  {
    var front, middle, back := s[..TrimLo(s)], Trim(s), s[TrimHi(s)..];
    TrimParts(s);
    RemoveWsConcat(front + middle, back);
    RemoveWsConcat(front, middle);
    RemoveWsEmpty(front);
    RemoveWsEmpty(back);
    assert RemoveWs(s) == [] + RemoveWs(middle) + [];
  }

  lemma AppendAssoc<T>(x: seq<T>, y: seq<T>, z: seq<T>)
    ensures (x + y) + z == x + (y + z)
  {
  }

  /** Concatenation of a sequence of strings. */
  function Concat(ss: seq<string>): string {
    if ss == [] then [] else ss[0] + Concat(ss[1..])
  }

  lemma {:induction false} ConcatAppend(a: seq<string>, b: seq<string>)
    ensures Concat(a + b) == Concat(a) + Concat(b)
    decreases |a|
  {
    if a == [] {
      assert a + b == b;
    } else {
      assert (a + b)[1..] == a[1..] + b;
      ConcatAppend(a[1..], b);
    }
  }

  /** No occurrence of `x` immediately followed by `y`. */
  predicate PairFree(s: string, x: char, y: char) {
    forall i :: 0 <= i < |s| - 1 ==> !(s[i] == x && s[i + 1] == y)
  }

  lemma PairFreeConcat(a: string, b: string, x: char, y: char)
    requires PairFree(a, x, y) && PairFree(b, x, y)
    requires a != [] && b != [] ==> !(a[|a| - 1] == x && b[0] == y)
    ensures PairFree(a + b, x, y)
  {
    var s := a + b;
    forall i | 0 <= i < |s| - 1
      ensures !(s[i] == x && s[i + 1] == y)
    {
      if i + 1 < |a| {
        assert s[i] == a[i] && s[i + 1] == a[i + 1];
      } else if i >= |a| {
        assert s[i] == b[i - |a|] && s[i + 1] == b[i - |a| + 1];
      }
    }
  }

  lemma PairFreeSlice(s: string, lo: nat, hi: nat, x: char, y: char)
    requires lo <= hi <= |s|
    requires PairFree(s, x, y)
    ensures PairFree(s[lo..hi], x, y)
  {
    var t := s[lo..hi];
    forall i | 0 <= i < |t| - 1
      ensures !(t[i] == x && t[i + 1] == y)
    {
      assert t[i] == s[lo + i] && t[i + 1] == s[lo + i + 1];
    }
  }
}

=== FILE: wrappers.dfy ===
/** Failure-compatible wrappers used across the model: an optional value (the
    source's `null` / `undefined` results) and a success-or-error result (the
    source's `{ success, error }` objects). */
module Wrappers {

  datatype Option<+T> = None | Some(value: T) {

    /** The wrapped value, or `default` when there is none (the source's `x || default`). */
    function GetOr(default: T): T {
      match this
      case Some(v) => v
      case None => default
    }
  }

  datatype Result<+R, +E> = Success(value: R) | Failure(error: E)
}
